=== FILE: README.md ===
# Spotify listening-data pipeline, modelled in Dafny

This project models the batch data path of a Spotify listening-analytics repository: the
scripts that collect each team member's listening data, enrich tracks with audio features,
merge the team's histories, and the application helpers that key, store and read back
snapshots in an S3-compatible object store, compute the dashboard's counts and classify
listening contexts.

Each core source file is one Dafny module:

| module | file | what it covers |
|---|---|---|
| `MergeTeamData` | scripts/merge_team_data.py | loading, concatenating and ordering member histories, numeric user ids, the two de-duplication rules, count statistics |
| `EnrichAudioFeatures` | scripts/enrich_with_audio_features.py | track extraction from raw JSON, batched API features, exact-id Kaggle look-up for what the API missed, source tagging, time-period and context inference |
| `DataCollection` | app/func/data_collection.py | snapshot rows stamped with time and user, artist ranks, count metrics, the snapshot key layout, upload accounting and counting snapshots back from keys |
| `S3Storage` | app/func/s3_storage.py | upload guards, listing a user's snapshots newest first, loading one data type's archive with keep-first de-duplication |
| `DatetimeUtils` | app/func/datetime_utils.py | axis labels, hour and weekday histograms, "time ago" text, freshness, seasons |
| `DataFetching` | app/func/data_fetching.py | error predicates, the three-attempt retry policy, fetch fallbacks, batched audio-feature requests |
| `DashboardHelpers` | app/func/dashboard_helpers.py | the current-snapshot key set, sync-status buckets, the Kaggle enrichment and its coverage counts |
| `FeatureEngineering` | src/feature_engineering.py | which composite columns are created, `classify_context`, the context column, feature-name filters |
| `DatasetProcessing` | src/data_processing.py | the CSV file order and encoding fallback, column identification, the cleaning filters |
| `TrackProcessing` | app/func/data_processing.py | frames from recently-played items and top tracks, time columns, the optional feature merge, diversity-score guards |
| `CollectSpotifyData` | scripts/collect_spotify_data.py | one member's collection counters, errors and files under partial failure; the team run and its totals |

Shared modules: `Wrappers` (Option, Result), `Text` (the Python string operations used),
`Seqs` (batching, filtering, keep-first de-duplication, a stable sort) and `Frames` (a pandas
frame as a set of columns and a sequence of rows).

A pandas frame is modelled as a set of column names and a sequence of rows, each row a map
from column to cell; a missing cell or NaN is `Null` (or `None`). A call that may raise
returns a `Result` carrying the exception text. The Spotify client, the object store, file
reads and writes and the clock are parameters: functions that answer each call with its
outcome. Where the code does something stateful (the collectors' counters, the merger's
statistics, the enricher's counters and loops that fill lists or dictionaries) the model
is a class or a method with loop invariants, proved against a specification function.

The code's own choices are kept as written: Kaggle enrichment matches on the exact track id
only, repeated top tracks keep their first occurrence, a retried call makes at most three
attempts in all, and nothing limits the request rate beyond those retries.

## Model

| member | source | states |
|---|---|---|
| MergeTeamData.MergeDataframes | scripts/merge_team_data.py:95-123 | no frames gives the empty frame; otherwise the union of the columns and every input row with its multiplicity, ordered by timestamp when some row has one and left in input order when none does |
| MergeTeamData.TimestampLeTotalPreorder | scripts/merge_team_data.py:116-117 | the `sort_values('timestamp')` order (ascending, missing timestamps last) is a total preorder, so the sort is well defined |
| MergeTeamData.AddUserIds | scripts/merge_team_data.py:125-145 | a frame without `user_name` is returned unchanged; otherwise the row count is kept |
| MergeTeamData.AddUserIdsSpec | scripts/merge_team_data.py:134-138 | the ids number the distinct names 1..k in sorted-name order: each row gets its own name's id, equal names share an id, distinct names never do, a smaller name has a smaller id, and every id in 1..k is used |
| MergeTeamData.DeduplicateTracks | scripts/merge_team_data.py:147-177 | the result is an error (KeyError) exactly when the frame has no `source` column, or has a top-track row but lacks one of `user_name`, `track_id`, `time_range`; otherwise the columns are kept and no row is added |
| MergeTeamData.DuplicatesRemoved | scripts/merge_team_data.py:157-174 | the reported `duplicates_removed` is the input length minus the output length and is never negative |
| MergeTeamData.DeduplicateKeepsPlays | scripts/merge_team_data.py:159-161 | the recently-played rows of the output are exactly those of the input, in order and with repeats |
| MergeTeamData.DeduplicateLayout | scripts/merge_team_data.py:161-172 | only plays and top-track rows survive, and every play comes before every top-track row |
| MergeTeamData.DeduplicateTopRows | scripts/merge_team_data.py:163-172 | the rows after the plays are the keep-first de-duplication of the top-track rows on (user, track, range) |
| MergeTeamData.DeduplicateTopTracks | scripts/merge_team_data.py:163-169 | the surviving top-track rows share no (user, track, range) key, every key of the input survives, and each survivor is the first input row with its key, in input order |
| MergeTeamData.Plays | scripts/merge_team_data.py:190-191 | the play count (rows with a timestamp) never exceeds the row count |
| MergeTeamData.RowsOf | scripts/merge_team_data.py:204 | a user's sub-frame holds only that user's rows, all taken from the frame |
| MergeTeamData.PerUserTotalsSum | scripts/merge_team_data.py:202-209 | the per-user `total_tracks` figures add up to the overall `total_tracks` |
| MergeTeamData.LoadedFramesSpec | scripts/merge_team_data.py:66-93 | `members_processed` gains exactly the members whose frame loaded non-empty, in load order, side by side with the returned frames, each frame being what that member's load returned; missing files, failed reads and empty files are skipped |
| MergeTeamData.LoadErrorsSpec | scripts/merge_team_data.py:52-64 | one error per member whose read failed, in load order, each reading "Error loading data for {user}: {e}" with that read's own error |
| MergeTeamData.TeamDataMerger.constructor | scripts/merge_team_data.py:18-38 | the statistics start at zero with no members, errors or per-user entries |
| MergeTeamData.StatisticsAfterSpec | scripts/merge_team_data.py:179-209 | the figures `calculate_statistics` leaves: `total_tracks` is the row count; with `track_id`, `unique_tracks` the distinct ids and `total_plays` the timestamped rows when that column exists (else the earlier figure); with `user_name` too, one `per_user` entry per user holding that user's figures, whose totals add up to `total_tracks`; without `track_id` the other figures stay as they were |
| MergeTeamData.TeamDataMerger.LoadAllTeamData | scripts/merge_team_data.py:40-93 | the named members, or every listed file's member when none are named, are loaded; kept frames and members are appended, one error per failed read, and the count statistics are untouched |
| MergeTeamData.TeamDataMerger.CalculateStatistics | scripts/merge_team_data.py:179-209 | raises (KeyError) exactly when `track_id` or `user_name` is missing; the merger's figures become those `StatisticsAfter` gives for the frame and the old figures, so what was stored before the raise stays; members and errors are unchanged |
| MergeTeamData.TeamDataMerger.FillPerUser | scripts/merge_team_data.py:202-209 | one `per_user` entry per user in order of first appearance, holding that user's row count, distinct tracks and plays |
| MergeTeamData.TeamDataMerger.PrintSummary | scripts/merge_team_data.py:278-358 | the summary printers raise exactly when some processed member has no `per_user` entry (KeyError naming the first such member, in processing order) or the frame has no `timestamp` column (KeyError 'timestamp') |
| MergeTeamData.TeamDataMerger.MergeAndSave | scripts/merge_team_data.py:230-276 | members and errors grow by exactly what `load_all_team_data` adds; nothing loaded gives the empty frame and leaves the figures alone; otherwise the run fails exactly when de-duplication raises, the de-duplicated frame lacks `track_id` or `user_name`, a processed member has no `per_user` entry, or the frame has no `timestamp` column; a success returns the de-duplication of the user-numbered merge of the kept frames, and the figures are those `calculate_statistics` leaves for that frame, stored before any printer raises |
| EnrichAudioFeatures.ArtistNames | scripts/enrich_with_audio_features.py:81 | one name per artist, in order |
| EnrichAudioFeatures.FirstArtistId | scripts/enrich_with_audio_features.py:82 | no artist id when the track has no artists, else the first artist's id |
| EnrichAudioFeatures.PlayRow | scripts/enrich_with_audio_features.py:77-92 | the row of a recently-played item fails exactly when its `context` is an explicit null; otherwise it copies the track fields, `played_at` and the context's type and URI, tagged `recently_played` |
| EnrichAudioFeatures.PlayRowFixed | scripts/enrich_with_audio_features.py:77-92 | the corrected row reads a null context as no context and agrees with `PlayRow` on every other item |
| EnrichAudioFeatures.NullContextStopsExtraction | scripts/enrich_with_audio_features.py:89-90 | a play with a null context makes the row as written fail, while the corrected row still carries the track |
| EnrichAudioFeatures.TopRowsOfSpec | scripts/enrich_with_audio_features.py:114-129 | one row per item of every range; each row is tagged `top_tracks`, carries the first artist's id (none without artists), and is the row of some item of some range with that range's key as `time_range` |
| EnrichAudioFeatures.Trunc | scripts/enrich_with_audio_features.py:203 | `int(x)` truncates toward zero |
| EnrichAudioFeatures.IntCell | scripts/enrich_with_audio_features.py:203-212 | `int(row.get(col, default))` raises exactly on a NaN cell and gives the default when the column is absent |
| EnrichAudioFeatures.KaggleRecord | scripts/enrich_with_audio_features.py:199-214 | a Kaggle row converts exactly when none of `key`, `mode`, `time_signature` is NaN; the record holds the twelve feature columns, each float feature copied from the row, and is tagged `kaggle_db` |
| EnrichAudioFeatures.KaggleRecordInts | scripts/enrich_with_audio_features.py:203-212 | `key` and `mode` hold the row's value truncated toward zero (0 when the column is absent) and `time_signature` likewise (4 when absent) |
| EnrichAudioFeatures.FirstRow | scripts/enrich_with_audio_features.py:197 | the row picked for an id is the first row of the table with that id |
| EnrichAudioFeatures.KaggleLookupSpec | scripts/enrich_with_audio_features.py:192-218 | a successful lookup maps exactly the requested ids present in the table, each to the record of the first row with that id |
| EnrichAudioFeatures.KaggleLookupErrSticks | scripts/enrich_with_audio_features.py:195-215 | once a row has raised, later ids change neither the outcome nor the `features_from_kaggle` count |
| EnrichAudioFeatures.ZipHits | scripts/enrich_with_audio_features.py:158-161 | no more records are counted than pairs are visited |
| EnrichAudioFeatures.ZipIntoKeys | scripts/enrich_with_audio_features.py:158-160 | pairing only adds ids of the batch, each with a non-empty record |
| EnrichAudioFeatures.ZipIntoSize | scripts/enrich_with_audio_features.py:158-161 | each truthy record adds at most one id to the map |
| EnrichAudioFeatures.ZipIntoMembers | scripts/enrich_with_audio_features.py:158-160 | after the `zip` loop the map holds exactly the ids it held before and the ids paired with a truthy record |
| EnrichAudioFeatures.ZipIntoLast | scripts/enrich_with_audio_features.py:158-160 | an id paired with a truthy record maps to the record of its last such pair in the batch |
| EnrichAudioFeatures.ZipIntoUntouched | scripts/enrich_with_audio_features.py:158-160 | an id with no truthy pair in the batch keeps the record it had |
| EnrichAudioFeatures.FetchFoldSpec | scripts/enrich_with_audio_features.py:148-175 | the map holds exactly the ids paired with a truthy record in a batch that returned, each mapped to the record of its last such pair; each id paired in a successful batch raises exactly one of the two counters; each failed batch leaves exactly one error; no more ids are stored than were counted |
| EnrichAudioFeatures.FetchFoldKeys | scripts/enrich_with_audio_features.py:148-164 | over all batches, an id is stored exactly when some batch that returned pairs it with a truthy record |
| EnrichAudioFeatures.FetchFoldValues | scripts/enrich_with_audio_features.py:148-164 | over all batches, each stored id maps to the record of its last truthy pair in call order |
| EnrichAudioFeatures.TruthyIdsSpec | scripts/enrich_with_audio_features.py:149 | the ids sent are exactly the present, non-empty ids of the input, one per such entry and in input order |
| EnrichAudioFeatures.MissingIds | scripts/enrich_with_audio_features.py:240 | an id is missing exactly when it is requested and the API did not answer it |
| EnrichAudioFeatures.ResolutionSpec | scripts/enrich_with_audio_features.py:239-260 | Kaggle never replaces an API record; a row has no features and the tag `missing` exactly when its id is in neither map; otherwise it carries the API record and its own source (`api` by default) or the Kaggle record tagged `kaggle_db` |
| EnrichAudioFeatures.ClassifyTimePeriod | scripts/enrich_with_audio_features.py:324-333 | morning, afternoon, evening and night exactly on hours [6,12), [12,18), [18,23) and the rest; a missing hour is night |
| EnrichAudioFeatures.InferContext | scripts/enrich_with_audio_features.py:336-367 | `workout` exactly when its rule holds; each later label (focus; relaxation before hour 22 and sleep from 22; party in the evening or at a weekend; commute on a weekday morning) exactly when its own rule holds and every earlier rule fails; `general` exactly when no rule holds; absent columns read with the code's defaults and a NaN cell fails every comparison |
| EnrichAudioFeatures.InferContextDefaults | scripts/enrich_with_audio_features.py:338-367 | a row without feature or time columns is `general` |
| EnrichAudioFeatures.AudioFeaturesEnricher.constructor | scripts/enrich_with_audio_features.py:36-57 | the Kaggle table (or none when unreadable) is kept, all counters start at zero and there are no errors |
| EnrichAudioFeatures.AudioFeaturesEnricher.ExtractTracksFromRecentlyPlayed | scripts/enrich_with_audio_features.py:59-96 | a missing file gives no rows; otherwise the rows are the items' rows in order, and the extraction fails exactly when some item has a null context |
| EnrichAudioFeatures.AudioFeaturesEnricher.ExtractTracksFromTopTracks | scripts/enrich_with_audio_features.py:98-133 | a missing file gives no rows; otherwise the rows of every range in document order |
| EnrichAudioFeatures.AudioFeaturesEnricher.FetchAudioFeaturesBatch | scripts/enrich_with_audio_features.py:135-175 | the map and the counters are those of the batches of the non-empty ids, and the other statistics are unchanged |
| EnrichAudioFeatures.AudioFeaturesEnricher.AddBatchRecords | scripts/enrich_with_audio_features.py:158-164 | the `zip` loop pairs the first min(len) ids and records, storing each truthy record and counting hits and misses |
| EnrichAudioFeatures.AudioFeaturesEnricher.GetAudioFeaturesFromKaggle | scripts/enrich_with_audio_features.py:177-218 | no table gives an empty map; otherwise the outcome of the lookup loop, with `features_from_kaggle` raised by the rows found; the other statistics are unchanged |
| EnrichAudioFeatures.AudioFeaturesEnricher.EnrichTracksWithFeatures | scripts/enrich_with_audio_features.py:220-265 | `total_tracks` is the input length and there is one output row per track, tagged from the API answers topped up by the Kaggle lookup of the ids the API missed; the API hit and miss counters and the errors grow by what the batches added, `features_from_kaggle` by the ids the lookup found, and the call fails exactly when that lookup raises |
| DataCollection.BuildArtistRows | app/func/data_collection.py:90-102 | one row per artist in API order, the artist at position i getting rank i + 1 with the range, snapshot time and user |
| DataCollection.ArtistRanks | app/func/data_collection.py:91-98 | the ranks of a top-artist frame are exactly 1..n in API order, so no two artists share one |
| DataCollection.GenreTokensCountGenres | app/func/data_collection.py:169-170 | splitting the joined `genres` cells on ", " and dropping empty pieces counts exactly the non-empty genres of the artists |
| DataCollection.SnapshotMetrics | app/func/data_collection.py:114-173 | the metrics row always carries the snapshot time and user; the recent, top-track and top-artist figures are present exactly when the matching frame is present and non-empty, and then hold the distinct artists and tracks of the recent frame (never above its row count), the distinct artists of the short-range top tracks and the number of genre tokens of the short-range top artists |
| DataCollection.CollectTracks | app/func/data_collection.py:63-83 | the recent frame and the three top-track frames, each stamped with the time and user, and the top-track frames tagged with their range |
| DataCollection.CollectArtists | app/func/data_collection.py:85-105 | one top-artist frame per range, stored only when the API returned artists |
| DataCollection.CollectSnapshot | app/func/data_collection.py:35-111 | the snapshot holds the user, the one timestamp, the collected frames and the metrics computed from them |
| DataCollection.TrackTablesStamped | app/func/data_collection.py:69-70 | every row of every collected track frame carries the snapshot time and the user |
| DataCollection.ArtistTablesStamped | app/func/data_collection.py:100-101 | every row of every collected artist frame carries the snapshot time and the user |
| DataCollection.SnapshotRowsStamped | app/func/data_collection.py:46-111 | every row of every frame of a snapshot, metrics included, carries the single snapshot time and the user |
| DataCollection.SanitizeTimestamp | app/func/data_collection.py:192 | the key timestamp has the same length, no ':' or '.', and each of those characters became '-' |
| DataCollection.Present | app/func/data_collection.py:211-213 | only present, non-empty frames are uploaded |
| DataCollection.Successes | app/func/data_collection.py:215-218 | the success count never exceeds the number of uploads |
| DataCollection.UploadFrames | app/func/data_collection.py:211-218 | the keys attempted are those of the present frames in the fixed order, and the success count is the number of those uploads that succeeded |
| DataCollection.SaveSnapshotToS3 | app/func/data_collection.py:176-229 | without a bucket nothing is uploaded and the result is False; otherwise the result is True exactly when at least one frame was uploaded and every upload succeeded |
| DataCollection.GetUserSnapshotCount | app/func/data_collection.py:233-262 | no bucket gives 0; otherwise an exception escaping the listing escapes unchanged, and a listing that returned gives the number of distinct timestamps parsed from its keys |
| DataCollection.KeySegments | app/func/data_collection.py:256-258 | a snapshot key splits at '/' into "users", the user id, "snapshots" and the file name |
| DataCollection.SnapshotKeyRoundTrip | app/func/data_collection.py:256-259 | parsing a key built by the save gives back its timestamp (user id and prefix without '/', timestamp without '_' or '/') |
| DataCollection.OneSaveOneSnapshot | app/func/data_collection.py:253-262 | all keys of one save parse to the one sanitised timestamp, so they count as a single snapshot |
| DataCollection.SaveCountsOnce | app/func/data_collection.py:211-260 | the keys one save attempts, taken on their own, parse to exactly one snapshot id, or to none when no frame is present |
| DataCollection.SnapshotKeyUnderUserPrefix | app/func/data_collection.py:214 | every saved key lies in the user's snapshot folder that `list_user_snapshots` lists |
| DataCollection.TopTracksKeysMatch | app/func/data_collection.py:214 | the archive filter for `top_tracks` matches the files of all three ranges |
| S3Storage.UploadDataframeToS3 | app/func/s3_storage.py:67-108 | an empty frame or a missing client makes no attempt and returns False; otherwise the object is put and the result is True exactly when the put succeeded |
| S3Storage.ListedUnder | app/func/s3_storage.py:162-169 | the listing holds exactly the stored keys that start with the user's snapshot prefix |
| S3Storage.DescLeTotalPreorder | app/func/s3_storage.py:170 | the reverse string order used for `keys.sort(reverse=True)` is a total preorder |
| S3Storage.ListUserSnapshots | app/func/s3_storage.py:146-176 | no client or a `ClientError` gives no keys; any other exception of the listing escapes, with its text, exactly then; every key returned lies under the user's snapshot folder |
| S3Storage.ListUserSnapshotsSpec | app/func/s3_storage.py:161-172 | the keys are the user's stored snapshot keys, each as often as listed, sorted newest (greatest) first |
| S3Storage.Downloaded | app/func/s3_storage.py:209-213 | every kept frame is a non-empty successful download of one of the keys |
| S3Storage.LoadAllUserData | app/func/s3_storage.py:179-229 | no client or a failed listing of any kind (the broad `except`) gives the empty frame; otherwise the load of the keys listed under the user's prefix |
| S3Storage.LoadNothingMatches | app/func/s3_storage.py:203-206 | when no listed key contains the data type, the result is the empty frame |
| S3Storage.LoadNothingDownloaded | app/func/s3_storage.py:209-216 | when every download fails or is empty, the result is the empty frame |
| S3Storage.LoadResultSpec | app/func/s3_storage.py:203-225 | every loaded row comes from a non-empty download of a listed key containing the data type; with both key columns present, no two rows share (track_id, snapshot_timestamp) |
| S3Storage.LoadKeepsFirstPerSnapshot | app/func/s3_storage.py:219-223 | de-duplication keeps every (track_id, snapshot_timestamp) pair once, as its first row |
| DatetimeUtils.GetAxisLabel | app/func/datetime_utils.py:112-130 | the table entry when the column has one, else a non-empty fallback |
| DatetimeUtils.AxisLabelFallback | app/func/datetime_utils.py:129-130 | the generated label keeps the name's length and its non-letters (each '_' becoming ' '), contains no '_', and starts every word with a capital |
| DatetimeUtils.TitleStartsWord | app/func/datetime_utils.py:130 | `str.title()` raises a letter at the start of the text or after a non-letter |
| DatetimeUtils.HourOf | app/func/datetime_utils.py:152 | the hour of a datetime is in 0..23 |
| DatetimeUtils.WeekdayOf | app/func/datetime_utils.py:177 | the weekday of a datetime is in 0..6, Monday first |
| DatetimeUtils.BinTotalCountsAll | app/func/datetime_utils.py:152-153 | when every bin index is below the bin count, the bins together count every counted row |
| DatetimeUtils.HistogramTotal | app/func/datetime_utils.py:152-153 | the counts of a histogram add up to the rows falling in its bins |
| DatetimeUtils.AggregateByHour | app/func/datetime_utils.py:137-158 | an error exactly when the columns are unusable, with the ValueError text for a missing datetime column; otherwise 24 rows labelled 0..23 |
| DatetimeUtils.AggregateByDayOfWeek | app/func/datetime_utils.py:161-183 | an error exactly when the columns are unusable, with the ValueError text for a missing datetime column; otherwise 7 rows labelled Monday..Sunday |
| DatetimeUtils.AggregatesCountEveryPlay | app/func/datetime_utils.py:152-183 | each hour or weekday row counts the non-null plays in its bin, and the rows of either histogram add up to every counted play |
| DatetimeUtils.TimeAgo | app/func/datetime_utils.py:260-282 | "just now" exactly under 60 s (negative deltas included); otherwise each unit exactly on its threshold band, with count = floor(seconds / unit), at least 1 and below the next unit's size |
| DatetimeUtils.AgoText | app/func/datetime_utils.py:266-282 | the text starts with the count and the unit name and ends in the plural exactly when the count is not 1 |
| DatetimeUtils.FreshnessOf | app/func/datetime_utils.py:308-318 | Fresh under 12 hours, Recent from 12 to under 24, Stale from 24 on |
| DatetimeUtils.FreshnessAgreesWithTimeAgo | app/func/datetime_utils.py:285-318 | a Fresh sync reads "just now", minutes or hours; a Recent one 12 to 23 hours; a Stale one days or more |
| DatetimeUtils.Season | app/func/datetime_utils.py:371-379 | Winter exactly for 12, 1, 2; Spring for 3-5; Summer for 6-8; Fall otherwise |
| DatetimeUtils.SeasonsSplitYear | app/func/datetime_utils.py:371-379 | the twelve months split into four seasons of three months each |
| DataFetching.IsRetryableError | app/func/data_fetching.py:38-53 | a rate-limit error (status 429 or "429" in the message) is retried; any other error is retried exactly when it has a status of at least 500; no status and no "429" is never retried |
| DataFetching.WaitAfter | app/func/data_fetching.py:60 | each exponential wait is clamped to 2..10 seconds |
| DataFetching.RetryFrom | app/func/data_fetching.py:57-63 | a run from attempt k makes between k + 1 and 3 attempts in all, with one wait between consecutive attempts |
| DataFetching.RetryFromSpec | app/func/data_fetching.py:57-63 | every attempt before the last failed; the run succeeds exactly when its last attempt did, returning that result; a failure has used all 3 attempts and re-raises the last error |
| DataFetching.SpotifyRetrySpec | app/func/data_fetching.py:57-63 | 1 to 3 attempts, stopping at the first success; failure exactly when all three attempts fail, carrying the third error; every wait lies in 2..10 seconds |
| DataFetching.FetchItems | app/func/data_fetching.py:84-141 | the `items` of the response (none when the key is absent), or [] once retries are exhausted |
| DataFetching.FetchUserProfile | app/func/data_fetching.py:70-81 | the profile is None exactly when the retries are exhausted |
| DataFetching.FetchItemsEmpty | app/func/data_fetching.py:91-96 | three failed attempts give []; a first-attempt success gives its items |
| DataFetching.Present | app/func/data_fetching.py:164 | every record present in the batch is kept and every kept record was present; nothing is added |
| DataFetching.PresentConcat | app/func/data_fetching.py:158-164 | dropping None distributes over concatenation, so records keep their batch order |
| DataFetching.FetchAudioFeatures | app/func/data_fetching.py:145-194 | no ids give []; otherwise the gathered records of the batches of 100, or [] when any batch raised |
| DataFetching.GatheredNoneSticks | app/func/data_fetching.py:162-174 | once a batch has raised, the whole result is lost, earlier batches included |
| DataFetching.GatheredSpec | app/func/data_fetching.py:157-176 | the result is lost exactly when some batch raised; when none did, it is the non-None records of all batches in batch order |
| DashboardHelpers.LoadFiles | app/func/dashboard_helpers.py:53-63 | a successful reading holds one load per file |
| DashboardHelpers.LoadFilesOk | app/func/dashboard_helpers.py:53-63 | reading the files succeeds exactly when each file loads, and then holds those loads in order |
| DashboardHelpers.LoadFilesErr | app/func/dashboard_helpers.py:53-63 | a failed reading carries the error of the first file that failed |
| DashboardHelpers.LoadCurrentSnapshot | app/func/dashboard_helpers.py:13-82 | every failure is wrapped as "Failed to load snapshot data: ..."; no bucket gives the wrapped "S3 bucket not configured"; with a bucket the load succeeds exactly when all nine files load |
| DashboardHelpers.LoadCurrentSnapshotOk | app/func/dashboard_helpers.py:53-79 | with a bucket, the snapshot loads exactly when all nine files do, and holds the metadata, the seven frames in their slots and the metrics |
| DashboardHelpers.LoadCurrentSnapshotErr | app/func/dashboard_helpers.py:81-104 | a failed load carries "Failed to load snapshot data: Failed to load {key}: {e}" for the first file that failed |
| DashboardHelpers.LoadAtError | app/func/dashboard_helpers.py:85-104 | a failed file load says "Failed to load {key}: {e}" |
| DashboardHelpers.CurrentKeysDistinct | app/func/dashboard_helpers.py:53-63 | the nine keys are distinct and lie in `users/{uid}/current/`; exactly the first and the last are JSON documents |
| DashboardHelpers.SyncStatus | app/func/dashboard_helpers.py:128-159 | no `last_sync` shows nothing; an unparseable one shows "Recently synced"; the hour buckets are 1..11 for Fresh and 12..23 for Recent, and Stale shows at least one day |
| DashboardHelpers.SyncStatusSpec | app/func/dashboard_helpers.py:142-154 | the hours shown are the whole hours elapsed and the days the whole days elapsed; the caption's bucket is the one `get_freshness_indicator` picks for the same delta |
| DashboardHelpers.EnrichWithAudioFeatures | app/func/dashboard_helpers.py:251-329 | the user frame comes back unchanged when it is empty, lacks `track_id`, or the Kaggle frame is empty; the feature count fails only when neither frame has `danceability` |
| DashboardHelpers.EnrichSpec | app/func/dashboard_helpers.py:293-327 | every user column survives under its own name, there is at least one row per user row, and a context column appears only when a frame had one or some joined row has a danceability value |
| DashboardHelpers.DuplicateKaggleIdDuplicatesPlays | app/func/dashboard_helpers.py:296-307 | as written, a Kaggle id listed twice turns one play into two rows and reports 2 of 1 tracks covered |
| DashboardHelpers.EnrichWithAudioFeaturesDistinct | app/func/dashboard_helpers.py:274-329 | the corrected enrichment keeps the same guards and joins against the Kaggle frame de-duplicated by `track_id` |
| DashboardHelpers.EnrichDistinctKeepsRows | app/func/dashboard_helpers.py:296-307 | with the Kaggle frame de-duplicated, every user row becomes exactly one row with the same user cells, and the rows with features never outnumber the user's tracks |
| DashboardHelpers.EnrichDistinctCarriesFeatures | app/func/dashboard_helpers.py:296-307 | against the Kaggle frame de-duplicated by `track_id`, each user row carries every Kaggle column it lacked from its matching Kaggle row, or a missing value when no Kaggle row matches |
| DashboardHelpers.GetAudioFeaturesCoverage | app/func/dashboard_helpers.py:332-361 | zeros for an empty frame; no features when none of danceability, energy, valence exists; otherwise the non-missing count of the first of them present, never above the row count, with a percentage in 0..100 |
| FeatureEngineering.ClassifyContext | src/feature_engineering.py:79-114 | one of the five labels; Workout exactly when its rule holds, and each later label exactly when its own rule holds and every earlier one fails, with absent features read as 0 |
| FeatureEngineering.NoFeaturesIsGeneral | src/feature_engineering.py:97-114 | a frame with none of the feature columns classifies every row as General |
| FeatureEngineering.PartyEnergyBand | src/feature_engineering.py:97-112 | Workout shadows Party: a Party track has energy above 0.6 but not above 0.7 |
| FeatureEngineering.AddContextClassification | src/feature_engineering.py:117-138 | a copy with the same rows plus a `context` cell in each, holding that row's classification; every other cell is unchanged |
| FeatureEngineering.ContextColumnLabels | src/feature_engineering.py:130 | every value of the context column is one of the five labels |
| FeatureEngineering.WithScores | src/feature_engineering.py:32-67 | adding one score column keeps every row and every other cell, adds exactly that column and puts each row's own score in it |
| FeatureEngineering.AddAll | src/feature_engineering.py:28-76 | adding several score columns keeps every row and every cell outside those columns, and adds exactly those columns |
| FeatureEngineering.CreateCompositeFeatures | src/feature_engineering.py:12-76 | a copy with the same rows, adding exactly the composites whose input columns all exist and leaving every other cell as it was |
| FeatureEngineering.GetNormalizedFeatures | src/feature_engineering.py:141-152 | a name is kept exactly when it was given and is not one of the six non-normalised names |
| FeatureEngineering.NormalizedIdempotent | src/feature_engineering.py:151-152 | filtering twice equals filtering once, and a list with no non-normalised name is returned as is |
| FeatureEngineering.NormalizedKeepsOrder | src/feature_engineering.py:152 | the filter distributes over concatenation, so the kept names stay in input order |
| FeatureEngineering.GetCompositeFeatures | src/feature_engineering.py:155-166 | exactly the composite names present in the frame |
| FeatureEngineering.CreatedCompositesReported | src/feature_engineering.py:12-76 | after creating composites, each composite whose inputs exist is reported as present |
| DatasetProcessing.FileLeTotalPreorder | src/data_processing.py:39 | the sort key (not `dataset.csv`, name) orders the files by a total preorder |
| DatasetProcessing.TryOrderSpec | src/data_processing.py:38-39 | the files are tried in a permutation of the listing sorted by that key, `dataset.csv` first whenever it is present |
| DatasetProcessing.LoadSpotifyData | src/data_processing.py:12-74 | no CSV file gives the FileNotFoundError text; otherwise the first file in try order that reads in one of the four encodings, with its name, or the ValueError text when none does |
| DatasetProcessing.TryFile | src/data_processing.py:57-72 | the encoding loop gives what `TryEncodings` defines: the encodings in order, a decode error moving on to the next and any other error giving up on the file |
| DatasetProcessing.PreferredFileWins | src/data_processing.py:38-65 | a `dataset.csv` that reads in UTF-8 is always the file loaded |
| DatasetProcessing.CanonicalRank | src/data_processing.py:87-91 | the rank lies between 0 and the list's length, so rank order is well defined on any name |
| DatasetProcessing.IdentifyAudioFeatures | src/data_processing.py:77-99 | exactly the canonical audio features present among the columns, without repeats, in canonical order |
| DatasetProcessing.CanonicalRanks | src/data_processing.py:87-91 | the canonical list has no repeats and is in its own rank order |
| DatasetProcessing.RoleOf | src/data_processing.py:178-186 | the first test in source order wins: track name ("track" and "name"), artist name ("artist" with "name", or exactly "artists"), genre, popularity; each role holds exactly when its own test holds and every earlier one fails, and no role exactly when none holds |
| DatasetProcessing.IdentifyColumnNames | src/data_processing.py:160-192 | each category holds the last column of that role, or None |
| DatasetProcessing.LastWithSpec | src/data_processing.py:177-186 | a category is None exactly when no column has its role; otherwise it names a column of that role after which no column has it |
| DatasetProcessing.CleanDataset | src/data_processing.py:102-157 | as written: a listed feature the frame lacks raises KeyError; an empty frame raises ZeroDivisionError; otherwise the columns are kept and the rows are the cleaned rows |
| DatasetProcessing.CleanRowsSpec | src/data_processing.py:126-152 | the kept rows are exactly the input rows passing every applicable filter (features present, loudness <= 0, duration >= minimum), never more than came in, each once when duplicates are removed |
| DatasetProcessing.CleanRowsIdempotent | src/data_processing.py:126-152 | cleaning a cleaned frame again removes nothing more |
| DatasetProcessing.CleanDatasetGuarded | src/data_processing.py:120-157 | the corrected cleaning fails only for a missing feature column, keeps the columns, never adds rows, and returns an empty frame for an empty input |
| TrackProcessing.ArtistName | app/func/data_processing.py:46 | the first artist's name; an empty artist list is the IndexError, and an absent list falls back to `[{}]` and gives no name |
| TrackProcessing.RecentRowsSpec | app/func/data_processing.py:37-53 | exactly the items whose track has an id are kept, in order; each row carries that id as `track_id` and the item's `played_at`, and the id list matches the rows |
| TrackProcessing.ExtractRecent | app/func/data_processing.py:37-53 | the item loop computes the rows and ids `RecentRows` defines |
| TrackProcessing.ErrSticks | app/func/data_processing.py:37-53 | once a prefix of the items raises, the whole loop raises the same error |
| TrackProcessing.AddTimeColumns | app/func/data_processing.py:60-66 | on success one row per input row, each the input row with the time columns of its own parsed `played_at`; a timestamp that does not parse fails the call |
| TrackProcessing.IsWeekendSpec | app/func/data_processing.py:63-66 | `is_weekend` holds exactly when the weekday name is Saturday or Sunday, and `hour` is the UTC hour of the same instant |
| TrackProcessing.AttachFeatures | app/func/data_processing.py:68-92 | as written: no client, no ids or no records leave the frame unchanged, and a `context` column only ever comes from the inputs, never from `classify_context` |
| TrackProcessing.ContextFromJoin | app/func/data_processing.py:78 | the merge introduces a `context` column only when one of its two sides has it, and no composite feature is named `context` |
| TrackProcessing.ReplayedTrackSquaresRows | app/func/data_processing.py:69-78 | as written: two plays of one track with the two records the feature fetch returns for it give four rows after the merge |
| TrackProcessing.AttachFeaturesFixed | app/func/data_processing.py:68-92 | corrected: the frame keeps one row per play, and whenever the merged frame has `energy` the result carries the `context` column |
| TrackProcessing.AttachFeaturesFixedKeepsPlays | app/func/data_processing.py:78 | merging against records de-duplicated by track id keeps the row count and every play's own cells in the columns the records do not share |
| Frames.JoinedRowsCells | app/func/data_processing.py:78 | the rows a left merge makes for one left row: every match shares its join value, each keeps the left row's unclashed cells, and the i-th carries the right-only cells of the i-th match (missing values when nothing matches) |
| Frames.LeftJoinDistinctRight | app/func/dashboard_helpers.py:296-307 | against a right frame de-duplicated on the key, the merge keeps one row per left row, each carrying the right-only cells of its match, or missing values |
| TrackProcessing.RecentFrame | app/func/data_processing.py:28-66 | the frame-building loop: no items, or none with a track id, give no frame; an extraction or timestamp error propagates; otherwise the id-carrying items' rows with their time columns, one per such item, and the id list |
| TrackProcessing.ProcessRecentTracks | app/func/data_processing.py:28-94 | as written: no items, or none with a track id, give the empty frame; an extraction or timestamp error propagates; otherwise the frame `AttachFeatures` makes from the timed rows and the ids, which has one row per item with an id whenever no features are attached |
| TrackProcessing.ProcessRecentTracksFixed | app/func/data_processing.py:28-94 | corrected: the same guards, then the merge of `AttachFeaturesFixed`, so one row per item with an id in every case |
| TrackProcessing.TopRowsSpec | app/func/data_processing.py:105-118 | exactly the tracks with an id are kept, in rank order, each row carrying its id as `track_id`, and the id list matches the rows |
| TrackProcessing.TopFrame | app/func/data_processing.py:97-118 | the top-track loop: no tracks, or none with an id, give no frame; an extraction error propagates; otherwise the id-carrying tracks' rows, one per such track, and the id list |
| TrackProcessing.ProcessTopTracks | app/func/data_processing.py:97-148 | as written: no tracks, or none with an id, give the empty frame; an extraction error propagates; otherwise the frame `AttachFeatures` makes from the rows and the ids, which has one row per track with an id whenever no features are attached |
| TrackProcessing.ProcessTopTracksFixed | app/func/data_processing.py:97-148 | corrected: the same guards, then the merge of `AttachFeaturesFixed`, so one row per track with an id in every case |
| TrackProcessing.TopErrSticks | app/func/data_processing.py:105-118 | once a prefix of the tracks raises, the whole loop raises the same error |
| TrackProcessing.DiversityScore | app/func/data_processing.py:151-165 | the score is 0 exactly when the frame is empty, lacks the column or has at most one distinct value in it; otherwise it is an entropy over between 2 and all of the frame's rows |
| CollectSpotifyData.AfterListing | scripts/collect_spotify_data.py:46-76 | one call gives either one error appended or one file written; on a saved reply the counter is set to the number of items and the user's JSON file is recorded, on a failed call or write the counter stays and only the error text is added; the other counters never move |
| CollectSpotifyData.SplitLast | scripts/collect_spotify_data.py:100-127 | the saved and failed ranges of a list extended by one range are those of the list, plus that range on the side its outcome puts it |
| CollectSpotifyData.PassCounts | scripts/collect_spotify_data.py:100-127 | after the range loop the category's counter has grown by the items of exactly the saved ranges, and the user name and the other counters are unchanged |
| CollectSpotifyData.PassErrors | scripts/collect_spotify_data.py:124-127 | the errors appended by the range loop are exactly one text per failed range, in range order |
| CollectSpotifyData.PassFiles | scripts/collect_spotify_data.py:112-115 | the files written by the range loop are exactly one per saved range, in range order |
| CollectSpotifyData.PassResults | scripts/collect_spotify_data.py:103-110 | `all_results` holds exactly the ranges whose call succeeded, each with its own reply |
| CollectSpotifyData.RangesPassSpec | scripts/collect_spotify_data.py:100-127 | the range loop as a whole: counter, errors, files and results as above, with a failure never stopping a later range |
| CollectSpotifyData.RangesPartition | scripts/collect_spotify_data.py:100-127 | every range is either saved or failed, never both and never neither |
| CollectSpotifyData.CombinedOnlyAfterSuccess | scripts/collect_spotify_data.py:129-136 | the combined `_all` file is written exactly when some range call succeeded; a failing write of it raises and leaves the state of the loop |
| CollectSpotifyData.RangesErrorBound | scripts/collect_spotify_data.py:89-127 | over the default three ranges the error list only grows, by at most three entries, and the counters of the other categories do not move |
| CollectSpotifyData.CollectAllCounters | scripts/collect_spotify_data.py:248-258 | a category switched off leaves its counter where it was, and the user name never changes |
| CollectSpotifyData.CollectAllErrors | scripts/collect_spotify_data.py:248-258 | `collect_all` only appends errors, at most one per enabled call |
| CollectSpotifyData.CollectAllSpec | scripts/collect_spotify_data.py:230-283 | the user name is kept, switched-off counters stay, errors grow within the budget of enabled calls, and a completed run ends by writing the stats file |
| CollectSpotifyData.SpotifyDataCollector.constructor | scripts/collect_spotify_data.py:35-44 | a fresh collector for the user: all counters zero, no errors, no files |
| CollectSpotifyData.SpotifyDataCollector.CollectListing | scripts/collect_spotify_data.py:46-76 | the collector's new state is `AfterListing` of the old one, and the reply is returned exactly when it was saved |
| CollectSpotifyData.SpotifyDataCollector.CollectRecentlyPlayed | scripts/collect_spotify_data.py:46-76 | the recently-played call: the new state is `AfterListing` of the old one and the reply comes back exactly when it was saved |
| CollectSpotifyData.SpotifyDataCollector.CollectPlaylists | scripts/collect_spotify_data.py:198-228 | the playlists call: the new state is `AfterListing` of the old one and the reply comes back exactly when it was saved |
| CollectSpotifyData.SpotifyDataCollector.CollectRanges | scripts/collect_spotify_data.py:78-136 | the range loop leaves the collector in the state `AfterRanges` describes and returns its results, or the write error of the combined file |
| CollectSpotifyData.SpotifyDataCollector.CollectTopTracks | scripts/collect_spotify_data.py:78-136 | `collect_top_tracks` is the range loop for top tracks |
| CollectSpotifyData.SpotifyDataCollector.CollectTopArtists | scripts/collect_spotify_data.py:138-196 | `collect_top_artists` is the range loop for top artists |
| CollectSpotifyData.SpotifyDataCollector.CollectAll | scripts/collect_spotify_data.py:230-283 | the collector ends in the state `AfterCollectAll` describes and returns its stats, or the error that stopped it |
| CollectSpotifyData.MemberEntry | scripts/collect_spotify_data.py:319-334 | a member's entry is the error entry exactly when authentication or their `collect_all` raised, its text starting with the member's failure prefix and carrying the authentication error when that raised; otherwise it holds the stats of that member's `collect_all` run, under their name |
| CollectSpotifyData.PutSpec | scripts/collect_spotify_data.py:326-334 | storing into `team_stats` makes the key map to the new entry, leaves every other key as it was and keeps keys distinct |
| CollectSpotifyData.TeamSpec | scripts/collect_spotify_data.py:319-334 | after the member loop every member maps to their own entry whatever happened to earlier members, other names are untouched and names stay distinct |
| CollectSpotifyData.TotalsConcat | scripts/collect_spotify_data.py:358-376 | the team totals of two runs of entries add up |
| CollectSpotifyData.TotalsSkipFailed | scripts/collect_spotify_data.py:358-376 | the totals are those of the completed members plus one error per failed member |
| CollectSpotifyData.Tally | scripts/collect_spotify_data.py:359-376 | one entry's step adds exactly its share to the running totals |
| CollectSpotifyData.TeamDataCollector.constructor | scripts/collect_spotify_data.py:291-302 | the member list defaults to the team when none is given; no stats yet |
| CollectSpotifyData.TeamDataCollector.CollectAll | scripts/collect_spotify_data.py:304-344 | `team_stats` becomes the member loop's result over the old entries; the call returns it, or the write error of the summary file |
| CollectSpotifyData.TeamDataCollector.Summary | scripts/collect_spotify_data.py:346-386 | the printed totals are the sum of every entry's share |

## Left out

- The Streamlit pages, rendering, OAuth flows and session state are outside the modelled data path.
- Spotify calls, the object store (client construction, `download_dataframe_from_s3`, `get_s3_client`, `get_bucket_name`, the R2 loaders `load_parquet_from_r2` / `load_json_from_r2`), CSV/JSON/Parquet reads and writes, and `load_user_data` / `load_kaggle_dataset` are parameters answering each call with its outcome; their own behaviour is not modelled.
- The clock is a parameter. The `collection_time` fields of the stats records are not modelled.
- Sleeping between retries and between range calls is not performed; `handle_rate_limit_error` (a sleep) is left out. The retry waits are only recorded.
- Floating-point arithmetic is left out: the composite scores (mood, grooviness, focus, relaxation) enter as a scoring function, and means, standard deviations and percentages in the statistics are not computed.
- `_add_derived_features` (scripts/enrich_with_audio_features.py:307-317) is not modelled: the enriched rows stop before its derived columns. Its two classifiers, `ClassifyTimePeriod` and `InferContext`, are modelled on their own, not wired into the enrichment.
- TrackProcessing.DiversityScore: states the guards and the number of distinct values but not the Shannon-entropy value, which is floating point.
- pandas datetime parsing is a given parse function; `format_datetime`, `parse_datetime`, `aggregate_by_month`, `aggregate_by_date` and `extract_all_temporal_features` (other than its season rule) are not modelled, and hours and weekdays are read in UTC only.
- `get_dataset_summary` and the `date_range`, `audio_features` and `context_distribution` parts of the merge statistics are left out as reporting only. Of the `_print_summary` / `_print_data_quality_report` printers only the KeyErrors they raise are modelled (TeamDataMerger.PrintSummary), not the text they print.
- TeamDataMerger.MergeAndSave: the CSV and statistics JSON it writes are not modelled, so a printer's KeyError is not shown as coming after both files were written.
- `process_user_data`, the enricher's driver that reads, enriches and writes one member's CSV, is not modelled beyond the steps it calls; the contents of written files are not modelled.
- `get_recent_tracks`, `get_top_tracks`, `get_top_artists`, `get_metrics` and `handle_missing_data` are thin loaders and UI redirects and are not modelled.
- In top-track rows a `duration_ms` that is present but null is not told apart from an absent one.
- An explicit null `track` in a played item, an explicit null `album` in a track, and (in the enrichment) an artist object without `name` are read as absent, where the source raises AttributeError or KeyError (scripts/enrich_with_audio_features.py:77-84, app/func/data_processing.py:38-47); only `context` has its null told apart from absence.
- In the left joins, suffix renaming is modelled, but a clash between a suffixed name and a column that already carries that name is not.
- Exceptions raised inside the composite-feature step are not modelled; the step is taken to succeed.
- `list_objects_v2` returns at most one page of keys; the model lists the whole store.
- Case mapping (`lower`, `upper`, `title`) is ASCII only.
- A NaN `user_name` is not modelled: user names are plain strings, so the merger never sees a missing name.
- `st.cache_data` caching is left out; every cached call is modelled as a fresh call.
- A text cell in a numeric comparison reads as a failed comparison, where Python would raise TypeError.
- The ImportError fallback that sets `classify_context` to None is left out; the classifier is always available.
- A reply whose `items` is null makes `len(...)` raise after its JSON file was written (scripts/collect_spotify_data.py:63-66, 113-118); replies are modelled as item counts, so that path is not represented.
- A `genres` cell that is not text counts no genre token, where `str.split` on it would raise AttributeError.
- `collect_comprehensive_snapshot`, `should_refresh_data` and `collect_snapshot_with_progress` are referenced by the application but are not part of this model.

## Findings

| source | as written | input that shows it | evidently intended | confidence | as-written member | corrected member |
|---|---|---|---|---|---|---|
| scripts/enrich_with_audio_features.py:89-90 | `item.get('context', {}).get('type')` raises AttributeError when the key is present with value null, which ends the whole extraction | one recently-played item whose `context` is null | the item is kept with no context type | not executed | EnrichAudioFeatures.NullContextStopsExtraction | EnrichAudioFeatures.PlayRowFixed |
| app/func/dashboard_helpers.py:296-307 | the left join on `track_id` repeats a user row once per matching Kaggle row | a Kaggle table with the same `track_id` on two rows and one user play of that track: two rows come out and coverage reads 2 of 1 | one row per play | not executed | DashboardHelpers.DuplicateKaggleIdDuplicatesPlays | DashboardHelpers.EnrichDistinctKeepsRows |
| src/data_processing.py:154 | the retention percentage divides by the initial row count | an empty frame with the listed feature columns: ZeroDivisionError | an empty frame comes back empty | not executed | DatasetProcessing.CleanDataset | DatasetProcessing.CleanDatasetGuarded |
| app/func/data_processing.py:88-92 | `classify_context(df)` is applied to the whole frame; the row function's comparisons on columns raise, the error is swallowed and no `context` column is ever added | any feature reply that has `energy` | a `context` column from `add_context_classification` | not executed | TrackProcessing.AttachFeatures | TrackProcessing.AttachFeaturesFixed |
| app/func/data_processing.py:69-78 | track ids are passed with repeats, so the feature reply repeats records and the merge multiplies each replayed track's rows | two plays of one track, with one record per requested id: four rows | one row per play | not executed | TrackProcessing.ReplayedTrackSquaresRows | TrackProcessing.AttachFeaturesFixedKeepsPlays |

=== FILE: collect_spotify_data.dfy ===
/**
 * scripts/collect_spotify_data.py: the bookkeeping of one member's collection run (the stats
 * counters, the error list, the files written) and of the team run over all members.
 *
 * The Spotify client and the output directory are given as an `Api` value: each listing call
 * answers with the number of items of its reply (`len(results.get('items', []))`) or the text
 * of the exception it raised, and `canWrite` says whether a JSON file can be written. The
 * files a collector writes are kept, in order, as its `written` list.
 */
module CollectSpotifyData {
  import opened Wrappers
  import Seqs

  /** `TeamAuthenticator.TEAM_MEMBERS`, used when no member list is given. */
  const TeamMembers: seq<string> := ["nicolo", "joe", "rithvik"]

  /** The time ranges used when none are given. */
  const DefaultRanges: seq<string> := ["short_term", "medium_term", "long_term"]

  /** The text of the exception raised by a failed file write. */
  const WriteFailure: string := "could not write output file"

  /** `self.stats` without its clock reading. */
  datatype Stats = Stats(userName: string, recentlyPlayedCount: nat, topTracksCount: nat,
                         topArtistsCount: nat, playlistsCount: nat, errors: seq<string>)

  /** A collector's state: its stats and the files it has written. */
  datatype State = State(stats: Stats, written: seq<string>)

  /** The state right after `SpotifyDataCollector.__init__`. */
  function Fresh(user: string): State {
    State(Stats(user, 0, 0, 0, 0, []), [])
  }

  datatype Api = Api(recentlyPlayed: Result<nat>, topTracks: string -> Result<nat>,
                     topArtists: string -> Result<nat>, playlists: Result<nat>,
                     canWrite: string -> bool)

  /** The `include_*` flags of `collect_all`. */
  datatype Options = Options(recentlyPlayed: bool, topTracks: bool, topArtists: bool, playlists: bool)

  // ---------------------------------------------------------------------------------------
  // collect_recently_played / collect_playlists: one call, one file

  datatype Listing = RecentlyPlayed | Playlists

  function ListingReply(what: Listing, api: Api): Result<nat> {
    if what == RecentlyPlayed then api.recentlyPlayed else api.playlists
  }

  function ListingFile(what: Listing, user: string): string {
    user + (if what == RecentlyPlayed then "_recently_played.json" else "_playlists.json")
  }

  function ListingError(what: Listing, e: string): string {
    "Error collecting " + (if what == RecentlyPlayed then "recently played" else "playlists") + ": " + e
  }

  function ListingCount(st: Stats, what: Listing): nat {
    if what == RecentlyPlayed then st.recentlyPlayedCount else st.playlistsCount
  }

  /** The reply came back and its file was written. */
  predicate ListingSaved(what: Listing, api: Api, user: string) {
    ListingReply(what, api).Ok? && api.canWrite(ListingFile(what, user))
  }

  /**
   * One listing call: on success the count is set to the reply's item count and the file is
   * written; on any failure (the call or the write) one error is appended and the count is
   * left alone. Either way exactly one of a file or an error is added, nothing is removed,
   * and the other counters do not move.
   */
  function AfterListing(what: Listing, api: Api, s: State): (r: State)
    ensures r.stats.userName == s.stats.userName
    ensures |r.stats.errors| + |r.written| == |s.stats.errors| + |s.written| + 1
    ensures s.stats.errors <= r.stats.errors && s.written <= r.written
    ensures ListingSaved(what, api, s.stats.userName) ==>
      ListingCount(r.stats, what) == ListingReply(what, api).value && r.written == s.written + [ListingFile(what, s.stats.userName)]
    ensures !ListingSaved(what, api, s.stats.userName) ==> ListingCount(r.stats, what) == ListingCount(s.stats, what)
    ensures r.stats.topTracksCount == s.stats.topTracksCount && r.stats.topArtistsCount == s.stats.topArtistsCount
    ensures what == RecentlyPlayed ==> r.stats.playlistsCount == s.stats.playlistsCount
    ensures what == Playlists ==> r.stats.recentlyPlayedCount == s.stats.recentlyPlayedCount
  {
    var file := ListingFile(what, s.stats.userName);
    match ListingReply(what, api)
    case Err(e) => s.(stats := s.stats.(errors := s.stats.errors + [ListingError(what, e)]))
    case Ok(n) =>
      if !api.canWrite(file) then s.(stats := s.stats.(errors := s.stats.errors + [ListingError(what, WriteFailure)]))
      else if what == RecentlyPlayed then State(s.stats.(recentlyPlayedCount := n), s.written + [file])
      else State(s.stats.(playlistsCount := n), s.written + [file])
  }

  // ---------------------------------------------------------------------------------------
  // collect_top_tracks / collect_top_artists: one call and one file per time range

  datatype Ranked = TopTracks | TopArtists

  function RangeReply(kind: Ranked, api: Api, range: string): Result<nat> {
    if kind == TopTracks then api.topTracks(range) else api.topArtists(range)
  }

  function Slug(kind: Ranked): string {
    if kind == TopTracks then "top_tracks" else "top_artists"
  }

  function RangeFile(kind: Ranked, user: string, range: string): string {
    user + "_" + Slug(kind) + "_" + range + ".json"
  }

  /** The combined file holding every range that came back. */
  function CombinedFile(kind: Ranked, user: string): string {
    user + "_" + Slug(kind) + "_all.json"
  }

  function RangeError(kind: Ranked, range: string, e: string): string {
    "Error collecting " + (if kind == TopTracks then "top tracks" else "top artists") + " (" + range + "): " + e
  }

  function RankedCount(st: Stats, kind: Ranked): nat {
    if kind == TopTracks then st.topTracksCount else st.topArtistsCount
  }

  function AddRanked(st: Stats, kind: Ranked, n: nat): Stats {
    if kind == TopTracks then st.(topTracksCount := st.topTracksCount + n) else st.(topArtistsCount := st.topArtistsCount + n)
  }

  /** The range's reply came back and its file was written. */
  predicate RangeSaved(kind: Ranked, api: Api, user: string, range: string) {
    RangeReply(kind, api, range).Ok? && api.canWrite(RangeFile(kind, user, range))
  }

  /** Why a range that was not saved failed: the call's exception, or the write's. */
  function RangeFailure(kind: Ranked, api: Api, user: string, range: string): string {
    var reply := RangeReply(kind, api, range);
    if reply.Err? then reply.error else WriteFailure
  }

  /** The collector state and `all_results` after some ranges. */
  datatype Pass = Pass(state: State, results: map<string, nat>)

  /**
   * One time range: a reply goes into the results whatever happens to its file; the counter
   * grows only when the file was written; a failed call or write appends one error.
   */
  function RangeStep(kind: Ranked, api: Api, user: string, range: string, p: Pass): Pass {
    match RangeReply(kind, api, range)
    case Err(e) => p.(state := p.state.(stats := p.state.stats.(errors := p.state.stats.errors + [RangeError(kind, range, e)])))
    case Ok(n) =>
      var results := p.results[range := n];
      if api.canWrite(RangeFile(kind, user, range)) then
        Pass(State(AddRanked(p.state.stats, kind, n), p.state.written + [RangeFile(kind, user, range)]), results)
      else
        Pass(p.state.(stats := p.state.stats.(errors := p.state.stats.errors + [RangeError(kind, range, WriteFailure)])), results)
  }

  /** The loop over the ranges, from a given state and empty results. */
  function RangesPass(kind: Ranked, api: Api, user: string, ranges: seq<string>, s: State): Pass {
    if |ranges| == 0 then Pass(s, map[])
    else RangeStep(kind, api, user, ranges[|ranges| - 1], RangesPass(kind, api, user, ranges[..|ranges| - 1], s))
  }

  function SavedTest(kind: Ranked, api: Api, user: string): string -> bool {
    range => RangeSaved(kind, api, user, range)
  }

  function FailedTest(kind: Ranked, api: Api, user: string): string -> bool {
    range => !RangeSaved(kind, api, user, range)
  }

  /** The ranges that were saved, and those that were not, in order. */
  function SavedRanges(kind: Ranked, api: Api, user: string, ranges: seq<string>): seq<string> {
    Seqs.Filter(ranges, SavedTest(kind, api, user))
  }

  function FailedRanges(kind: Ranked, api: Api, user: string, ranges: seq<string>): seq<string> {
    Seqs.Filter(ranges, FailedTest(kind, api, user))
  }

  /** The item counts of the given ranges' replies. */
  function ItemSum(kind: Ranked, api: Api, ranges: seq<string>): nat {
    if |ranges| == 0 then 0
    else
      var reply := RangeReply(kind, api, ranges[|ranges| - 1]);
      ItemSum(kind, api, ranges[..|ranges| - 1]) + (if reply.Ok? then reply.value else 0)
  }

  function RangeFiles(kind: Ranked, user: string, ranges: seq<string>): seq<string> {
    seq(|ranges|, i requires 0 <= i < |ranges| => RangeFile(kind, user, ranges[i]))
  }

  function RangeErrors(kind: Ranked, api: Api, user: string, ranges: seq<string>): seq<string> {
    seq(|ranges|, i requires 0 <= i < |ranges| => RangeError(kind, ranges[i], RangeFailure(kind, api, user, ranges[i])))
  }

  /** One more range joins exactly one of the saved and the failed lists, at its end. */
  lemma SplitLast(kind: Ranked, api: Api, user: string, init: seq<string>, last: string)
    ensures SavedRanges(kind, api, user, init + [last]) ==
      SavedRanges(kind, api, user, init) + (if RangeSaved(kind, api, user, last) then [last] else [])
    ensures FailedRanges(kind, api, user, init + [last]) ==
      FailedRanges(kind, api, user, init) + (if RangeSaved(kind, api, user, last) then [] else [last])
  {
    Seqs.FilterConcat(init, [last], SavedTest(kind, api, user));
    Seqs.FilterConcat(init, [last], FailedTest(kind, api, user));
    assert [last][1..] == [];
  }

  /** The loop's counters: the range kind's grows by the saved ranges' items, no other moves. */
  lemma {:induction false} PassCounts(kind: Ranked, api: Api, user: string, ranges: seq<string>, s: State)
    ensures var st := RangesPass(kind, api, user, ranges, s).state.stats;
      && RankedCount(st, kind) == RankedCount(s.stats, kind) + ItemSum(kind, api, SavedRanges(kind, api, user, ranges))
      && st.userName == s.stats.userName
      && st.recentlyPlayedCount == s.stats.recentlyPlayedCount
      && st.playlistsCount == s.stats.playlistsCount
      && (kind == TopTracks ==> st.topArtistsCount == s.stats.topArtistsCount)
      && (kind == TopArtists ==> st.topTracksCount == s.stats.topTracksCount)
  {
    if |ranges| > 0 {
      var n := |ranges| - 1;
      var init, last := ranges[..n], ranges[n];
      assert init + [last] == ranges;
      PassCounts(kind, api, user, init, s);
      SplitLast(kind, api, user, init, last);
      var saved := SavedRanges(kind, api, user, init);
      var before := RangesPass(kind, api, user, init, s).state.stats;
      var after := RangesPass(kind, api, user, ranges, s).state.stats;
      if RangeSaved(kind, api, user, last) {
        var more := saved + [last];
        assert more[..|more| - 1] == saved && more[|more| - 1] == last;
        assert ItemSum(kind, api, more) == ItemSum(kind, api, saved) + RangeReply(kind, api, last).value;
      } else {
        assert SavedRanges(kind, api, user, ranges) == saved;
        assert after == before.(errors := after.errors);
      }
    }
  }

  /** The loop's errors: one per failed range, in range order, after the old ones. */
  lemma {:induction false} PassErrors(kind: Ranked, api: Api, user: string, ranges: seq<string>, s: State)
    ensures RangesPass(kind, api, user, ranges, s).state.stats.errors ==
      s.stats.errors + RangeErrors(kind, api, user, FailedRanges(kind, api, user, ranges))
  {
    if |ranges| > 0 {
      var n := |ranges| - 1;
      var init, last := ranges[..n], ranges[n];
      assert init + [last] == ranges;
      PassErrors(kind, api, user, init, s);
      SplitLast(kind, api, user, init, last);
      StepErrors(kind, api, user, last, RangesPass(kind, api, user, init, s));
      var failed := FailedRanges(kind, api, user, init);
      if !RangeSaved(kind, api, user, last) {
        assert RangeErrors(kind, api, user, failed + [last]) ==
          RangeErrors(kind, api, user, failed) + [RangeError(kind, last, RangeFailure(kind, api, user, last))];
      }
    }
  }

  /** One range adds an error exactly when it was not saved. */
  lemma StepErrors(kind: Ranked, api: Api, user: string, range: string, p: Pass)
    ensures RangeStep(kind, api, user, range, p).state.stats.errors ==
      p.state.stats.errors + (if RangeSaved(kind, api, user, range) then [] else [RangeError(kind, range, RangeFailure(kind, api, user, range))])
  {
  }

  /** The loop's files: one per saved range, in range order, after the old ones. */
  lemma {:induction false} PassFiles(kind: Ranked, api: Api, user: string, ranges: seq<string>, s: State)
    ensures RangesPass(kind, api, user, ranges, s).state.written == s.written + RangeFiles(kind, user, SavedRanges(kind, api, user, ranges))
  {
    if |ranges| > 0 {
      var n := |ranges| - 1;
      var init, last := ranges[..n], ranges[n];
      assert init + [last] == ranges;
      PassFiles(kind, api, user, init, s);
      SplitLast(kind, api, user, init, last);
      var saved := SavedRanges(kind, api, user, init);
      if RangeSaved(kind, api, user, last) {
        assert RangeFiles(kind, user, saved + [last]) == RangeFiles(kind, user, saved) + [RangeFile(kind, user, last)];
      }
    }
  }

  /** `all_results`: exactly the ranges whose call succeeded, each with its reply. */
  lemma {:induction false} PassResults(kind: Ranked, api: Api, user: string, ranges: seq<string>, s: State)
    ensures var results := RangesPass(kind, api, user, ranges, s).results;
      && results.Keys == (set r | r in ranges && RangeReply(kind, api, r).Ok?)
      && (forall r :: r in results ==> RangeReply(kind, api, r) == Ok(results[r]))
  {
    if |ranges| > 0 {
      var n := |ranges| - 1;
      var init, last := ranges[..n], ranges[n];
      assert init + [last] == ranges;
      PassResults(kind, api, user, init, s);
      assert forall r :: r in ranges <==> r in init || r == last;
    }
  }

  /**
   * The per-range loop, described range by range: the counter grows by the items of exactly
   * the saved ranges, one error per failed range and one file per saved range are appended
   * in range order, `all_results` holds exactly the ranges whose call succeeded (with their
   * replies), and the other counters do not move. A failure never stops a later range.
   */
  lemma RangesPassSpec(kind: Ranked, api: Api, user: string, ranges: seq<string>, s: State)
    ensures var p := RangesPass(kind, api, user, ranges, s);
      && RankedCount(p.state.stats, kind) == RankedCount(s.stats, kind) + ItemSum(kind, api, SavedRanges(kind, api, user, ranges))
      && p.state.stats.errors == s.stats.errors + RangeErrors(kind, api, user, FailedRanges(kind, api, user, ranges))
      && p.state.written == s.written + RangeFiles(kind, user, SavedRanges(kind, api, user, ranges))
      && p.results.Keys == (set r | r in ranges && RangeReply(kind, api, r).Ok?)
      && (forall r :: r in p.results ==> RangeReply(kind, api, r) == Ok(p.results[r]))
      && p.state.stats.userName == s.stats.userName
      && p.state.stats.recentlyPlayedCount == s.stats.recentlyPlayedCount
      && p.state.stats.playlistsCount == s.stats.playlistsCount
      && (kind == TopTracks ==> p.state.stats.topArtistsCount == s.stats.topArtistsCount)
      && (kind == TopArtists ==> p.state.stats.topTracksCount == s.stats.topTracksCount)
  {
    PassCounts(kind, api, user, ranges, s);
    PassErrors(kind, api, user, ranges, s);
    PassFiles(kind, api, user, ranges, s);
    PassResults(kind, api, user, ranges, s);
  }

  /** Every range is either saved or failed: the errors and files added together number the ranges. */
  lemma {:induction false} RangesPartition(kind: Ranked, api: Api, user: string, ranges: seq<string>)
    ensures |SavedRanges(kind, api, user, ranges)| + |FailedRanges(kind, api, user, ranges)| == |ranges|
  {
    if |ranges| > 0 {
      RangesPartition(kind, api, user, ranges[1..]);
    }
  }

  /** `time_ranges or [...]`. */
  function Ranges(timeRanges: seq<string>): seq<string> {
    if timeRanges == [] then DefaultRanges else timeRanges
  }

  /** A method's end: the state, its result, and the exception it let through, if any. */
  datatype RangesRun = RangesRun(state: State, results: map<string, nat>, raised: Option<string>)

  /**
   * `collect_top_tracks` / `collect_top_artists`: the per-range loop, then the combined file
   * when some range came back. That write is outside the loop's error handling, so its
   * failure escapes the method.
   */
  function AfterRanges(kind: Ranked, timeRanges: seq<string>, api: Api, s: State): RangesRun {
    var user := s.stats.userName;
    var p := RangesPass(kind, api, user, Ranges(timeRanges), s);
    if p.results == map[] then RangesRun(p.state, p.results, None)
    else if api.canWrite(CombinedFile(kind, user)) then
      RangesRun(p.state.(written := p.state.written + [CombinedFile(kind, user)]), p.results, None)
    else RangesRun(p.state, p.results, Some(WriteFailure))
  }

  predicate AnyFetched(kind: Ranked, api: Api, ranges: seq<string>) {
    exists r :: r in ranges && RangeReply(kind, api, r).Ok?
  }

  /**
   * The combined file is written exactly when at least one range came back, after the
   * per-range files; only its own write can make the method raise.
   */
  lemma CombinedOnlyAfterSuccess(kind: Ranked, timeRanges: seq<string>, api: Api, s: State)
    ensures var run := AfterRanges(kind, timeRanges, api, s);
      var p := RangesPass(kind, api, s.stats.userName, Ranges(timeRanges), s);
      && run.results.Keys == (set r | r in Ranges(timeRanges) && RangeReply(kind, api, r).Ok?)
      && (run.raised.None? ==>
            run.state.written == p.state.written + (if AnyFetched(kind, api, Ranges(timeRanges)) then [CombinedFile(kind, s.stats.userName)] else []))
      && (run.raised.Some? ==>
            AnyFetched(kind, api, Ranges(timeRanges)) && !api.canWrite(CombinedFile(kind, s.stats.userName)) && run.state == p.state)
  {
    var ranges := Ranges(timeRanges);
    var p := RangesPass(kind, api, s.stats.userName, ranges, s);
    RangesPassSpec(kind, api, s.stats.userName, ranges, s);
    if AnyFetched(kind, api, ranges) {
      var r :| r in ranges && RangeReply(kind, api, r).Ok?;
      assert r in p.results.Keys;
    } else {
      assert p.results.Keys == {};
      assert p.results == map[];
    }
  }

  // ---------------------------------------------------------------------------------------
  // collect_all

  function StatsFile(user: string): string {
    user + "_collection_stats.json"
  }

  datatype Run = Run(state: State, raised: Option<string>)

  /** The most errors each enabled category can add: one per call. */
  function ErrorBudget(opts: Options): nat {
    (if opts.recentlyPlayed then 1 else 0) + (if opts.topTracks then |DefaultRanges| else 0)
    + (if opts.topArtists then |DefaultRanges| else 0) + (if opts.playlists then 1 else 0)
  }

  /** `collect_all`: the enabled categories in their fixed order, then the stats file. */
  function AfterCollectAll(opts: Options, api: Api, s: State): Run {
    var s1 := if opts.recentlyPlayed then AfterListing(RecentlyPlayed, api, s) else s;
    var t := if opts.topTracks then AfterRanges(TopTracks, [], api, s1) else RangesRun(s1, map[], None);
    if t.raised.Some? then Run(t.state, t.raised)
    else
      var a := if opts.topArtists then AfterRanges(TopArtists, [], api, t.state) else RangesRun(t.state, map[], None);
      if a.raised.Some? then Run(a.state, a.raised)
      else
        var s4 := if opts.playlists then AfterListing(Playlists, api, a.state) else a.state;
        if api.canWrite(StatsFile(s.stats.userName)) then Run(s4.(written := s4.written + [StatsFile(s.stats.userName)]), None)
        else Run(s4, Some(WriteFailure))
  }

  /** The error list only grows, and by at most one entry per enabled call. */
  lemma RangesErrorBound(kind: Ranked, api: Api, s: State)
    ensures var run := AfterRanges(kind, [], api, s);
      && run.state.stats.userName == s.stats.userName
      && s.stats.errors <= run.state.stats.errors
      && |run.state.stats.errors| <= |s.stats.errors| + |DefaultRanges|
      && run.state.stats.recentlyPlayedCount == s.stats.recentlyPlayedCount
      && run.state.stats.playlistsCount == s.stats.playlistsCount
      && (kind == TopTracks ==> run.state.stats.topArtistsCount == s.stats.topArtistsCount)
      && (kind == TopArtists ==> run.state.stats.topTracksCount == s.stats.topTracksCount)
  {
    var user := s.stats.userName;
    PassBound(kind, api, user, Ranges([]), s);
    assert AfterRanges(kind, [], api, s).state.stats == RangesPass(kind, api, user, Ranges([]), s).state.stats;
  }

  /** The loop over any ranges: errors only appended, at most one per range, other counters fixed. */
  lemma PassBound(kind: Ranked, api: Api, user: string, ranges: seq<string>, s: State)
    ensures var st := RangesPass(kind, api, user, ranges, s).state.stats;
      && st.userName == s.stats.userName
      && s.stats.errors <= st.errors
      && |st.errors| <= |s.stats.errors| + |ranges|
      && st.recentlyPlayedCount == s.stats.recentlyPlayedCount
      && st.playlistsCount == s.stats.playlistsCount
      && (kind == TopTracks ==> st.topArtistsCount == s.stats.topArtistsCount)
      && (kind == TopArtists ==> st.topTracksCount == s.stats.topTracksCount)
  {
    PassCounts(kind, api, user, ranges, s);
    PassErrors(kind, api, user, ranges, s);
    RangesPartition(kind, api, user, ranges);
    assert |RangeErrors(kind, api, user, FailedRanges(kind, api, user, ranges))| <= |ranges|;
  }

  /** A category that is switched off leaves its counter where it was. */
  lemma CollectAllCounters(opts: Options, api: Api, s: State)
    ensures var st := AfterCollectAll(opts, api, s).state.stats;
      && st.userName == s.stats.userName
      && (!opts.recentlyPlayed ==> st.recentlyPlayedCount == s.stats.recentlyPlayedCount)
      && (!opts.topTracks ==> st.topTracksCount == s.stats.topTracksCount)
      && (!opts.topArtists ==> st.topArtistsCount == s.stats.topArtistsCount)
      && (!opts.playlists ==> st.playlistsCount == s.stats.playlistsCount)
  {
    var s1 := if opts.recentlyPlayed then AfterListing(RecentlyPlayed, api, s) else s;
    var t := if opts.topTracks then AfterRanges(TopTracks, [], api, s1) else RangesRun(s1, map[], None);
    RangesErrorBound(TopTracks, api, s1);
    if t.raised.None? {
      var a := if opts.topArtists then AfterRanges(TopArtists, [], api, t.state) else RangesRun(t.state, map[], None);
      RangesErrorBound(TopArtists, api, t.state);
      if a.raised.None? {
        var s4 := if opts.playlists then AfterListing(Playlists, api, a.state) else a.state;
        assert AfterCollectAll(opts, api, s).state.stats == s4.stats;
      }
    }
  }

  /** `b` is `a` with at most `k` entries appended. */
  predicate Grew(a: seq<string>, b: seq<string>, k: nat) {
    a <= b && |b| <= |a| + k
  }

  lemma GrewTrans(a: seq<string>, b: seq<string>, c: seq<string>, k1: nat, k2: nat)
    requires Grew(a, b, k1) && Grew(b, c, k2)
    ensures Grew(a, c, k1 + k2)
  {
  }

  /** The errors of the run are appended to the old ones and number at most one per call made. */
  lemma CollectAllErrors(opts: Options, api: Api, s: State)
    ensures Grew(s.stats.errors, AfterCollectAll(opts, api, s).state.stats.errors, ErrorBudget(opts))
  {
    var k1: nat := if opts.recentlyPlayed then 1 else 0;
    var k2: nat := if opts.topTracks then |DefaultRanges| else 0;
    var k3: nat := if opts.topArtists then |DefaultRanges| else 0;
    var k4: nat := if opts.playlists then 1 else 0;
    var s1 := if opts.recentlyPlayed then AfterListing(RecentlyPlayed, api, s) else s;
    var t := if opts.topTracks then AfterRanges(TopTracks, [], api, s1) else RangesRun(s1, map[], None);
    assert Grew(s.stats.errors, t.state.stats.errors, k1 + k2) by {
      assert Grew(s.stats.errors, s1.stats.errors, k1);
      RangesErrorBound(TopTracks, api, s1);
      GrewTrans(s.stats.errors, s1.stats.errors, t.state.stats.errors, k1, k2);
    }
    if t.raised.Some? {
      assert AfterCollectAll(opts, api, s).state == t.state;
      GrewWiden(s.stats.errors, t.state.stats.errors, k1 + k2, ErrorBudget(opts));
    } else {
      var a := if opts.topArtists then AfterRanges(TopArtists, [], api, t.state) else RangesRun(t.state, map[], None);
      assert Grew(s.stats.errors, a.state.stats.errors, k1 + k2 + k3) by {
        RangesErrorBound(TopArtists, api, t.state);
        GrewTrans(s.stats.errors, t.state.stats.errors, a.state.stats.errors, k1 + k2, k3);
      }
      if a.raised.Some? {
        assert AfterCollectAll(opts, api, s).state == a.state;
        GrewWiden(s.stats.errors, a.state.stats.errors, k1 + k2 + k3, ErrorBudget(opts));
      } else {
        var s4 := if opts.playlists then AfterListing(Playlists, api, a.state) else a.state;
        GrewTrans(s.stats.errors, a.state.stats.errors, s4.stats.errors, k1 + k2 + k3, k4);
        assert AfterCollectAll(opts, api, s).state.stats == s4.stats;
      }
    }
  }

  lemma GrewWiden(a: seq<string>, b: seq<string>, k: nat, k': nat)
    requires Grew(a, b, k) && k <= k'
    ensures Grew(a, b, k')
  {
  }

  /**
   * `collect_all` as a whole: switched-off categories keep their counters, the errors only
   * grow and by at most one per call made, and the stats file, when written, is the last
   * file.
   */
  lemma CollectAllSpec(opts: Options, api: Api, s: State)
    ensures var run := AfterCollectAll(opts, api, s);
      && run.state.stats.userName == s.stats.userName
      && (!opts.recentlyPlayed ==> run.state.stats.recentlyPlayedCount == s.stats.recentlyPlayedCount)
      && (!opts.topTracks ==> run.state.stats.topTracksCount == s.stats.topTracksCount)
      && (!opts.topArtists ==> run.state.stats.topArtistsCount == s.stats.topArtistsCount)
      && (!opts.playlists ==> run.state.stats.playlistsCount == s.stats.playlistsCount)
      && Grew(s.stats.errors, run.state.stats.errors, ErrorBudget(opts))
      && (run.raised.None? ==> run.state.written[|run.state.written| - 1] == StatsFile(s.stats.userName))
  {
    CollectAllCounters(opts, api, s);
    CollectAllErrors(opts, api, s);
  }

  // ---------------------------------------------------------------------------------------
  // SpotifyDataCollector

  class SpotifyDataCollector {
    const userName: string
    var recentlyPlayedCount: nat
    var topTracksCount: nat
    var topArtistsCount: nat
    var playlistsCount: nat
    var errors: seq<string>
    var written: seq<string>

    function Current(): State
      reads this
    {
      State(Stats(userName, recentlyPlayedCount, topTracksCount, topArtistsCount, playlistsCount, errors), written)
    }

    /** A collector for one member, with zero counts and no errors yet. */
    constructor(userName: string)
      ensures Current() == Fresh(userName)
    {
      this.userName := userName;
      recentlyPlayedCount := 0;
      topTracksCount := 0;
      topArtistsCount := 0;
      playlistsCount := 0;
      errors := [];
      written := [];
    }

    /** `collect_recently_played` / `collect_playlists`: the reply's item count, or None. */
    method CollectListing(what: Listing, api: Api) returns (r: Option<nat>)
      modifies this
      ensures Current() == AfterListing(what, api, old(Current()))
      ensures r.Some? <==> ListingSaved(what, api, userName)
      ensures r.Some? ==> r.value == ListingReply(what, api).value
    {
      var reply := ListingReply(what, api);
      if reply.Err? {
        errors := errors + [ListingError(what, reply.error)];
        return None;
      }
      var file := ListingFile(what, userName);
      if !api.canWrite(file) {
        errors := errors + [ListingError(what, WriteFailure)];
        return None;
      }
      written := written + [file];
      if what == RecentlyPlayed {
        recentlyPlayedCount := reply.value;
      } else {
        playlistsCount := reply.value;
      }
      r := Some(reply.value);
    }

    method CollectRecentlyPlayed(api: Api) returns (r: Option<nat>)
      modifies this
      ensures Current() == AfterListing(RecentlyPlayed, api, old(Current()))
      ensures r.Some? <==> ListingSaved(RecentlyPlayed, api, userName)
    {
      r := CollectListing(RecentlyPlayed, api);
    }

    method CollectPlaylists(api: Api) returns (r: Option<nat>)
      modifies this
      ensures Current() == AfterListing(Playlists, api, old(Current()))
      ensures r.Some? <==> ListingSaved(Playlists, api, userName)
    {
      r := CollectListing(Playlists, api);
    }

    /**
     * The per-range loop of `collect_top_tracks` / `collect_top_artists` and the combined
     * file: `all_results`, or the exception of the combined write.
     */
    method CollectRanges(kind: Ranked, timeRanges: seq<string>, api: Api) returns (r: Result<map<string, nat>>)
      modifies this
      ensures var run := AfterRanges(kind, timeRanges, api, old(Current()));
        && Current() == run.state
        && r == (if run.raised.Some? then Err(run.raised.value) else Ok(run.results))
    {
      var ranges := Ranges(timeRanges);
      ghost var start := Current();
      var all: map<string, nat> := map[];
      var i := 0;
      while i < |ranges|
        invariant 0 <= i <= |ranges|
        invariant userName == start.stats.userName
        invariant RangesPass(kind, api, userName, ranges[..i], start) == Pass(Current(), all)
      {
        assert ranges[..i + 1][..i] == ranges[..i];
        all := CollectRange(kind, ranges[i], api, all);
        i := i + 1;
      }
      assert ranges[..i] == ranges;
      if all == map[] {
        return Ok(all);
      }
      var combined := CombinedFile(kind, userName);
      if !api.canWrite(combined) {
        return Err(WriteFailure);
      }
      written := written + [combined];
      r := Ok(all);
    }

    /** One pass of the per-range loop: fetch, save, count, or record the error. */
    method CollectRange(kind: Ranked, range: string, api: Api, all: map<string, nat>) returns (all': map<string, nat>)
      modifies this
      ensures Pass(Current(), all') == RangeStep(kind, api, userName, range, Pass(old(Current()), all))
    {
      all' := all;
      var reply := RangeReply(kind, api, range);
      if reply.Err? {
        errors := errors + [RangeError(kind, range, reply.error)];
      } else {
        all' := all[range := reply.value];
        var file := RangeFile(kind, userName, range);
        if api.canWrite(file) {
          written := written + [file];
          if kind == TopTracks {
            topTracksCount := topTracksCount + reply.value;
          } else {
            topArtistsCount := topArtistsCount + reply.value;
          }
        } else {
          errors := errors + [RangeError(kind, range, WriteFailure)];
        }
      }
    }

    method CollectTopTracks(timeRanges: seq<string>, api: Api) returns (r: Result<map<string, nat>>)
      modifies this
      ensures var run := AfterRanges(TopTracks, timeRanges, api, old(Current()));
        Current() == run.state && r == (if run.raised.Some? then Err(run.raised.value) else Ok(run.results))
    {
      r := CollectRanges(TopTracks, timeRanges, api);
    }

    method CollectTopArtists(timeRanges: seq<string>, api: Api) returns (r: Result<map<string, nat>>)
      modifies this
      ensures var run := AfterRanges(TopArtists, timeRanges, api, old(Current()));
        Current() == run.state && r == (if run.raised.Some? then Err(run.raised.value) else Ok(run.results))
    {
      r := CollectRanges(TopArtists, timeRanges, api);
    }

    /** `collect_all`: the stats record, or the exception that escaped. */
    method CollectAll(opts: Options, api: Api) returns (r: Result<Stats>)
      modifies this
      ensures var run := AfterCollectAll(opts, api, old(Current()));
        && Current() == run.state
        && r == (if run.raised.Some? then Err(run.raised.value) else Ok(run.state.stats))
    {
      if opts.recentlyPlayed {
        var _ := CollectRecentlyPlayed(api);
      }
      if opts.topTracks {
        var tracks := CollectTopTracks([], api);
        if tracks.Err? {
          return Err(tracks.error);
        }
      }
      if opts.topArtists {
        var artists := CollectTopArtists([], api);
        if artists.Err? {
          return Err(artists.error);
        }
      }
      if opts.playlists {
        var _ := CollectPlaylists(api);
      }
      var statsFile := StatsFile(userName);
      if !api.canWrite(statsFile) {
        return Err(WriteFailure);
      }
      written := written + [statsFile];
      r := Ok(Current().stats);
    }
  }

  // ---------------------------------------------------------------------------------------
  // TeamDataCollector

  /** A member's entry in `team_stats`: their stats, or the error that stopped their run. */
  datatype Entry = Done(stats: Stats) | Failed(error: string)

  function FailText(member: string, e: string): string {
    "Failed to collect data for " + member + ": " + e
  }

  /**
   * What one member's run leaves in `team_stats`: authentication (in the collector's
   * constructor) and the run itself can raise; either becomes an error entry.
   */
  function MemberEntry(member: string, opts: Options, authError: string -> Option<string>, apis: string -> Api): (e: Entry)
    ensures e.Failed? <==> authError(member).Some? || AfterCollectAll(opts, apis(member), Fresh(member)).raised.Some?
    ensures e.Failed? ==> FailText(member, "") <= e.error
    ensures e.Failed? && authError(member).Some? ==> e.error == FailText(member, authError(member).value)
    ensures e.Done? ==>
      && e.stats == AfterCollectAll(opts, apis(member), Fresh(member)).state.stats
      && e.stats.userName == member
  {
    if authError(member).Some? then Failed(FailText(member, authError(member).value))
    else
      CollectAllSpec(opts, apis(member), Fresh(member));
      var run := AfterCollectAll(opts, apis(member), Fresh(member));
      if run.raised.Some? then Failed(FailText(member, run.raised.value)) else Done(run.state.stats)
  }

  /** A dict in insertion order: the entry for a key already present is replaced in place. */
  function Put(d: seq<(string, Entry)>, k: string, v: Entry): seq<(string, Entry)> {
    if |d| == 0 then [(k, v)]
    else if d[0].0 == k then [(k, v)] + d[1..]
    else [d[0]] + Put(d[1..], k, v)
  }

  function Lookup(d: seq<(string, Entry)>, k: string): Option<Entry> {
    if |d| == 0 then None
    else if d[0].0 == k then Some(d[0].1)
    else Lookup(d[1..], k)
  }

  predicate DistinctKeys(d: seq<(string, Entry)>) {
    forall i, j :: 0 <= i < j < |d| ==> d[i].0 != d[j].0
  }

  lemma {:induction false} PutSpec(d: seq<(string, Entry)>, k: string, v: Entry)
    ensures Lookup(Put(d, k, v), k) == Some(v)
    ensures forall k' :: k' != k ==> Lookup(Put(d, k, v), k') == Lookup(d, k')
    ensures forall x :: x in Put(d, k, v) ==> x in d || x == (k, v)
    ensures DistinctKeys(d) ==> DistinctKeys(Put(d, k, v))
  {
    if |d| > 0 && d[0].0 != k {
      PutSpec(d[1..], k, v);
      var r := Put(d, k, v);
      assert r[1..] == Put(d[1..], k, v);
      if DistinctKeys(d) {
        assert DistinctKeys(d[1..]);
        forall j | 0 < j < |r| ensures r[0].0 != r[j].0 {
          assert r[j] in Put(d[1..], k, v);
          assert r[j] in d[1..] || r[j] == (k, v);
        }
      }
    } else if |d| > 0 {
      var r := Put(d, k, v);
      if DistinctKeys(d) {
        forall i, j | 0 <= i < j < |r| ensures r[i].0 != r[j].0 {
          assert r[j] == d[j];
        }
      }
    }
  }

  /** `team_stats` after running the given members in order. */
  function AfterTeam(members: seq<string>, opts: Options, authError: string -> Option<string>, apis: string -> Api,
                     d: seq<(string, Entry)>): seq<(string, Entry)> {
    if |members| == 0 then d
    else
      var m := members[|members| - 1];
      Put(AfterTeam(members[..|members| - 1], opts, authError, apis, d), m, MemberEntry(m, opts, authError, apis))
  }

  /**
   * Every member gets an entry, the error entry when their run failed, whatever happened to
   * the members before them; entries of other names are untouched, and names stay distinct.
   */
  lemma {:induction false} TeamSpec(members: seq<string>, opts: Options, authError: string -> Option<string>,
                                    apis: string -> Api, d: seq<(string, Entry)>)
    ensures var r := AfterTeam(members, opts, authError, apis, d);
      && (forall m :: m in members ==> Lookup(r, m) == Some(MemberEntry(m, opts, authError, apis)))
      && (forall k :: k !in members ==> Lookup(r, k) == Lookup(d, k))
      && (DistinctKeys(d) ==> DistinctKeys(r))
  {
    if |members| > 0 {
      var n := |members| - 1;
      var init := members[..n];
      assert members == init + [members[n]];
      TeamSpec(init, opts, authError, apis, d);
      PutSpec(AfterTeam(init, opts, authError, apis, d), members[n], MemberEntry(members[n], opts, authError, apis));
    }
  }

  /** The totals printed by `_print_team_summary`. */
  datatype Totals = Totals(recentlyPlayed: nat, topTracks: nat, topArtists: nat, playlists: nat, errors: nat)

  function Plus(a: Totals, b: Totals): Totals {
    Totals(a.recentlyPlayed + b.recentlyPlayed, a.topTracks + b.topTracks, a.topArtists + b.topArtists,
           a.playlists + b.playlists, a.errors + b.errors)
  }

  /** One entry's share: a failed member counts one error and nothing else. */
  function Share(e: Entry): Totals {
    match e
    case Failed(_) => Totals(0, 0, 0, 0, 1)
    case Done(st) => Totals(st.recentlyPlayedCount, st.topTracksCount, st.topArtistsCount, st.playlistsCount, |st.errors|)
  }

  function TotalsOf(d: seq<(string, Entry)>): Totals {
    if |d| == 0 then Totals(0, 0, 0, 0, 0) else Plus(TotalsOf(d[..|d| - 1]), Share(d[|d| - 1].1))
  }

  /** The entries of the members whose run completed, in order. */
  function Completed(d: seq<(string, Entry)>): seq<(string, Entry)> {
    if |d| == 0 then [] else Completed(d[..|d| - 1]) + (if d[|d| - 1].1.Done? then [d[|d| - 1]] else [])
  }

  /** The number of error entries. */
  function FailedCount(d: seq<(string, Entry)>): nat {
    if |d| == 0 then 0 else FailedCount(d[..|d| - 1]) + (if d[|d| - 1].1.Failed? then 1 else 0)
  }

  /** Only an error count. */
  function Errors(k: nat): Totals {
    Totals(0, 0, 0, 0, k)
  }

  lemma {:induction false} TotalsConcat(a: seq<(string, Entry)>, b: seq<(string, Entry)>)
    ensures TotalsOf(a + b) == Plus(TotalsOf(a), TotalsOf(b))
  {
    if |b| == 0 {
      assert a + b == a;
    } else {
      var n := |b| - 1;
      var ab := a + b;
      assert ab[..|ab| - 1] == a + b[..n];
      assert ab[|ab| - 1] == b[n];
      TotalsConcat(a, b[..n]);
      var x, y, z := TotalsOf(a), TotalsOf(b[..n]), Share(b[n].1);
      assert TotalsOf(b) == Plus(y, z);
      assert TotalsOf(ab) == Plus(Plus(x, y), z);
      assert Plus(Plus(x, y), z) == Plus(x, Plus(y, z));
    }
  }

  lemma PlusSwap(x: Totals, y: Totals, z: Totals)
    ensures Plus(Plus(x, y), z) == Plus(Plus(x, z), y)
  {
  }

  lemma PlusOneError(t: Totals, k: nat)
    ensures Plus(Plus(t, Errors(k)), Errors(1)) == Plus(t, Errors(k + 1))
  {
  }

  /**
   * The summary's track, artist and playlist totals add up only the members without an
   * error entry; its error total is one per failed member plus the errors the others
   * recorded.
   */
  lemma {:induction false} TotalsSkipFailed(d: seq<(string, Entry)>)
    ensures TotalsOf(d) == Plus(TotalsOf(Completed(d)), Errors(FailedCount(d)))
  {
    if |d| > 0 {
      var n := |d| - 1;
      var init := d[..n];
      var last := d[n];
      TotalsSkipFailed(init);
      var ok := Completed(init);
      var t0 := TotalsOf(ok);
      var f0 := Errors(FailedCount(init));
      var s := Share(last.1);
      assert TotalsOf(d) == Plus(Plus(t0, f0), s);
      if last.1.Done? {
        assert Completed(d) == ok + [last];
        assert FailedCount(d) == FailedCount(init);
        assert [last][..0] == [];
        assert TotalsOf([last]) == s;
        TotalsConcat(ok, [last]);
        assert TotalsOf(Completed(d)) == Plus(t0, s);
        PlusSwap(t0, f0, s);
        assert TotalsOf(d) == Plus(TotalsOf(Completed(d)), Errors(FailedCount(d)));
      } else {
        assert Completed(d) == ok;
        assert FailedCount(d) == FailedCount(init) + 1;
        assert s == Errors(1);
        PlusOneError(t0, FailedCount(init));
        assert TotalsOf(d) == Plus(TotalsOf(Completed(d)), Errors(FailedCount(d)));
      }
    } else {
      assert Completed(d) == [];
      assert FailedCount(d) == 0;
      assert TotalsOf(d) == Errors(0);
      assert TotalsOf(Completed(d)) == Errors(0);
      assert TotalsOf(d) == Plus(TotalsOf(Completed(d)), Errors(FailedCount(d)));
    }
  }
  /** Extending a prefix of the entries by one adds that entry's share. */
  lemma TotalsOfStep(d: seq<(string, Entry)>, i: nat)
    requires i < |d|
    ensures TotalsOf(d[..i + 1]) == Plus(TotalsOf(d[..i]), Share(d[i].1))
  {
    assert d[..i + 1][..i] == d[..i];
  }

  /** One pass of the summary loop: a failed member adds an error, any other adds its counts. */
  method Tally(t: Totals, entry: Entry) returns (u: Totals)
    ensures u == Plus(t, Share(entry))
  {
    if entry.Failed? {
      u := t.(errors := t.errors + 1);
    } else {
      var st := entry.stats;
      u := Totals(t.recentlyPlayed + st.recentlyPlayedCount, t.topTracks + st.topTracksCount,
                  t.topArtists + st.topArtistsCount, t.playlists + st.playlistsCount, t.errors + |st.errors|);
    }
  }

  /** One pass of the `collect_all` loop: a fresh collector for the member, or the error. */
  method RunMember(member: string, opts: Options, authError: string -> Option<string>, apis: string -> Api)
    returns (entry: Entry)
    ensures entry == MemberEntry(member, opts, authError, apis)
  {
    if authError(member).Some? {
      entry := Failed(FailText(member, authError(member).value));
    } else {
      var collector := new SpotifyDataCollector(member);
      var stats := collector.CollectAll(opts, apis(member));
      entry := if stats.Ok? then Done(stats.value) else Failed(FailText(member, stats.error));
    }
  }

  class TeamDataCollector {
    const members: seq<string>
    var teamStats: seq<(string, Entry)>

    /** `members or TEAM_MEMBERS`, and no stats yet. */
    constructor(members: seq<string>)
      ensures this.members == (if members == [] then TeamMembers else members)
      ensures teamStats == []
    {
      this.members := if members == [] then TeamMembers else members;
      teamStats := [];
    }

    /**
     * `collect_all`: each member in turn gets a fresh collector and an entry, a failing
     * member an error entry; the summary file is written at the end, and a failure to write
     * it escapes.
     */
    method CollectAll(opts: Options, authError: string -> Option<string>, apis: string -> Api, summaryWritable: bool)
      returns (r: Result<seq<(string, Entry)>>)
      modifies this
      ensures teamStats == AfterTeam(members, opts, authError, apis, old(teamStats))
      ensures r == (if summaryWritable then Ok(teamStats) else Err(WriteFailure))
    {
      var i := 0;
      while i < |members|
        invariant 0 <= i <= |members|
        invariant teamStats == AfterTeam(members[..i], opts, authError, apis, old(teamStats))
      {
        var member := members[i];
        assert members[..i + 1][..i] == members[..i];
        var entry := RunMember(member, opts, authError, apis);
        teamStats := Put(teamStats, member, entry);
        i := i + 1;
      }
      assert members[..i] == members;
      if !summaryWritable {
        return Err(WriteFailure);
      }
      r := Ok(teamStats);
    }

    /** `_print_team_summary`: the totals, accumulated entry by entry. */
    method Summary() returns (t: Totals)
      ensures t == TotalsOf(teamStats)
    {
      var d := teamStats;
      t := Errors(0);
      var i := 0;
      while i < |d|
        invariant 0 <= i <= |d|
        invariant t == TotalsOf(d[..i])
      {
        TotalsOfStep(d, i);
        t := Tally(t, d[i].1);
        i := i + 1;
      }
      assert d[..i] == d;
    }
  }
}

=== FILE: dashboard_helpers.dfy ===
/**
 * app/func/dashboard_helpers.py: loading the "current" snapshot (nine fixed files, any
 * failure surfacing as one wrapped error), the sync-status caption, the Kaggle enrichment of
 * a user's tracks (guards, left join on track_id, composite and context columns only when
 * some row got features) and the audio-feature coverage counts.
 *
 * The object store is given as two loaders, one for JSON documents and one for Parquet
 * frames, each returning the loaded value or the error text.
 */
module DashboardHelpers {
  import opened Wrappers
  import opened Frames
  import Seqs
  import Text
  import DatetimeUtils
  import FeatureEngineering

  // ---------------------------------------------------------------------------------------
  // load_current_snapshot

  /** The files of the current slot, in the order they are read. */
  const CurrentFiles: seq<string> := ["metadata.json", "recent_tracks.parquet",
    "top_tracks_short.parquet", "top_tracks_medium.parquet", "top_tracks_long.parquet",
    "top_artists_short.parquet", "top_artists_medium.parquet", "top_artists_long.parquet",
    "computed_metrics.json"]

  function CurrentFolder(userId: string): string {
    "users/" + userId + "/current/"
  }

  function CurrentKey(userId: string, file: string): string {
    CurrentFolder(userId) + file
  }

  /** A loaded file: a JSON document or a frame. */
  datatype Blob = Json(doc: map<string, Value>) | Frame(table: Table)

  predicate IsJsonFile(file: string) {
    |file| >= 5 && file[|file| - 5..] == ".json"
  }

  /** `load_json_from_r2` / `load_parquet_from_r2`: the value, or "Failed to load {key}: {e}". */
  function LoadFile(key: string, isJson: bool, loadJson: string -> Result<map<string, Value>>,
                    loadParquet: string -> Result<Table>): Result<Blob> {
    if isJson then
      var r := loadJson(key);
      if r.Ok? then Ok(Json(r.value)) else Err("Failed to load " + key + ": " + r.error)
    else
      var r := loadParquet(key);
      if r.Ok? then Ok(Frame(r.value)) else Err("Failed to load " + key + ": " + r.error)
  }

  /** File `i` of the current slot, loaded. */
  function LoadAt(userId: string, i: nat, loadJson: string -> Result<map<string, Value>>,
                  loadParquet: string -> Result<Table>): Result<Blob>
    requires i < |CurrentFiles|
  {
    LoadFile(CurrentKey(userId, CurrentFiles[i]), IsJsonFile(CurrentFiles[i]), loadJson, loadParquet)
  }

  /** The first `n` files read in order; the first failure stops the reading. */
  function LoadFiles(userId: string, n: nat, loadJson: string -> Result<map<string, Value>>,
                     loadParquet: string -> Result<Table>): (r: Result<seq<Blob>>)
    requires n <= |CurrentFiles|
    ensures r.Ok? ==> |r.value| == n
  {
    if n == 0 then Ok([])
    else
      var prev := LoadFiles(userId, n - 1, loadJson, loadParquet);
      if prev.Err? then prev
      else
        var b := LoadAt(userId, n - 1, loadJson, loadParquet);
        if b.Err? then Err(b.error) else Ok(prev.value + [b.value])
  }

  datatype CurrentSnapshot = CurrentSnapshot(
    recentTracks: Table,
    topTracks: map<string, Table>,
    topArtists: map<string, Table>,
    metadata: map<string, Value>,
    metrics: map<string, Value>)

  function AsDoc(b: Blob): map<string, Value> {
    if b.Json? then b.doc else map[]
  }

  function AsTable(b: Blob): Table {
    if b.Frame? then b.table else EmptyTable()
  }

  const WrapPrefix: string := "Failed to load snapshot data: "

  /**
   * `load_current_snapshot`: without a bucket the error is "S3 bucket not configured";
   * otherwise the nine files are read in order and the first failure is the error; every
   * error comes out wrapped in "Failed to load snapshot data: ".
   */
  function LoadCurrentSnapshot(userId: string, bucket: Option<string>,
                               loadJson: string -> Result<map<string, Value>>,
                               loadParquet: string -> Result<Table>): (r: Result<CurrentSnapshot>)
    ensures r.Err? ==> Text.StartsWith(r.error, WrapPrefix)
    ensures (bucket.None? || bucket == Some("")) ==> r == Err(WrapPrefix + "S3 bucket not configured")
    ensures bucket.Some? && bucket.value != "" ==> (r.Ok? <==> LoadFiles(userId, 9, loadJson, loadParquet).Ok?)
  {
    if bucket.None? || bucket.value == "" then Err(WrapPrefix + "S3 bucket not configured")
    else
      var files := LoadFiles(userId, 9, loadJson, loadParquet);
      if files.Err? then Err(WrapPrefix + files.error)
      else
        var bs := files.value;
        Ok(CurrentSnapshot(
          AsTable(bs[1]),
          map["short" := AsTable(bs[2]), "medium" := AsTable(bs[3]), "long" := AsTable(bs[4])],
          map["short" := AsTable(bs[5]), "medium" := AsTable(bs[6]), "long" := AsTable(bs[7])],
          AsDoc(bs[0]), AsDoc(bs[8])))
  }

  /** Reading the first `n` files succeeds exactly when each loads, and yields those loads. */
  lemma LoadFilesOk(userId: string, n: nat, loadJson: string -> Result<map<string, Value>>,
                    loadParquet: string -> Result<Table>)
    requires n <= |CurrentFiles|
    ensures var r := LoadFiles(userId, n, loadJson, loadParquet);
      && (r.Ok? <==> forall i :: 0 <= i < n ==> LoadAt(userId, i, loadJson, loadParquet).Ok?)
      && (r.Ok? ==> forall i :: 0 <= i < n ==> Ok(r.value[i]) == LoadAt(userId, i, loadJson, loadParquet))
  {
    LoadFilesOkIff(userId, n, loadJson, loadParquet);
    LoadFilesValues(userId, n, loadJson, loadParquet);
  }

  lemma {:induction false} LoadFilesOkIff(userId: string, n: nat, loadJson: string -> Result<map<string, Value>>,
                                          loadParquet: string -> Result<Table>)
    requires n <= |CurrentFiles|
    ensures LoadFiles(userId, n, loadJson, loadParquet).Ok? <==> forall i :: 0 <= i < n ==> LoadAt(userId, i, loadJson, loadParquet).Ok?
  {
    if n > 0 {
      LoadFilesOkIff(userId, n - 1, loadJson, loadParquet);
    }
  }

  lemma {:induction false} LoadFilesValues(userId: string, n: nat, loadJson: string -> Result<map<string, Value>>,
                                           loadParquet: string -> Result<Table>)
    requires n <= |CurrentFiles|
    ensures var r := LoadFiles(userId, n, loadJson, loadParquet);
      r.Ok? ==> forall i :: 0 <= i < n ==> Ok(r.value[i]) == LoadAt(userId, i, loadJson, loadParquet)
  {
    if n > 0 {
      LoadFilesValues(userId, n - 1, loadJson, loadParquet);
    }
  }

  /** File `i` is the first of the slot that fails to load. */
  predicate FirstFailure(userId: string, i: nat, loadJson: string -> Result<map<string, Value>>,
                         loadParquet: string -> Result<Table>)
    requires i < |CurrentFiles|
  {
    && LoadAt(userId, i, loadJson, loadParquet).Err?
    && forall j :: 0 <= j < i ==> LoadAt(userId, j, loadJson, loadParquet).Ok?
  }

  predicate FailsFirstWith(userId: string, i: nat, n: nat, error: string,
                           loadJson: string -> Result<map<string, Value>>, loadParquet: string -> Result<Table>)
  {
    i < n <= |CurrentFiles| && FirstFailure(userId, i, loadJson, loadParquet) && error == LoadAt(userId, i, loadJson, loadParquet).error
  }

  /** A failed reading carries the error of the first file that failed. */
  lemma {:induction false} LoadFilesErr(userId: string, n: nat, loadJson: string -> Result<map<string, Value>>,
                                        loadParquet: string -> Result<Table>)
    requires n <= |CurrentFiles|
    requires LoadFiles(userId, n, loadJson, loadParquet).Err?
    ensures exists i :: FailsFirstWith(userId, i, n, LoadFiles(userId, n, loadJson, loadParquet).error, loadJson, loadParquet)
  {
    var prev := LoadFiles(userId, n - 1, loadJson, loadParquet);
    var e := LoadFiles(userId, n, loadJson, loadParquet).error;
    if prev.Err? {
      assert e == prev.error;
      LoadFilesErr(userId, n - 1, loadJson, loadParquet);
      var i :| FailsFirstWith(userId, i, n - 1, prev.error, loadJson, loadParquet);
      assert FailsFirstWith(userId, i, n, e, loadJson, loadParquet);
    } else {
      assert e == LoadAt(userId, n - 1, loadJson, loadParquet).error;
      assert FirstFailure(userId, n - 1, loadJson, loadParquet) by {
        LoadFilesOk(userId, n - 1, loadJson, loadParquet);
      }
      assert FailsFirstWith(userId, n - 1, n, e, loadJson, loadParquet);
    }
  }

  /**
   * With a bucket, the snapshot loads exactly when all nine files do, and then holds what they
   * hold: metadata first, the frames between, metrics last.
   */
  lemma LoadCurrentSnapshotOk(userId: string, bucket: string, loadJson: string -> Result<map<string, Value>>,
                              loadParquet: string -> Result<Table>)
    requires bucket != ""
    ensures var r := LoadCurrentSnapshot(userId, Some(bucket), loadJson, loadParquet);
      && (r.Ok? <==> forall i :: 0 <= i < 9 ==> LoadAt(userId, i, loadJson, loadParquet).Ok?)
      && (r.Ok? ==>
            && Ok(r.value.metadata) == loadJson(CurrentKey(userId, "metadata.json"))
            && Ok(r.value.recentTracks) == loadParquet(CurrentKey(userId, "recent_tracks.parquet"))
            && Ok(r.value.topTracks["short"]) == loadParquet(CurrentKey(userId, "top_tracks_short.parquet"))
            && Ok(r.value.topTracks["long"]) == loadParquet(CurrentKey(userId, "top_tracks_long.parquet"))
            && Ok(r.value.topArtists["medium"]) == loadParquet(CurrentKey(userId, "top_artists_medium.parquet"))
            && Ok(r.value.metrics) == loadJson(CurrentKey(userId, "computed_metrics.json")))
  {
    LoadFilesOk(userId, 9, loadJson, loadParquet);
    if LoadCurrentSnapshot(userId, Some(bucket), loadJson, loadParquet).Ok? {
      SnapshotDocs(userId, bucket, loadJson, loadParquet);
      SnapshotFrames(userId, bucket, loadJson, loadParquet);
    }
  }

  /** The two documents of a loaded snapshot. */
  lemma SnapshotDocs(userId: string, bucket: string, loadJson: string -> Result<map<string, Value>>,
                     loadParquet: string -> Result<Table>)
    requires bucket != ""
    requires LoadCurrentSnapshot(userId, Some(bucket), loadJson, loadParquet).Ok?
    ensures var s := LoadCurrentSnapshot(userId, Some(bucket), loadJson, loadParquet).value;
      && Ok(s.metadata) == loadJson(CurrentKey(userId, "metadata.json"))
      && Ok(s.metrics) == loadJson(CurrentKey(userId, "computed_metrics.json"))
  {
    var bs := LoadFiles(userId, 9, loadJson, loadParquet).value;
    assert Ok(bs[0]) == LoadAt(userId, 0, loadJson, loadParquet) && Ok(bs[8]) == LoadAt(userId, 8, loadJson, loadParquet) by {
      LoadFilesOk(userId, 9, loadJson, loadParquet);
    }
    assert IsJsonFile(CurrentFiles[0]) && IsJsonFile(CurrentFiles[8]);
  }

  /** The frames of a loaded snapshot. */
  lemma SnapshotFrames(userId: string, bucket: string, loadJson: string -> Result<map<string, Value>>,
                       loadParquet: string -> Result<Table>)
    requires bucket != ""
    requires LoadCurrentSnapshot(userId, Some(bucket), loadJson, loadParquet).Ok?
    ensures var s := LoadCurrentSnapshot(userId, Some(bucket), loadJson, loadParquet).value;
      && Ok(s.recentTracks) == loadParquet(CurrentKey(userId, "recent_tracks.parquet"))
      && Ok(s.topTracks["short"]) == loadParquet(CurrentKey(userId, "top_tracks_short.parquet"))
      && Ok(s.topTracks["long"]) == loadParquet(CurrentKey(userId, "top_tracks_long.parquet"))
      && Ok(s.topArtists["medium"]) == loadParquet(CurrentKey(userId, "top_artists_medium.parquet"))
  {
    var bs := LoadFiles(userId, 9, loadJson, loadParquet).value;
    assert Ok(bs[1]) == LoadAt(userId, 1, loadJson, loadParquet) && Ok(bs[2]) == LoadAt(userId, 2, loadJson, loadParquet) by {
      LoadFilesOk(userId, 9, loadJson, loadParquet);
    }
    assert Ok(bs[4]) == LoadAt(userId, 4, loadJson, loadParquet) && Ok(bs[6]) == LoadAt(userId, 6, loadJson, loadParquet) by {
      LoadFilesOk(userId, 9, loadJson, loadParquet);
    }
    assert !IsJsonFile(CurrentFiles[1]) && !IsJsonFile(CurrentFiles[2]);
    assert !IsJsonFile(CurrentFiles[4]) && !IsJsonFile(CurrentFiles[6]);
  }

  /**
   * Otherwise the error names the first file that failed:
   * "Failed to load snapshot data: Failed to load {key}: {e}".
   */
  lemma LoadCurrentSnapshotErr(userId: string, bucket: string, loadJson: string -> Result<map<string, Value>>,
                               loadParquet: string -> Result<Table>)
    requires bucket != ""
    requires LoadCurrentSnapshot(userId, Some(bucket), loadJson, loadParquet).Err?
    ensures exists i :: 0 <= i < 9 && FirstFailure(userId, i, loadJson, loadParquet)
                        && LoadCurrentSnapshot(userId, Some(bucket), loadJson, loadParquet).error == SnapshotError(userId, i, loadJson, loadParquet)
  {
    var files := LoadFiles(userId, 9, loadJson, loadParquet);
    var e := LoadCurrentSnapshot(userId, Some(bucket), loadJson, loadParquet).error;
    SnapshotErrorWrapsFiles(userId, bucket, loadJson, loadParquet);
    assert files.Err? && e == WrapPrefix + files.error;
    LoadFilesErr(userId, 9, loadJson, loadParquet);
    var i: nat :| FailsFirstWith(userId, i, 9, files.error, loadJson, loadParquet);
    assert files.error == LoadAt(userId, i, loadJson, loadParquet).error;
    LoadAtError(userId, i, loadJson, loadParquet);
    assert e == SnapshotError(userId, i, loadJson, loadParquet);
    assert 0 <= i < 9 && FirstFailure(userId, i, loadJson, loadParquet);
  }

  /** A failed snapshot load is the failed file reading, wrapped. */
  lemma SnapshotErrorWrapsFiles(userId: string, bucket: string, loadJson: string -> Result<map<string, Value>>,
                                loadParquet: string -> Result<Table>)
    requires bucket != ""
    requires LoadCurrentSnapshot(userId, Some(bucket), loadJson, loadParquet).Err?
    ensures LoadFiles(userId, 9, loadJson, loadParquet).Err?
    ensures LoadCurrentSnapshot(userId, Some(bucket), loadJson, loadParquet).error
      == WrapPrefix + LoadFiles(userId, 9, loadJson, loadParquet).error
  {
  }

  /** The text load_current_snapshot raises when file `i` is the first to fail. */
  function SnapshotError(userId: string, i: nat, loadJson: string -> Result<map<string, Value>>,
                         loadParquet: string -> Result<Table>): string
    requires i < |CurrentFiles|
  {
    WrapPrefix + "Failed to load " + CurrentKey(userId, CurrentFiles[i]) + ": " + FileError(userId, i, loadJson, loadParquet)
  }

  lemma LoadAtError(userId: string, i: nat, loadJson: string -> Result<map<string, Value>>,
                    loadParquet: string -> Result<Table>)
    requires i < |CurrentFiles|
    requires LoadAt(userId, i, loadJson, loadParquet).Err?
    ensures LoadAt(userId, i, loadJson, loadParquet).error
      == "Failed to load " + CurrentKey(userId, CurrentFiles[i]) + ": " + FileError(userId, i, loadJson, loadParquet)
  {
  }

  /** The loader's own error text for file `i`. */
  function FileError(userId: string, i: nat, loadJson: string -> Result<map<string, Value>>,
                     loadParquet: string -> Result<Table>): string
    requires i < |CurrentFiles|
  {
    var key := CurrentKey(userId, CurrentFiles[i]);
    if IsJsonFile(CurrentFiles[i]) then
      (if loadJson(key).Err? then loadJson(key).error else "")
    else if loadParquet(key).Err? then loadParquet(key).error else ""
  }

  /**
   * The current slot is nine distinct files in the user's `current/` folder: two JSON
   * documents (metadata first, metrics last) and seven frames.
   */
  lemma CurrentKeysDistinct(userId: string)
    ensures forall i :: 0 <= i < 9 ==> Text.StartsWith(CurrentKey(userId, CurrentFiles[i]), CurrentFolder(userId))
    ensures forall i, j :: 0 <= i < j < 9 ==> CurrentKey(userId, CurrentFiles[i]) != CurrentKey(userId, CurrentFiles[j])
    ensures forall i :: 0 <= i < 9 ==> (IsJsonFile(CurrentFiles[i]) <==> i == 0 || i == 8)
  {
    var folder := CurrentFolder(userId);
    forall i | 0 <= i < 9 ensures CurrentKey(userId, CurrentFiles[i])[..|folder|] == folder {
    }
    forall i, j | 0 <= i < j < 9 ensures CurrentKey(userId, CurrentFiles[i]) != CurrentKey(userId, CurrentFiles[j]) {
      assert CurrentKey(userId, CurrentFiles[i])[|folder|..] == CurrentFiles[i];
      assert CurrentKey(userId, CurrentFiles[j])[|folder|..] == CurrentFiles[j];
    }
  }

  // ---------------------------------------------------------------------------------------
  // display_sync_status

  /** Python's `int(x)`: truncation toward zero. */
  function Trunc(x: real): int {
    if x >= 0.0 then x.Floor else -((-x).Floor)
  }

  datatype SyncCaption =
    | FreshUnderAnHour
    | FreshHours(hours: nat)
    | RecentHours(hours: nat)
    | StaleDays(days: nat)
    | RecentlySynced

  /**
   * `display_sync_status`: nothing without a `last_sync` value; "Recently synced" when it does
   * not parse (or cannot be subtracted); otherwise the bucket of the whole hours elapsed.
   * `elapsed` is the number of seconds since the sync, None when the parse fails.
   */
  function SyncStatus(lastSync: Option<string>, elapsed: Option<real>): (c: Option<SyncCaption>)
    ensures lastSync.None? || lastSync == Some("") ==> c.None?
    ensures c == Some(RecentlySynced) <==> lastSync.Some? && lastSync.value != "" && elapsed.None?
    ensures c.Some? && c.value.FreshHours? ==> 1 <= c.value.hours < 12
    ensures c.Some? && c.value.RecentHours? ==> 12 <= c.value.hours < 24
    ensures c.Some? && c.value.StaleDays? ==> c.value.days >= 1
  {
    if lastSync.None? || lastSync.value == "" then None
    else if elapsed.None? then Some(RecentlySynced)
    else
      var hoursAgo := Trunc(elapsed.value / 3600.0);
      if hoursAgo < 1 then Some(FreshUnderAnHour)
      else if hoursAgo < 12 then Some(FreshHours(hoursAgo))
      else if hoursAgo < 24 then Some(RecentHours(hoursAgo))
      else Some(StaleDays(hoursAgo / 24))
  }

  /** The caption text. */
  function CaptionText(c: SyncCaption): string {
    match c
    case FreshUnderAnHour => "\U{1F7E2} Fresh (synced < 1 hour ago)"
    case FreshHours(h) => "\U{1F7E2} Fresh (synced " + Text.NatToString(h) + " hours ago)"
    case RecentHours(h) => "\U{1F7E1} Recent (synced " + Text.NatToString(h) + " hours ago)"
    case StaleDays(d) => "\U{1F7E0} Stale (synced " + Text.NatToString(d) + " days ago)"
    case RecentlySynced => "\U{1F535} Recently synced"
  }

  /**
   * The caption's counts are exact: the hours shown are the whole hours elapsed, the days
   * shown the whole days elapsed; and the caption's bucket is the bucket
   * `get_freshness_indicator` picks for the same delta.
   */
  lemma SyncStatusSpec(lastSync: string, seconds: real)
    requires lastSync != ""
    ensures var c := SyncStatus(Some(lastSync), Some(seconds)).value;
      && ((c.FreshHours? || c.RecentHours?) ==> (c.hours as real) * 3600.0 <= seconds < ((c.hours + 1) as real) * 3600.0)
      && (c.StaleDays? ==> (c.days as real) * 86400.0 <= seconds < ((c.days + 1) as real) * 86400.0)
      && ((c.FreshUnderAnHour? || c.FreshHours?) <==> DatetimeUtils.FreshnessOf(seconds) == DatetimeUtils.Fresh)
      && (c.RecentHours? <==> DatetimeUtils.FreshnessOf(seconds) == DatetimeUtils.Recent)
      && (c.StaleDays? <==> DatetimeUtils.FreshnessOf(seconds) == DatetimeUtils.Stale)
  {
    var x := seconds / 3600.0;
    var h := Trunc(x);
    if x >= 0.0 {
      assert (h as real) <= x < (h as real) + 1.0;
    } else {
      assert h <= 0;
    }
    if h >= 24 {
      var d := h / 24;
      assert d * 24 <= h < (d + 1) * 24;
      assert ((d * 24) as real) <= x;
      assert x < ((h + 1) as real) <= (((d + 1) * 24) as real);
    }
  }

  // ---------------------------------------------------------------------------------------
  // enrich_with_audio_features (left join with the Kaggle frame)

  /** `user_df.merge(kaggle_df, on='track_id', how='left', suffixes=('', '_kaggle'))`. */
  function KaggleJoin(user: Table, kaggle: Table): Table {
    LeftJoin(user, kaggle, "track_id", "", "_kaggle")
  }

  /**
   * `enrich_with_audio_features`: the user frame unchanged when it is empty, lacks track_id,
   * or the Kaggle frame is empty; otherwise the left join, with composite and context
   * columns added only when some joined row has a danceability value. A joined frame without
   * a danceability column is the KeyError of the count.
   */
  function EnrichWithAudioFeatures(user: Table, kaggle: Table, score: (string, Row) -> Value): (r: Result<Table>)
    ensures IsEmpty(user) || "track_id" !in user.columns || IsEmpty(kaggle) ==> r == Ok(user)
    ensures r.Err? ==> "danceability" !in user.columns && "danceability" !in kaggle.columns
  {
    if IsEmpty(user) || "track_id" !in user.columns || IsEmpty(kaggle) then Ok(user)
    else
      var joined := KaggleJoin(user, kaggle);
      if "danceability" !in joined.columns then Err("danceability")
      else if NotNaCount(joined.rows, "danceability") > 0 then
        Ok(FeatureEngineering.AddContextClassification(FeatureEngineering.CreateCompositeFeatures(joined, score)))
      else Ok(joined)
  }

  /**
   * What the enrichment keeps and adds: every user column survives under its own name, there
   * is at least one row per user row, and a context column appears only when one of the frames
   * had one or some joined row has a danceability value.
   */
  lemma EnrichSpec(user: Table, kaggle: Table, score: (string, Row) -> Value)
    requires !IsEmpty(user) && "track_id" in user.columns && !IsEmpty(kaggle)
    requires EnrichWithAudioFeatures(user, kaggle, score).Ok?
    ensures var r := EnrichWithAudioFeatures(user, kaggle, score).value;
      && |r.rows| >= |user.rows|
      && user.columns <= r.columns
      && ("context" in r.columns ==>
            ("context" in user.columns || "context" in kaggle.columns || NotNaCount(KaggleJoin(user, kaggle).rows, "danceability") > 0))
  {
    var joined := KaggleJoin(user, kaggle);
    if "context" in joined.columns {
      var clash := Clash(user.columns, kaggle.columns, "track_id");
      forall c | c in clash ensures c + "_kaggle" != "context" {
        if c == [] {
          assert (c + "_kaggle")[0] == '_';
        } else {
          assert |c + "_kaggle"| > |"context"|;
        }
      }
      if "context" !in user.columns {
        assert "context" !in Suffixed(clash, "") by {
          forall c | c in clash ensures c + "" != "context" {
            assert c + "" == c;
          }
        }
      }
    }
  }

  /** `int(notna().sum())` against the number of user rows: the printed coverage. */
  function EnrichCoverageCounts(user: Table, kaggle: Table): (int, int) {
    (NotNaCount(KaggleJoin(user, kaggle).rows, "danceability"), |user.rows|)
  }

  /**
   * As written, a Kaggle frame that lists one track_id twice (the public dataset repeats ids
   * across genres) doubles that user row: one play becomes two rows and the printed coverage
   * is 2 of 1 tracks, 200%.
   */
  lemma DuplicateKaggleIdDuplicatesPlays()
    ensures var user := Table({"track_id"}, [map["track_id" := Str("t")]]);
      var k := map["track_id" := Str("t"), "danceability" := Real(0.5)];
      var kaggle := Table({"track_id", "danceability"}, [k, k]);
      && |KaggleJoin(user, kaggle).rows| == 2
      && EnrichCoverageCounts(user, kaggle) == (2, 1)
  {
    var user := Table({"track_id"}, [map["track_id" := Str("t")]]);
    var k := map["track_id" := Str("t"), "danceability" := Real(0.5)];
    var kaggle := Table({"track_id", "danceability"}, [k, k]);
    var p := (r: Row) => Cell(r, "track_id") == Cell(user.rows[0], "track_id");
    assert Seqs.Filter([k], p) == [k];
    assert Matches(user.rows[0], kaggle, "track_id") == [k, k];
    var clash := Clash(user.columns, kaggle.columns, "track_id");
    assert clash == {};
    assert "danceability" in kaggle.columns - clash - {"track_id"};
    var cols := JoinColumns(user.columns, kaggle.columns, "track_id", "", "_kaggle");
    assert "danceability" in cols;
    assert user.rows[1..] == [];
    assert JoinAll(user.rows[1..], user.columns, kaggle, "track_id", "", "_kaggle") == [];
    var joined := KaggleJoin(user, kaggle).rows;
    assert joined == JoinedRows(user.rows[0], user.columns, kaggle, "track_id", "", "_kaggle") + [];
    assert "danceability" !in Suffixed(clash, "");
    assert Cell(joined[0], "danceability") == Real(0.5);
    assert Cell(joined[1], "danceability") == Real(0.5);
    assert joined[1..][1..] == [];
  }

  /**
   * The enrichment on a Kaggle frame de-duplicated by track_id (first row kept): the left join
   * then keeps the user's rows one for one.
   */
  function EnrichWithAudioFeaturesDistinct(user: Table, kaggle: Table, score: (string, Row) -> Value): (r: Result<Table>)
    ensures IsEmpty(user) || "track_id" !in user.columns || IsEmpty(kaggle) ==> r == Ok(user)
  {
    if IsEmpty(kaggle) then Ok(user) else EnrichWithAudioFeatures(user, DistinctOn(kaggle, "track_id"), score)
  }

  /**
   * With the Kaggle frame de-duplicated, every user row becomes exactly one row with the same
   * cells in every user column, so the rows with features never outnumber the user's tracks
   * and the coverage stays within 0..100%.
   */
  lemma EnrichDistinctKeepsRows(user: Table, kaggle: Table)
    requires "track_id" in user.columns
    ensures var joined := KaggleJoin(user, DistinctOn(kaggle, "track_id"));
      && |joined.rows| == |user.rows|
      && (forall i, c :: 0 <= i < |user.rows| && c in user.columns - Clash(user.columns, kaggle.columns, "track_id") ==>
            Cell(joined.rows[i], c) == Cell(user.rows[i], c))
    ensures EnrichCoverageCounts(user, DistinctOn(kaggle, "track_id")).0 <= EnrichCoverageCounts(user, DistinctOn(kaggle, "track_id")).1
  {
    LeftJoinDistinct(user, kaggle, "track_id", "", "_kaggle");
  }

  /**
   * With the Kaggle frame de-duplicated, each user row carries, in the columns only the Kaggle
   * frame has, the cells of the Kaggle row with its track id, and missing cells when the
   * table has no such row.
   */
  lemma EnrichDistinctCarriesFeatures(user: Table, kaggle: Table)
    requires "track_id" in user.columns
    ensures var d := DistinctOn(kaggle, "track_id"); var joined := KaggleJoin(user, d);
      && |joined.rows| == |user.rows|
      && forall i, c :: 0 <= i < |user.rows| && c in kaggle.columns - user.columns ==>
           Cell(joined.rows[i], c) ==
             if Matches(user.rows[i], d, "track_id") == [] then Null else Cell(Matches(user.rows[i], d, "track_id")[0], c)
  {
    var clash := Clash(user.columns, kaggle.columns, "track_id");
    assert Suffixed(clash, "") == clash by {
      forall c | c in clash ensures c + "" == c {
      }
    }
    LeftJoinDistinctRight(user, kaggle, "track_id", "", "_kaggle");
  }

  // ---------------------------------------------------------------------------------------
  // get_audio_features_coverage

  datatype Coverage = Coverage(totalTracks: nat, tracksWithFeatures: nat, coveragePct: real)

  const CoverageColumns: seq<string> := ["danceability", "energy", "valence"]

  /**
   * `get_audio_features_coverage`: zeros for an empty frame; no features when none of
   * danceability, energy, valence exists; otherwise the non-missing count of the first of
   * them present and its share of the rows in percent.
   */
  function GetAudioFeaturesCoverage(t: Table): (c: Coverage)
    ensures IsEmpty(t) ==> c == Coverage(0, 0, 0.0)
    ensures !IsEmpty(t) ==> c.totalTracks == |t.rows|
    ensures c.tracksWithFeatures <= c.totalTracks
    ensures 0.0 <= c.coveragePct <= 100.0
    ensures (forall col :: col in CoverageColumns ==> col !in t.columns) ==> c.tracksWithFeatures == 0
    ensures !IsEmpty(t) && "danceability" in t.columns ==> c.tracksWithFeatures == NotNaCount(t.rows, "danceability")
    ensures !IsEmpty(t) && "danceability" !in t.columns && "energy" in t.columns ==> c.tracksWithFeatures == NotNaCount(t.rows, "energy")
    ensures !IsEmpty(t) && "danceability" !in t.columns && "energy" !in t.columns && "valence" in t.columns ==>
      c.tracksWithFeatures == NotNaCount(t.rows, "valence")
  {
    if IsEmpty(t) then Coverage(0, 0, 0.0)
    else if forall col :: col in CoverageColumns ==> col !in t.columns then Coverage(|t.rows|, 0, 0.0)
    else
      var check := if "danceability" in t.columns then "danceability" else if "energy" in t.columns then "energy" else "valence";
      var n := NotNaCount(t.rows, check);
      var pct := (n as real) / (|t.rows| as real) * 100.0;
      assert pct <= 100.0 by {
        assert (n as real) / (|t.rows| as real) <= 1.0;
      }
      Coverage(|t.rows|, n, pct)
  }
}

=== FILE: data_collection.dfy ===
/**
 * Snapshot collection and storage of app/func/data_collection.py: the frames of one snapshot
 * are stamped with the snapshot time and the user, top artists are ranked, count metrics
 * are computed, every non-empty frame is uploaded under
 * `users/{uid}/snapshots/{ts}_{prefix}.parquet`, and snapshots are counted back by parsing
 * those keys.
 *
 * The Spotify calls (with their processing into frames), the clock and the object store are
 * parameters.
 */
module DataCollection {
  import opened Wrappers
  import opened Frames
  import Seqs
  import Text
  import S3Storage

  /** The three time ranges with the label used in the frame names. */
  const Ranges: seq<(string, string)> := [("short_term", "short"), ("medium_term", "medium"), ("long_term", "long")]

  /** A Spotify artist object as far as the snapshot reads it. */
  datatype ArtistObject = ArtistObject(
    id: Option<string>,
    name: Option<string>,
    genres: seq<string>,
    popularity: Option<int>,
    followers: Option<int>)

  /** `snapshot_data`: the user, the snapshot time and the frames present (absent = None). */
  datatype Snapshot = Snapshot(userId: string, timestamp: string, tables: map<string, Table>)

  /** `df['snapshot_timestamp'] = ts; df['user_id'] = uid`. */
  function Stamp(t: Table, timestamp: string, userId: string): Table {
    WithColumn(WithColumn(t, "snapshot_timestamp", Str(timestamp)), "user_id", Str(userId))
  }

  /** The frame stored for the top tracks of one range. */
  function TopTracksTable(t: Table, timestamp: string, userId: string, range: string): Table {
    WithColumn(Stamp(t, timestamp, userId), "time_range", Str(range))
  }

  const ArtistColumns: set<string> := {"artist_id", "artist_name", "genres", "popularity", "followers",
    "rank", "time_range", "snapshot_timestamp", "user_id"}

  /** One entry of `artists_data`. */
  function ArtistRow(a: ArtistObject, rank: int, range: string, timestamp: string, userId: string): Row {
    map["artist_id" := OptStr(a.id), "artist_name" := OptStr(a.name),
        "genres" := Str(Text.Join(a.genres, ", ")), "popularity" := OptInt(a.popularity),
        "followers" := OptInt(a.followers), "rank" := Int(rank), "time_range" := Str(range),
        "snapshot_timestamp" := Str(timestamp), "user_id" := Str(userId)]
  }

  /** The `artists_data` loop: one row per artist in API order, ranked from 1. */
  method BuildArtistRows(artists: seq<ArtistObject>, range: string, timestamp: string, userId: string)
    returns (rows: seq<Row>)
    ensures |rows| == |artists|
    ensures forall i :: 0 <= i < |artists| ==> rows[i] == ArtistRow(artists[i], i + 1, range, timestamp, userId)
  {
    rows := [];
    var idx := 0;
    while idx < |artists|
      invariant 0 <= idx <= |artists|
      invariant |rows| == idx
      invariant forall i :: 0 <= i < idx ==> rows[i] == ArtistRow(artists[i], i + 1, range, timestamp, userId)
    {
      rows := rows + [ArtistRow(artists[idx], idx + 1, range, timestamp, userId)];
      idx := idx + 1;
    }
  }

  function ArtistRows(artists: seq<ArtistObject>, range: string, timestamp: string, userId: string): (rows: seq<Row>)
    ensures |rows| == |artists|
  {
    seq(|artists|, i requires 0 <= i < |artists| => ArtistRow(artists[i], i + 1, range, timestamp, userId))
  }

  /** The ranks of a top-artist frame are 1..n in API order, so no two artists share one. */
  lemma ArtistRanks(artists: seq<ArtistObject>, range: string, timestamp: string, userId: string)
    ensures var rows := ArtistRows(artists, range, timestamp, userId);
      && (forall i :: 0 <= i < |rows| ==> Cell(rows[i], "rank") == Int(i + 1))
      && (forall i, j :: 0 <= i < |rows| && 0 <= j < |rows| && Cell(rows[i], "rank") == Cell(rows[j], "rank") ==> i == j)
      && (forall r :: 1 <= r <= |rows| ==> Cell(rows[r - 1], "rank") == Int(r))
  {
  }

  // ---------------------------------------------------------------------------------------
  // Metrics (the count part of calculate_snapshot_metrics)

  predicate NonEmptyText(g: string) {
    g != ""
  }

  /** `len([g for g in genres.split(', ') if g])` for one cell. */
  function CellGenreTokens(v: Value): nat {
    if v.Str? then |Seqs.Filter(Text.SplitOn(v.s, ", "), NonEmptyText)| else 0
  }

  /** `len([g for genres in df['genres'] for g in genres.split(', ') if g])`. */
  function GenreTokenCount(rows: seq<Row>): nat {
    if |rows| == 0 then 0 else CellGenreTokens(Cell(rows[0], "genres")) + GenreTokenCount(rows[1..])
  }

  /** Non-empty genres over all artists, repeats included. */
  function GenreCount(artists: seq<ArtistObject>): nat {
    if |artists| == 0 then 0 else Seqs.Count(artists[0].genres, NonEmptyText) + GenreCount(artists[1..])
  }

  /** The genre cells of `rows` are the joined genre lists of `artists`, one for one. */
  predicate GenreCellsOf(rows: seq<Row>, artists: seq<ArtistObject>) {
    |rows| == |artists|
    && forall i :: 0 <= i < |rows| ==> Cell(rows[i], "genres") == Str(Text.Join(artists[i].genres, ", "))
  }

  lemma {:induction false} GenreTokensOfCells(rows: seq<Row>, artists: seq<ArtistObject>)
    requires GenreCellsOf(rows, artists)
    requires forall a, g :: a in artists && g in a.genres ==> !Text.Contains(g, ", ")
    ensures GenreTokenCount(rows) == GenreCount(artists)
  {
    if |artists| > 0 {
      var gs := artists[0].genres;
      assert artists[0] in artists;
      Text.SplitJoinComma(gs);
      if gs == [] {
        assert Text.SplitOn(Text.Join(gs, ", "), ", ") == [""];
        assert Seqs.Filter([""], NonEmptyText) == [];
      }
      assert GenreCellsOf(rows[1..], artists[1..]);
      GenreTokensOfCells(rows[1..], artists[1..]);
    }
  }

  /**
   * When no genre name contains ", ", the token count of a top-artist frame is the number of
   * non-empty genres over all its artists, repeats included.
   */
  lemma GenreTokensCountGenres(artists: seq<ArtistObject>, range: string, timestamp: string, userId: string)
    requires forall a, g :: a in artists && g in a.genres ==> !Text.Contains(g, ", ")
    ensures GenreTokenCount(ArtistRows(artists, range, timestamp, userId)) == GenreCount(artists)
  {
    GenreTokensOfCells(ArtistRows(artists, range, timestamp, userId), artists);
  }

  /**
   * The count metrics of a snapshot; a missing or empty frame contributes no key. The
   * "unique genres" figure counts genre tokens with their repeats, not distinct genres.
   */
  function SnapshotMetrics(userId: string, timestamp: string, tables: map<string, Table>): (m: Row)
    ensures Cell(m, "snapshot_timestamp") == Str(timestamp) && Cell(m, "user_id") == Str(userId)
    ensures "recent_unique_artists" in m <==> "recent_tracks" in tables && !IsEmpty(tables["recent_tracks"])
    ensures "recent_unique_tracks" in m <==> "recent_tracks" in tables && !IsEmpty(tables["recent_tracks"])
    ensures "top_short_unique_artists" in m <==> "top_tracks_short" in tables && !IsEmpty(tables["top_tracks_short"])
    ensures "top_short_unique_genres" in m <==> "top_artists_short" in tables && !IsEmpty(tables["top_artists_short"])
    ensures "recent_unique_artists" in m ==>
      m["recent_unique_artists"] == Int(NUnique(tables["recent_tracks"], "artist_name"))
      && NUnique(tables["recent_tracks"], "artist_name") <= |tables["recent_tracks"].rows|
    ensures "recent_unique_tracks" in m ==>
      m["recent_unique_tracks"] == Int(NUnique(tables["recent_tracks"], "track_name"))
      && NUnique(tables["recent_tracks"], "track_name") <= |tables["recent_tracks"].rows|
    ensures "top_short_unique_artists" in m ==>
      m["top_short_unique_artists"] == Int(NUnique(tables["top_tracks_short"], "artist_name"))
    ensures "top_short_unique_genres" in m ==>
      m["top_short_unique_genres"] == Int(GenreTokenCount(tables["top_artists_short"].rows))
  {
    var m0 := map["snapshot_timestamp" := Str(timestamp), "user_id" := Str(userId)];
    var m1 :=
      if "recent_tracks" in tables && !IsEmpty(tables["recent_tracks"]) then
        var t := tables["recent_tracks"];
        m0["recent_unique_artists" := Int(NUnique(t, "artist_name"))]["recent_unique_tracks" := Int(NUnique(t, "track_name"))]
      else m0;
    var m2 :=
      if "top_tracks_short" in tables && !IsEmpty(tables["top_tracks_short"]) then
        m1["top_short_unique_artists" := Int(NUnique(tables["top_tracks_short"], "artist_name"))]
      else m1;
    if "top_artists_short" in tables && !IsEmpty(tables["top_artists_short"]) then
      m2["top_short_unique_genres" := Int(GenreTokenCount(tables["top_artists_short"].rows))]
    else m2
  }

  /** `pd.DataFrame([metrics])`. */
  function MetricsTable(m: Row): Table {
    Table(m.Keys, [m])
  }

  // ---------------------------------------------------------------------------------------
  // collect_snapshot

  /** The recent-tracks entry, then one top-tracks entry per range among the first `n`. */
  function TrackTables(recent: Table, topTracks: string -> Table, timestamp: string, userId: string, n: nat): map<string, Table>
    requires n <= |Ranges|
  {
    if n == 0 then
      if IsEmpty(recent) then map[] else map["recent_tracks" := Stamp(recent, timestamp, userId)]
    else
      var m := TrackTables(recent, topTracks, timestamp, userId, n - 1);
      var range := Ranges[n - 1].0;
      if IsEmpty(topTracks(range)) then m
      else m["top_tracks_" + Ranges[n - 1].1 := TopTracksTable(topTracks(range), timestamp, userId, range)]
  }

  /** The frame of one range's top artists. */
  function ArtistTable(artists: seq<ArtistObject>, range: string, timestamp: string, userId: string): Table {
    Table(ArtistColumns, ArtistRows(artists, range, timestamp, userId))
  }

  /** The top-artist entries of the first `n` ranges added to `m`. */
  function ArtistTables(m: map<string, Table>, topArtists: string -> seq<ArtistObject>, timestamp: string, userId: string, n: nat): map<string, Table>
    requires n <= |Ranges|
  {
    if n == 0 then m
    else
      var m' := ArtistTables(m, topArtists, timestamp, userId, n - 1);
      var range := Ranges[n - 1].0;
      if |topArtists(range)| == 0 then m'
      else m'["top_artists_" + Ranges[n - 1].1 := ArtistTable(topArtists(range), range, timestamp, userId)]
  }

  /** All data frames of a snapshot, before the metrics. */
  function DataTables(recent: Table, topTracks: string -> Table, topArtists: string -> seq<ArtistObject>, timestamp: string, userId: string): map<string, Table> {
    ArtistTables(TrackTables(recent, topTracks, timestamp, userId, 3), topArtists, timestamp, userId, 3)
  }

  /** The recent-plays and top-tracks part of `collect_snapshot`. */
  method CollectTracks(userId: string, timestamp: string, recent: Table, topTracks: string -> Table)
    returns (tables: map<string, Table>)
    ensures tables == TrackTables(recent, topTracks, timestamp, userId, 3)
  {
    tables := map[];
    if !IsEmpty(recent) {
      tables := tables["recent_tracks" := Stamp(recent, timestamp, userId)];
    }
    var k := 0;
    while k < |Ranges|
      invariant 0 <= k <= |Ranges|
      invariant tables == TrackTables(recent, topTracks, timestamp, userId, k)
    {
      var range := Ranges[k].0;
      var top := topTracks(range);
      if !IsEmpty(top) {
        tables := tables["top_tracks_" + Ranges[k].1 := TopTracksTable(top, timestamp, userId, range)];
      }
      k := k + 1;
    }
  }

  /** The top-artists part of `collect_snapshot`: one ranked frame per range with artists. */
  method CollectArtists(tables0: map<string, Table>, userId: string, timestamp: string, topArtists: string -> seq<ArtistObject>)
    returns (tables: map<string, Table>)
    ensures tables == ArtistTables(tables0, topArtists, timestamp, userId, 3)
  {
    tables := tables0;
    var k := 0;
    while k < |Ranges|
      invariant 0 <= k <= |Ranges|
      invariant tables == ArtistTables(tables0, topArtists, timestamp, userId, k)
    {
      var range := Ranges[k].0;
      var artists := topArtists(range);
      if |artists| > 0 {
        var rows := BuildArtistRows(artists, range, timestamp, userId);
        assert rows == ArtistRows(artists, range, timestamp, userId);
        tables := tables["top_artists_" + Ranges[k].1 := Table(ArtistColumns, rows)];
      }
      k := k + 1;
    }
  }

  /**
   * `collect_snapshot`: the recent plays, the top tracks and the top artists of each range are
   * kept when non-empty, stamped with the one snapshot time and the user, and the metrics
   * frame is added.
   */
  method CollectSnapshot(userId: string, timestamp: string, recent: Table,
                         topTracks: string -> Table, topArtists: string -> seq<ArtistObject>)
    returns (snap: Snapshot)
    ensures snap.userId == userId && snap.timestamp == timestamp
    ensures var data := DataTables(recent, topTracks, topArtists, timestamp, userId);
      snap.tables == data["metrics" := MetricsTable(SnapshotMetrics(userId, timestamp, data))]
  {
    var tables := CollectTracks(userId, timestamp, recent, topTracks);
    tables := CollectArtists(tables, userId, timestamp, topArtists);
    tables := tables["metrics" := MetricsTable(SnapshotMetrics(userId, timestamp, tables))];
    snap := Snapshot(userId, timestamp, tables);
  }

  /** Every row of the frame carries the snapshot time and the user. */
  predicate Stamped(t: Table, timestamp: string, userId: string) {
    forall i :: 0 <= i < |t.rows| ==>
      Cell(t.rows[i], "snapshot_timestamp") == Str(timestamp) && Cell(t.rows[i], "user_id") == Str(userId)
  }

  lemma {:induction false} TrackTablesStamped(recent: Table, topTracks: string -> Table, timestamp: string, userId: string, n: nat)
    requires n <= |Ranges|
    ensures forall k :: k in TrackTables(recent, topTracks, timestamp, userId, n) ==>
      Stamped(TrackTables(recent, topTracks, timestamp, userId, n)[k], timestamp, userId)
  {
    if n > 0 {
      TrackTablesStamped(recent, topTracks, timestamp, userId, n - 1);
    }
  }

  lemma {:induction false} ArtistTablesStamped(m: map<string, Table>, topArtists: string -> seq<ArtistObject>, timestamp: string, userId: string, n: nat)
    requires n <= |Ranges|
    requires forall k :: k in m ==> Stamped(m[k], timestamp, userId)
    ensures forall k :: k in ArtistTables(m, topArtists, timestamp, userId, n) ==>
      Stamped(ArtistTables(m, topArtists, timestamp, userId, n)[k], timestamp, userId)
  {
    if n > 0 {
      ArtistTablesStamped(m, topArtists, timestamp, userId, n - 1);
    }
  }

  /**
   * Every row of every frame of a collected snapshot, the metrics row included, carries the
   * single snapshot time and the user id of the call.
   */
  lemma SnapshotRowsStamped(recent: Table, topTracks: string -> Table, topArtists: string -> seq<ArtistObject>, timestamp: string, userId: string)
    ensures var data := DataTables(recent, topTracks, topArtists, timestamp, userId);
      var tables := data["metrics" := MetricsTable(SnapshotMetrics(userId, timestamp, data))];
      forall k :: k in tables ==> Stamped(tables[k], timestamp, userId)
  {
    TrackTablesStamped(recent, topTracks, timestamp, userId, 3);
    ArtistTablesStamped(TrackTables(recent, topTracks, timestamp, userId, 3), topArtists, timestamp, userId, 3);
  }

  // ---------------------------------------------------------------------------------------
  // save_snapshot_to_s3 and get_user_snapshot_count

  /** The frames uploaded, in upload order; each one's file prefix is its own name. */
  const DataKeys: seq<string> := ["recent_tracks", "top_tracks_short", "top_tracks_medium", "top_tracks_long",
    "top_artists_short", "top_artists_medium", "top_artists_long", "metrics"]

  /** `ts.replace(':', '-').replace('.', '-')`. */
  function SanitizeTimestamp(ts: string): (r: string)
    ensures |r| == |ts|
    ensures ':' !in r && '.' !in r
    ensures forall i :: 0 <= i < |ts| ==> r[i] == if ts[i] in ":." then '-' else ts[i]
  {
    Text.ReplaceChar(Text.ReplaceChar(ts, ':', '-'), '.', '-')
  }

  /** The object key of one frame of a snapshot. */
  function SnapshotKey(userId: string, ts: string, prefix: string): string {
    "users/" + userId + "/snapshots/" + ts + "_" + prefix + ".parquet"
  }

  /** The data keys among `keys` whose frame is present and non-empty. */
  function Present(tables: map<string, Table>, keys: seq<string>): (r: seq<string>)
    ensures forall p :: p in r ==> p in tables && !IsEmpty(tables[p])
  {
    if |keys| == 0 then []
    else
      var k := keys[|keys| - 1];
      Present(tables, keys[..|keys| - 1]) + (if k in tables && !IsEmpty(tables[k]) then [k] else [])
  }

  lemma {:induction false} PresentFromKeys(tables: map<string, Table>, keys: seq<string>)
    ensures forall p :: p in Present(tables, keys) ==> p in keys
  {
    if |keys| > 0 {
      PresentFromKeys(tables, keys[..|keys| - 1]);
      assert keys == keys[..|keys| - 1] + [keys[|keys| - 1]];
    }
  }

  function KeysFor(userId: string, ts: string, prefixes: seq<string>): (r: seq<string>)
    ensures |r| == |prefixes|
    ensures forall i :: 0 <= i < |prefixes| ==> r[i] == SnapshotKey(userId, ts, prefixes[i])
  {
    seq(|prefixes|, i requires 0 <= i < |prefixes| => SnapshotKey(userId, ts, prefixes[i]))
  }

  /** The frame under `p` is present and its upload reports success. */
  predicate Uploaded(tables: map<string, Table>, bucket: string, userId: string, ts: string,
                     upload: (string, string, Table) -> bool, p: string) {
    p in tables && upload(bucket, SnapshotKey(userId, ts, p), tables[p])
  }

  /** Uploads that report success. */
  function Successes(tables: map<string, Table>, bucket: string, userId: string, ts: string,
                     upload: (string, string, Table) -> bool, prefixes: seq<string>): (n: nat)
    ensures n <= |prefixes|
  {
    if |prefixes| == 0 then 0
    else
      var p := prefixes[|prefixes| - 1];
      var init := prefixes[..|prefixes| - 1];
      Successes(tables, bucket, userId, ts, upload, init) + (if Uploaded(tables, bucket, userId, ts, upload, p) then 1 else 0)
  }

  /** Every upload succeeded exactly when the success count reaches the number of uploads. */
  lemma {:induction false} SuccessesAll(tables: map<string, Table>, bucket: string, userId: string, ts: string,
                                        upload: (string, string, Table) -> bool, prefixes: seq<string>)
    ensures Successes(tables, bucket, userId, ts, upload, prefixes) == |prefixes|
      <==> forall p :: p in prefixes ==> Uploaded(tables, bucket, userId, ts, upload, p)
  {
    if |prefixes| > 0 {
      var init := prefixes[..|prefixes| - 1];
      SuccessesAll(tables, bucket, userId, ts, upload, init);
      assert prefixes == init + [prefixes[|prefixes| - 1]];
    }
  }

  lemma KeysForAppend(userId: string, ts: string, prefixes: seq<string>, p: string)
    ensures KeysFor(userId, ts, prefixes + [p]) == KeysFor(userId, ts, prefixes) + [SnapshotKey(userId, ts, p)]
  {
  }

  lemma SuccessesAppend(tables: map<string, Table>, bucket: string, userId: string, ts: string,
                        upload: (string, string, Table) -> bool, prefixes: seq<string>, p: string)
    ensures Successes(tables, bucket, userId, ts, upload, prefixes + [p])
      == Successes(tables, bucket, userId, ts, upload, prefixes) + (if Uploaded(tables, bucket, userId, ts, upload, p) then 1 else 0)
  {
    assert (prefixes + [p])[..|prefixes|] == prefixes;
  }

  /**
   * The upload loop of `save_snapshot_to_s3` over the frame names `keys`: each present,
   * non-empty frame is uploaded once, in order; the result counts the attempts and the
   * successes.
   */
  method UploadFrames(tables: map<string, Table>, keys: seq<string>, bucket: string, userId: string, ts: string,
                      upload: (string, string, Table) -> bool)
    returns (successCount: nat, attempted: seq<string>)
    ensures attempted == KeysFor(userId, ts, Present(tables, keys))
    ensures successCount == Successes(tables, bucket, userId, ts, upload, Present(tables, keys))
  {
    successCount := 0;
    attempted := [];
    ghost var done: seq<string> := [];
    var i := 0;
    while i < |keys|
      invariant 0 <= i <= |keys|
      invariant done == Present(tables, keys[..i])
      invariant attempted == KeysFor(userId, ts, done)
      invariant successCount == Successes(tables, bucket, userId, ts, upload, done)
    {
      var key := keys[i];
      assert keys[..i + 1][..i] == keys[..i];
      if key in tables && !IsEmpty(tables[key]) {
        var s3Key := SnapshotKey(userId, ts, key);
        KeysForAppend(userId, ts, done, key);
        SuccessesAppend(tables, bucket, userId, ts, upload, done, key);
        attempted := attempted + [s3Key];
        if upload(bucket, s3Key, tables[key]) {
          successCount := successCount + 1;
        }
        done := done + [key];
      }
      i := i + 1;
    }
    assert keys[..i] == keys;
  }

  /**
   * `save_snapshot_to_s3`: without a bucket nothing is uploaded and the result is False;
   * otherwise each present, non-empty frame is uploaded once, in the fixed order, and the
   * result is True exactly when there was at least one upload and every upload succeeded.
   */
  method SaveSnapshotToS3(snap: Snapshot, bucket: Option<string>, upload: (string, string, Table) -> bool)
    returns (ok: bool, attempted: seq<string>)
    ensures bucket.None? || bucket == Some("") ==> !ok && attempted == []
    ensures bucket.Some? && bucket.value != "" ==>
      var prefixes := Present(snap.tables, DataKeys);
      && attempted == KeysFor(snap.userId, SanitizeTimestamp(snap.timestamp), prefixes)
      && (ok <==> |prefixes| > 0 && forall p :: p in prefixes ==>
            Uploaded(snap.tables, bucket.value, snap.userId, SanitizeTimestamp(snap.timestamp), upload, p))
  {
    if bucket.None? || bucket.value == "" {
      return false, [];
    }
    var ts := SanitizeTimestamp(snap.timestamp);
    var successCount;
    successCount, attempted := UploadFrames(snap.tables, DataKeys, bucket.value, snap.userId, ts, upload);
    SuccessesAll(snap.tables, bucket.value, snap.userId, ts, upload, Present(snap.tables, DataKeys));
    var totalUploads := |attempted|;
    ok := successCount == totalUploads && totalUploads > 0;
  }

  /** `filename.split('_')[0]` of the fourth '/'-segment, for keys with at least four. */
  function ParseSnapshotId(key: string): Option<string> {
    var parts := Text.SplitOn(key, "/");
    if |parts| >= 4 then Some(Text.BeforeFirst(parts[3], "_")) else None
  }

  /** The distinct snapshot ids among `keys`. */
  function SnapshotIds(keys: seq<string>): set<string> {
    if |keys| == 0 then {}
    else
      var id := ParseSnapshotId(keys[|keys| - 1]);
      SnapshotIds(keys[..|keys| - 1]) + (if id.Some? then {id.value} else {})
  }

  /**
   * `get_user_snapshot_count`, given what `list_user_snapshots` returned or raised: the
   * function has no `try`, so an exception escaping the listing escapes here too.
   */
  method GetUserSnapshotCount(bucket: Option<string>, listing: Result<seq<string>>) returns (count: Result<nat>)
    ensures bucket.None? || bucket == Some("") ==> count == Ok(0)
    ensures bucket.Some? && bucket.value != "" ==> (count.Err? <==> listing.Err?)
    ensures bucket.Some? && bucket.value != "" && listing.Err? ==> count.error == listing.error
    ensures bucket.Some? && bucket.value != "" && listing.Ok? ==> count == Ok(|SnapshotIds(listing.value)|)
  {
    if bucket.None? || bucket.value == "" {
      return Ok(0);
    }
    if listing.Err? {
      return Err(listing.error);
    }
    var snapshots := listing.value;
    var unique: set<string> := {};
    var i := 0;
    while i < |snapshots|
      invariant 0 <= i <= |snapshots|
      invariant unique == SnapshotIds(snapshots[..i])
    {
      assert snapshots[..i + 1][..i] == snapshots[..i];
      var parts := Text.SplitOn(snapshots[i], "/");
      if |parts| >= 4 {
        var filename := parts[3];
        var timestamp := Text.SplitOn(filename, "_")[0];
        unique := unique + {timestamp};
      }
      i := i + 1;
    }
    assert snapshots[..i] == snapshots;
    count := Ok(|unique|);
  }

  lemma NotInFile(ts: string, prefix: string, c: char)
    requires c !in ts && c !in prefix && c != '_' && c !in ".parquet"
    ensures c !in ts + "_" + prefix + ".parquet"
  {
  }

  /** The key splits at '/' into "users", the user id, "snapshots" and the file name. */
  lemma KeySegments(userId: string, ts: string, prefix: string)
    requires '/' !in userId && '/' !in ts && '/' !in prefix
    ensures Text.SplitOn(SnapshotKey(userId, ts, prefix), "/")
      == ["users", userId, "snapshots", ts + "_" + prefix + ".parquet"]
  {
    var file := ts + "_" + prefix + ".parquet";
    NotInFile(ts, prefix, '/');
    var tail := "snapshots" + "/" + file;
    var mid := userId + "/" + tail;
    assert SnapshotKey(userId, ts, prefix) == "users" + "/" + mid;
    Text.SplitOnCharConcat("users", '/', mid);
    Text.SplitOnCharConcat(userId, '/', tail);
    Text.SplitOnCharConcat("snapshots", '/', file);
    Text.SplitOnCharNone(file, '/');
  }

  /**
   * Parsing inverts key building: for a user id without '/', a timestamp without '_' or '/'
   * and a prefix without '/', the key parses back to the timestamp.
   */
  lemma SnapshotKeyRoundTrip(userId: string, ts: string, prefix: string)
    requires '/' !in userId && '/' !in ts && '_' !in ts && '/' !in prefix
    ensures ParseSnapshotId(SnapshotKey(userId, ts, prefix)) == Some(ts)
  {
    KeySegments(userId, ts, prefix);
    var file := ts + "_" + prefix + ".parquet";
    assert file == ts + "_" + (prefix + ".parquet");
    Text.SplitOnCharConcat(ts, '_', prefix + ".parquet");
  }

  /**
   * All files of one save count as one snapshot: the keys a save attempts, for a user id
   * without '/' and a raw timestamp without '_' or '/', parse to the one sanitised timestamp.
   */
  lemma {:induction false} OneSaveOneSnapshot(userId: string, timestamp: string, prefixes: seq<string>)
    requires '/' !in userId && '/' !in timestamp && '_' !in timestamp
    requires forall p :: p in prefixes ==> '/' !in p
    ensures SnapshotIds(KeysFor(userId, SanitizeTimestamp(timestamp), prefixes))
      == if prefixes == [] then {} else {SanitizeTimestamp(timestamp)}
  {
    var ts := SanitizeTimestamp(timestamp);
    assert '/' !in ts && '_' !in ts by {
      forall i | 0 <= i < |ts| ensures ts[i] != '/' && ts[i] != '_' {
        assert timestamp[i] in timestamp;
      }
    }
    if |prefixes| > 0 {
      var init := prefixes[..|prefixes| - 1];
      var keys := KeysFor(userId, ts, prefixes);
      assert keys[..|keys| - 1] == KeysFor(userId, ts, init);
      OneSaveOneSnapshot(userId, timestamp, init);
      SnapshotKeyRoundTrip(userId, ts, prefixes[|prefixes| - 1]);
    }
  }

  /** The number of snapshots a save leaves behind is one whenever it attempted any upload. */
  lemma SaveCountsOnce(snap: Snapshot, bucket: string)
    requires '/' !in snap.userId && '/' !in snap.timestamp && '_' !in snap.timestamp
    ensures var keys := KeysFor(snap.userId, SanitizeTimestamp(snap.timestamp), Present(snap.tables, DataKeys));
      |SnapshotIds(keys)| == if keys == [] then 0 else 1
  {
    var prefixes := Present(snap.tables, DataKeys);
    PresentFromKeys(snap.tables, DataKeys);
    forall p | p in prefixes ensures '/' !in p {
      assert p in DataKeys;
    }
    OneSaveOneSnapshot(snap.userId, snap.timestamp, prefixes);
  }

  // ---------------------------------------------------------------------------------------
  // How saved keys meet the readers in app/func/s3_storage.py

  /** Every key a save builds lies in the user's snapshot folder, so listing that folder finds it. */
  lemma SnapshotKeyUnderUserPrefix(userId: string, ts: string, prefix: string)
    ensures Text.StartsWith(SnapshotKey(userId, ts, prefix), S3Storage.UserPrefix(userId))
  {
    var folder := S3Storage.UserPrefix(userId);
    assert SnapshotKey(userId, ts, prefix) == folder + (ts + "_" + prefix + ".parquet");
  }

  /**
   * The archive filter for "top_tracks" matches the files of all three ranges: each
   * top-tracks key contains "top_tracks" right after the timestamp and '_'.
   */
  lemma TopTracksKeysMatch(userId: string, ts: string, tag: string)
    ensures S3Storage.HasTypeTag("top_tracks", SnapshotKey(userId, ts, "top_tracks_" + tag))
  {
    var head := "users/" + userId + "/snapshots/" + ts + "_";
    var key := SnapshotKey(userId, ts, "top_tracks_" + tag);
    assert key == head + "top_tracks" + ("_" + tag + ".parquet");
    var i := |head|;
    assert key[i..i + |"top_tracks"|] == "top_tracks";
    assert Text.StartsAt(key, i, "top_tracks");
  }
}

=== FILE: data_fetching.dfy ===
/**
 * The Spotify fetching layer of app/func/data_fetching.py: the error predicates, the retry
 * policy shared by every fetch (three attempts, exponential waits clamped to 2..10 seconds,
 * the last error re-raised), the wrappers that turn exhausted retries into an empty answer,
 * and the batched audio-feature request.
 *
 * A Spotify call is a function from the attempt number (or the batch number) to its outcome;
 * the sleeping between attempts is recorded as the list of waits, not performed.
 */
module DataFetching {
  import opened Wrappers
  import Seqs
  import Text

  /** A raised Spotify error: its `http_status` attribute, if any, and `str(exception)`. */
  datatype ApiError = ApiError(httpStatus: Option<int>, message: string)

  /** `is_rate_limit_error`: status 429, or "429" anywhere in the message. */
  predicate IsRateLimitError(e: ApiError) {
    e.httpStatus == Some(429) || Text.Contains(e.message, "429")
  }

  /**
   * `is_retryable_error`: a rate limit, or else a status of 500 or more; an error without a
   * status is not retryable.
   */
  function IsRetryableError(e: ApiError): (retry: bool)
    ensures IsRateLimitError(e) ==> retry
    ensures !IsRateLimitError(e) ==> (retry <==> e.httpStatus.Some? && e.httpStatus.value >= 500)
    ensures e.httpStatus.None? && !Text.Contains(e.message, "429") ==> !retry
  {
    if IsRateLimitError(e) then true
    else if e.httpStatus.Some? then e.httpStatus.value >= 500
    else false
  }

  // ---------------------------------------------------------------------------------------
  // spotify_retry

  const MaxAttempts: nat := 3

  function Pow2(n: nat): (p: nat)
    ensures p >= 1
  {
    if n == 0 then 1 else 2 * Pow2(n - 1)
  }

  /** `wait_exponential(multiplier=1, min=2, max=10)` before attempt `attempt + 1`. */
  function WaitAfter(attempt: nat): (w: nat)
    requires attempt >= 1
    ensures 2 <= w <= 10
  {
    var raw := Pow2(attempt - 1);
    if raw < 2 then 2 else if raw > 10 then 10 else raw
  }

  /** How a retried call ended: the final result, the attempts made, the waits in between. */
  datatype RetryRun<T> = RetryRun(result: Result<T>, attempts: nat, waits: seq<nat>)

  /** Attempts `k`, `k + 1`, … up to the third, stopping at the first success. */
  function RetryFrom<T>(call: nat -> Result<T>, k: nat): (run: RetryRun<T>)
    requires k < MaxAttempts
    ensures k < run.attempts <= MaxAttempts
    ensures |run.waits| == run.attempts - 1 - k
    decreases MaxAttempts - k
  {
    if call(k).Ok? then RetryRun(call(k), k + 1, [])
    else if k + 1 == MaxAttempts then RetryRun(Err(call(k).error), k + 1, [])
    else
      var rest := RetryFrom(call, k + 1);
      RetryRun(rest.result, rest.attempts, [WaitAfter(k + 1)] + rest.waits)
  }

  /** `spotify_retry` around `call`: every exception is retried. */
  function SpotifyRetry<T>(call: nat -> Result<T>): RetryRun<T> {
    RetryFrom(call, 0)
  }

  lemma {:induction false} RetryFromSpec<T>(call: nat -> Result<T>, k: nat)
    requires k < MaxAttempts
    ensures var run := RetryFrom(call, k);
      && (forall j :: k <= j < run.attempts - 1 ==> call(j).Err?)
      && (run.result.Ok? <==> call(run.attempts - 1).Ok?)
      && (run.result.Ok? ==> run.result == call(run.attempts - 1))
      && (run.result.Err? ==> run.attempts == MaxAttempts && run.result.error == call(MaxAttempts - 1).error)
      && (forall i :: 0 <= i < |run.waits| ==> run.waits[i] == WaitAfter(k + i + 1))
    decreases MaxAttempts - k
  {
    if call(k).Err? && k + 1 < MaxAttempts {
      RetryFromSpec(call, k + 1);
    }
  }

  /**
   * The retry policy: at most three attempts in total, stopping at the first success; a
   * failure means all three attempts failed and carries the last error; the waits between
   * attempts lie within 2..10 seconds.
   */
  lemma SpotifyRetrySpec<T>(call: nat -> Result<T>)
    ensures var run := SpotifyRetry(call);
      && 1 <= run.attempts <= 3
      && (forall j :: 0 <= j < run.attempts - 1 ==> call(j).Err?)
      && (run.result.Ok? ==> run.result == call(run.attempts - 1))
      && (run.result.Err? <==> call(0).Err? && call(1).Err? && call(2).Err?)
      && (run.result.Err? ==> run.result.error == call(2).error)
      && |run.waits| == run.attempts - 1
      && (forall i :: 0 <= i < |run.waits| ==> 2 <= run.waits[i] <= 10)
  {
    RetryFromSpec(call, 0);
    var run := SpotifyRetry(call);
    if call(0).Err? && call(1).Err? && call(2).Err? {
      assert run.attempts == 3;
    }
  }

  // ---------------------------------------------------------------------------------------
  // fetch_* wrappers

  /**
   * `fetch_recently_played`, `fetch_top_tracks`, `fetch_top_artists`, `fetch_playlists`: the
   * `items` of the response (none when the key is absent), or [] once retries are exhausted.
   * A response is the optional `items` list.
   */
  function FetchItems<T>(call: nat -> Result<Option<seq<T>>>): (items: seq<T>)
    ensures SpotifyRetry(call).result.Err? ==> items == []
    ensures SpotifyRetry(call).result.Ok? ==> items == SpotifyRetry(call).result.value.GetOr([])
  {
    var run := SpotifyRetry(call);
    if run.result.Ok? then run.result.value.GetOr([]) else []
  }

  /** `fetch_user_profile`: the profile, or None once retries are exhausted. */
  function FetchUserProfile<P>(call: nat -> Result<P>): (profile: Option<P>)
    ensures profile.None? <==> SpotifyRetry(call).result.Err?
  {
    var run := SpotifyRetry(call);
    if run.result.Ok? then Some(run.result.value) else None
  }

  /** A fetch wrapper answers [] exactly when all three attempts fail or the items are absent or empty. */
  lemma FetchItemsEmpty<T>(call: nat -> Result<Option<seq<T>>>)
    ensures (call(0).Err? && call(1).Err? && call(2).Err?) ==> FetchItems(call) == []
    ensures call(0).Ok? ==> FetchItems(call) == call(0).value.GetOr([])
  {
    SpotifyRetrySpec(call);
  }

  // ---------------------------------------------------------------------------------------
  // fetch_audio_features

  /** The answer to one `audio_features(batch)` call: a raised error or one entry per id. */
  datatype FeatureReply<F> = Raised(error: ApiError) | Returned(features: seq<Option<F>>)

  /** `[f for f in features if f is not None]`. */
  function Present<F>(xs: seq<Option<F>>): (r: seq<F>)
    ensures |r| <= |xs|
    ensures forall i :: 0 <= i < |xs| && xs[i].Some? ==> xs[i].value in r
    ensures forall j :: 0 <= j < |r| ==> Some(r[j]) in xs
  {
    if |xs| == 0 then []
    else
      var rest := Present(xs[1..]);
      assert forall i :: 1 <= i < |xs| ==> xs[i] == xs[1..][i - 1];
      assert forall j :: 0 <= j < |rest| ==> Some(rest[j]) in xs[1..];
      (if xs[0].Some? then [xs[0].value] else []) + rest
  }

  /**
   * The records keep their order: the records of a concatenation are those of each part,
   * one after the other, and a single reply contributes its record or nothing.
   */
  lemma {:induction false} PresentConcat<F>(xs: seq<Option<F>>, ys: seq<Option<F>>)
    ensures Present(xs + ys) == Present(xs) + Present(ys)
    ensures |xs| == 1 ==> Present(xs) == if xs[0].Some? then [xs[0].value] else []
  {
    if |xs| > 0 {
      assert (xs + ys)[1..] == xs[1..] + ys;
      PresentConcat(xs[1..], ys);
    } else {
      assert xs + ys == ys;
    }
  }

  const BatchSize: nat := 100

  /** The features gathered over `batches`, or None as soon as one batch raises. */
  function Gathered<F>(batches: seq<seq<string>>, api: (nat, seq<string>) -> FeatureReply<F>): Option<seq<F>> {
    if |batches| == 0 then Some([])
    else
      var k := |batches| - 1;
      var init := Gathered(batches[..k], api);
      var reply := api(k, batches[k]);
      if init.None? || reply.Raised? then None else Some(init.value + Present(reply.features))
  }

  /**
   * `fetch_audio_features`: [] for no ids; otherwise the ids go out in consecutive batches of
   * 100 and the non-None records come back in batch order, unless some batch raises, which
   * makes the whole answer [] (403, 429 and every other error alike).
   */
  method FetchAudioFeatures<F>(trackIds: seq<string>, api: (nat, seq<string>) -> FeatureReply<F>)
    returns (features: seq<F>)
    ensures trackIds == [] ==> features == []
    ensures features == Gathered(Seqs.Batches(trackIds, BatchSize), api).GetOr([])
  {
    var batches := Seqs.Batches(trackIds, BatchSize);
    if trackIds == [] {
      Seqs.BatchesCover(trackIds, BatchSize);
      return [];
    }
    var allFeatures: seq<F> := [];
    var k := 0;
    while k < |batches|
      invariant 0 <= k <= |batches|
      invariant Gathered(batches[..k], api) == Some(allFeatures)
    {
      assert batches[..k + 1][..k] == batches[..k];
      var reply := api(k, batches[k]);
      if reply.Raised? {
        GatheredNoneSticks(batches, k + 1, api);
        return [];
      }
      allFeatures := allFeatures + Present(reply.features);
      k := k + 1;
    }
    assert batches[..k] == batches;
    features := allFeatures;
  }

  /** Once a batch has raised, later batches cannot bring the answer back. */
  lemma {:induction false} GatheredNoneSticks<F>(batches: seq<seq<string>>, k: nat, api: (nat, seq<string>) -> FeatureReply<F>)
    requires k <= |batches|
    requires Gathered(batches[..k], api).None?
    ensures Gathered(batches, api).None?
    decreases |batches| - k
  {
    if k < |batches| {
      assert batches[..k + 1][..k] == batches[..k];
      GatheredNoneSticks(batches, k + 1, api);
    } else {
      assert batches[..k] == batches;
    }
  }

  /**
   * The gathered answer, stated without the fold: None exactly when some batch raises, and
   * otherwise the concatenation, batch by batch, of the records that are not None.
   */
  lemma {:induction false} GatheredSpec<F>(batches: seq<seq<string>>, api: (nat, seq<string>) -> FeatureReply<F>)
    ensures Gathered(batches, api).None? <==> exists k :: 0 <= k < |batches| && api(k, batches[k]).Raised?
    ensures (forall k :: 0 <= k < |batches| ==> api(k, batches[k]).Returned?) ==>
      Gathered(batches, api) == Some(Seqs.Flatten(seq(|batches|, k requires 0 <= k < |batches| => Present(api(k, batches[k]).features))))
  {
    if |batches| > 0 {
      var n := |batches| - 1;
      var init := batches[..n];
      GatheredSpec(init, api);
      forall k | 0 <= k < n ensures init[k] == batches[k] { }
      if forall k :: 0 <= k < |batches| ==> api(k, batches[k]).Returned? {
        var parts := seq(|batches|, k requires 0 <= k < |batches| => Present(api(k, batches[k]).features));
        var initParts := seq(n, k requires 0 <= k < n => Present(api(k, init[k]).features));
        assert parts[..n] == initParts;
        FlattenSnoc(parts);
      }
    }
  }

  lemma {:induction false} FlattenSnoc<T>(xss: seq<seq<T>>)
    requires |xss| > 0
    ensures Seqs.Flatten(xss) == Seqs.Flatten(xss[..|xss| - 1]) + xss[|xss| - 1]
  {
    if |xss| > 1 {
      assert xss[1..][..|xss[1..]| - 1] == xss[..|xss| - 1][1..];
      FlattenSnoc(xss[1..]);
    }
  }
}

=== FILE: dataset_processing.dfy ===
/**
 * src/data_processing.py: choosing and reading the Kaggle CSV file, naming the audio-feature
 * and key columns it has, and cleaning it (duplicates, missing features, positive loudness,
 * very short tracks).
 *
 * The directory listing is the list of CSV file names, a file's size and a CSV read are
 * given as functions; a read either yields a frame, fails to decode in that encoding, or
 * fails otherwise.
 */
module DatasetProcessing {
  import opened Wrappers
  import opened Frames
  import Seqs
  import Text
  import FeatureEngineering

  // ---------------------------------------------------------------------------------------
  // load_spotify_data

  const PreferredFile: string := "dataset.csv"

  /** The sort key `(name != 'dataset.csv', name)`, as a comparison. */
  predicate FileLe(a: string, b: string) {
    || (a == PreferredFile && b != PreferredFile)
    || ((a == PreferredFile) == (b == PreferredFile) && (a == b || Text.LexLess(a, b)))
  }

  lemma FileLeTotalPreorder()
    ensures Seqs.TotalPreorder(FileLe)
  {
    forall a, b ensures FileLe(a, b) || FileLe(b, a) {
      Text.LexLessTotal(a, b);
    }
    forall a, b, c | FileLe(a, b) && FileLe(b, c) ensures FileLe(a, c) {
      if a != b && b != c && (a == PreferredFile) == (c == PreferredFile) {
        Text.LexLessTransitive(a, b, c);
      }
    }
  }

  /** The files in the order they are tried: dataset.csv first, then the rest by name. */
  function TryOrder(names: seq<string>): seq<string> {
    Seqs.Sort(names, FileLe)
  }

  /** The order holds every file once per listing, is sorted, and starts with dataset.csv when there is one. */
  lemma TryOrderSpec(names: seq<string>)
    ensures multiset(TryOrder(names)) == multiset(names)
    ensures Seqs.SortedBy(TryOrder(names), FileLe)
    ensures PreferredFile in names ==> TryOrder(names)[0] == PreferredFile
  {
    FileLeTotalPreorder();
    Seqs.SortSpec(names, FileLe);
    var order := TryOrder(names);
    if PreferredFile in names {
      assert PreferredFile in multiset(order);
      var k :| 0 <= k < |order| && order[k] == PreferredFile;
      if k > 0 {
        assert FileLe(order[0], order[k]);
      }
    }
  }

  /** What one `pd.read_csv(file, encoding=...)` does. */
  datatype ReadOutcome = Read(table: Table) | DecodeError | ReadFailed(message: string)

  const Encodings: seq<string> := ["utf-8", "latin-1", "iso-8859-1", "cp1252"]

  const MiB: real := 1048576.0

  /** Large artist files are left for later when skipping is on. */
  predicate Skipped(name: string, bytes: nat, skipLarge: bool, thresholdMb: real) {
    skipLarge && Text.Contains(Text.Lower(name), "artist") && (bytes as real) / MiB > thresholdMb
  }

  /**
   * The encodings from the `k`-th on: the first read that succeeds; a decode error moves
   * to the next encoding, any other failure gives up on the file.
   */
  function TryEncodings(name: string, read: (string, string) -> ReadOutcome, k: nat): Option<Table>
    requires k <= |Encodings|
    decreases |Encodings| - k
  {
    if k == |Encodings| then None
    else match read(name, Encodings[k])
      case Read(t) => Some(t)
      case DecodeError => TryEncodings(name, read, k + 1)
      case ReadFailed(_) => None
  }

  datatype LoadedFile = LoadedFile(table: Table, fileName: string)

  /** The first file of `files` that is not skipped and reads in some encoding. */
  function FirstReadable(files: seq<string>, size: string -> nat, skipLarge: bool, thresholdMb: real,
                         read: (string, string) -> ReadOutcome): Option<LoadedFile>
  {
    if |files| == 0 then None
    else if Skipped(files[0], size(files[0]), skipLarge, thresholdMb) then
      FirstReadable(files[1..], size, skipLarge, thresholdMb, read)
    else match TryEncodings(files[0], read, 0)
      case Some(t) => Some(LoadedFile(t, files[0]))
      case None => FirstReadable(files[1..], size, skipLarge, thresholdMb, read)
  }

  /**
   * `load_spotify_data`: FileNotFoundError when the directory has no CSV file; otherwise the
   * files are tried in order, each in the four encodings, and the first frame read is
   * returned with its file name; ValueError when none can be read.
   */
  method LoadSpotifyData(names: seq<string>, dataDir: string, size: string -> nat, skipLarge: bool,
                         thresholdMb: real, read: (string, string) -> ReadOutcome)
    returns (r: Result<LoadedFile>)
    ensures names == [] ==> r == Err("No CSV files found in " + dataDir)
    ensures names != [] ==> match FirstReadable(TryOrder(names), size, skipLarge, thresholdMb, read)
      case Some(f) => r == Ok(f)
      case None => r == Err("Could not load any CSV files from the directory")
  {
    if names == [] {
      return Err("No CSV files found in " + dataDir);
    }
    var files := TryOrder(names);
    var i := 0;
    while i < |files|
      invariant 0 <= i <= |files|
      invariant FirstReadable(files, size, skipLarge, thresholdMb, read)
             == FirstReadable(files[i..], size, skipLarge, thresholdMb, read)
    {
      var file := files[i];
      assert files[i..][1..] == files[i + 1..];
      if Skipped(file, size(file), skipLarge, thresholdMb) {
        i := i + 1;
        continue;
      }
      var loaded := TryFile(file, read);
      if loaded.Some? {
        return Ok(LoadedFile(loaded.value, file));
      }
      i := i + 1;
    }
    return Err("Could not load any CSV files from the directory");
  }

  /** The encoding loop for one file. */
  method TryFile(file: string, read: (string, string) -> ReadOutcome) returns (t: Option<Table>)
    ensures t == TryEncodings(file, read, 0)
  {
    var k := 0;
    while k < |Encodings|
      invariant 0 <= k <= |Encodings|
      invariant TryEncodings(file, read, 0) == TryEncodings(file, read, k)
    {
      var outcome := read(file, Encodings[k]);
      if outcome.Read? {
        return Some(outcome.table);
      } else if outcome.ReadFailed? {
        return None;
      }
      k := k + 1;
    }
    return None;
  }

  /** A readable dataset.csv is always the file loaded. */
  lemma PreferredFileWins(names: seq<string>, size: string -> nat, skipLarge: bool, thresholdMb: real,
                          read: (string, string) -> ReadOutcome, t: Table)
    requires PreferredFile in names
    requires read(PreferredFile, "utf-8") == Read(t)
    ensures FirstReadable(TryOrder(names), size, skipLarge, thresholdMb, read) == Some(LoadedFile(t, PreferredFile))
  {
    TryOrderSpec(names);
    var low := Text.Lower(PreferredFile);
    assert 'r' !in low;
    forall i | 0 <= i <= |low| - 6 ensures !Text.StartsAt(low, i, "artist") {
      assert low[i + 1] != 'r';
    }
  }

  // ---------------------------------------------------------------------------------------
  // identify_audio_features

  const AudioFeatureNames: seq<string> := ["danceability", "energy", "loudness", "speechiness",
    "acousticness", "instrumentalness", "liveness", "valence", "tempo", "duration_ms", "key",
    "mode", "time_signature"]

  /** The position of a canonical feature name in the list (its length for any other name). */
  function CanonicalRank(name: string): (i: int)
    ensures 0 <= i <= |AudioFeatureNames|
  {
    if name == "danceability" then 0 else if name == "energy" then 1 else if name == "loudness" then 2
    else if name == "speechiness" then 3 else if name == "acousticness" then 4
    else if name == "instrumentalness" then 5 else if name == "liveness" then 6
    else if name == "valence" then 7 else if name == "tempo" then 8 else if name == "duration_ms" then 9
    else if name == "key" then 10 else if name == "mode" then 11 else if name == "time_signature" then 12
    else 13
  }

  /**
   * `identify_audio_features`: the canonical features the frame has, each once, in the
   * canonical order.
   */
  function IdentifyAudioFeatures(columns: set<string>): (r: seq<string>)
    ensures forall f :: f in r <==> f in AudioFeatureNames && f in columns
    ensures Seqs.NoRepeats(r)
    ensures Seqs.RankOrdered(r, CanonicalRank)
  {
    var present := (f: string) => f in columns;
    Seqs.FilterSpec(AudioFeatureNames, present);
    CanonicalRanks();
    Seqs.FilterKeepsRankOrder(AudioFeatureNames, present, CanonicalRank);
    Seqs.FilterDistinct(AudioFeatureNames, present);
    Seqs.Filter(AudioFeatureNames, present)
  }

  /** The canonical list is in increasing rank, so no name in it is repeated. */
  lemma CanonicalRanks()
    ensures Seqs.NoRepeats(AudioFeatureNames)
    ensures Seqs.RankOrdered(AudioFeatureNames, CanonicalRank)
  {
    var names := AudioFeatureNames;
    assert CanonicalRank(names[0]) == 0;
    assert CanonicalRank(names[1]) == 1;
    assert CanonicalRank(names[2]) == 2;
    assert CanonicalRank(names[3]) == 3;
    assert CanonicalRank(names[4]) == 4;
    assert CanonicalRank(names[5]) == 5;
    assert CanonicalRank(names[6]) == 6;
    assert CanonicalRank(names[7]) == 7;
    assert CanonicalRank(names[8]) == 8;
    assert CanonicalRank(names[9]) == 9;
    assert CanonicalRank(names[10]) == 10;
    assert CanonicalRank(names[11]) == 11;
    assert CanonicalRank(names[12]) == 12;
    assert forall i :: 0 <= i < |names| ==> CanonicalRank(names[i]) == i;
  }

  // ---------------------------------------------------------------------------------------
  // identify_column_names

  datatype Role = TrackRole | ArtistRole | GenreRole | PopularityRole | NoRole

  /** The track-name test on a lower-cased column name. */
  predicate TrackTest(low: string) {
    Text.Contains(low, "track") && Text.Contains(low, "name")
  }

  /** The artist test on a lower-cased column name. */
  predicate ArtistTest(low: string) {
    Text.Contains(low, "artist") && (Text.Contains(low, "name") || low == "artists")
  }

  /**
   * The category one column name falls in; the tests run in the order track, artist, genre,
   * popularity, and the first that holds wins.
   */
  function RoleOf(column: string): (role: Role)
    ensures var low := Text.Lower(column);
      && (role == TrackRole <==> TrackTest(low))
      && (role == ArtistRole <==> !TrackTest(low) && ArtistTest(low))
      && (role == GenreRole <==> !TrackTest(low) && !ArtistTest(low) && Text.Contains(low, "genre"))
      && (role == PopularityRole <==>
            !TrackTest(low) && !ArtistTest(low) && !Text.Contains(low, "genre") && Text.Contains(low, "popular"))
      && (role == NoRole <==>
            !TrackTest(low) && !ArtistTest(low) && !Text.Contains(low, "genre") && !Text.Contains(low, "popular"))
  {
    var low := Text.Lower(column);
    if TrackTest(low) then TrackRole
    else if ArtistTest(low) then ArtistRole
    else if Text.Contains(low, "genre") then GenreRole
    else if Text.Contains(low, "popular") then PopularityRole
    else NoRole
  }

  /** The last column of the given category. */
  function LastWith(columns: seq<string>, role: Role): Option<string> {
    if |columns| == 0 then None
    else if RoleOf(columns[|columns| - 1]) == role then Some(columns[|columns| - 1])
    else LastWith(columns[..|columns| - 1], role)
  }

  datatype ColumnNames = ColumnNames(track: Option<string>, artist: Option<string>,
                                     genre: Option<string>, popularity: Option<string>)

  /**
   * `identify_column_names`: walks the columns in frame order and records each under its
   * category, so a later column of the same category replaces an earlier one.
   */
  method IdentifyColumnNames(columns: seq<string>) returns (names: ColumnNames)
    ensures names == ColumnNames(LastWith(columns, TrackRole), LastWith(columns, ArtistRole),
                                 LastWith(columns, GenreRole), LastWith(columns, PopularityRole))
  {
    names := ColumnNames(None, None, None, None);
    var i := 0;
    while i < |columns|
      invariant 0 <= i <= |columns|
      invariant names == ColumnNames(LastWith(columns[..i], TrackRole), LastWith(columns[..i], ArtistRole),
                                     LastWith(columns[..i], GenreRole), LastWith(columns[..i], PopularityRole))
    {
      var col := columns[i];
      assert columns[..i + 1][..i] == columns[..i];
      var role := RoleOf(col);
      if role == TrackRole {
        names := names.(track := Some(col));
      } else if role == ArtistRole {
        names := names.(artist := Some(col));
      } else if role == GenreRole {
        names := names.(genre := Some(col));
      } else if role == PopularityRole {
        names := names.(popularity := Some(col));
      }
      i := i + 1;
    }
    assert columns[..i] == columns;
  }

  /** `columns[i]` is `c`, of the category, and no later column is of it. */
  predicate LastOfRoleAt(columns: seq<string>, role: Role, i: int, c: string) {
    && 0 <= i < |columns|
    && columns[i] == c
    && RoleOf(c) == role
    && forall j :: i < j < |columns| ==> RoleOf(columns[j]) != role
  }

  /**
   * The recorded column of a category is a column of that category with none of the same
   * category after it; a category no column falls in stays None.
   */
  lemma {:induction false} LastWithSpec(columns: seq<string>, role: Role)
    ensures LastWith(columns, role).None? <==> forall c :: c in columns ==> RoleOf(c) != role
    ensures LastWith(columns, role).Some? ==> exists i :: LastOfRoleAt(columns, role, i, LastWith(columns, role).value)
  {
    if |columns| > 0 {
      var n := |columns| - 1;
      var init := columns[..n];
      LastWithSpec(init, role);
      assert columns == init + [columns[n]];
      assert forall c :: c in columns <==> c in init || c == columns[n];
      if RoleOf(columns[n]) == role {
        assert LastOfRoleAt(columns, role, n, columns[n]);
      } else if LastWith(init, role).Some? {
        var i :| LastOfRoleAt(init, role, i, LastWith(init, role).value);
        assert LastOfRoleAt(columns, role, i, LastWith(columns, role).value);
        assert columns[i] in columns;
      }
    }
  }

  // ---------------------------------------------------------------------------------------
  // clean_dataset

  /** `df['loudness'] <= 0` for one row; a missing value compares False. */
  predicate LoudnessOk(row: Row) {
    var x := FeatureEngineering.Num(Cell(row, "loudness")); x.Some? && x.value <= 0.0
  }

  /** `df['duration_ms'] >= min_duration_ms` for one row. */
  predicate DurationOk(row: Row, minDurationMs: int) {
    var x := FeatureEngineering.Num(Cell(row, "duration_ms")); x.Some? && x.value >= minDurationMs as real
  }

  /** No listed feature is missing in the row. */
  predicate HasFeatures(row: Row, features: seq<string>) {
    forall f :: f in features ==> Cell(row, f) != Null
  }

  /** The feature list given and non-empty (`if audio_features:`). */
  predicate FeaturesGiven(audioFeatures: Option<seq<string>>) {
    audioFeatures.Some? && audioFeatures.value != []
  }

  /** A surviving row passes every filter that applies to the frame. */
  predicate Passes(t: Table, row: Row, audioFeatures: Option<seq<string>>, minDurationMs: int) {
    && (FeaturesGiven(audioFeatures) ==> HasFeatures(row, audioFeatures.value))
    && ("loudness" in t.columns ==> LoudnessOk(row))
    && ("duration_ms" in t.columns ==> DurationOk(row, minDurationMs))
  }

  /** `dropna(subset=...)` on a column the frame lacks raises KeyError. */
  predicate MissingSubset(t: Table, audioFeatures: Option<seq<string>>) {
    FeaturesGiven(audioFeatures) && exists f :: f in audioFeatures.value && f !in t.columns
  }

  /**
   * The filters of `clean_dataset`, in order: duplicates (first copy kept), rows missing a
   * listed feature, positive loudness, durations under the minimum.
   */
  function CleanRows(t: Table, audioFeatures: Option<seq<string>>, removeDuplicates: bool,
                     minDurationMs: int): seq<Row>
  {
    var rows0 := if removeDuplicates then Seqs.Unique(t.rows) else t.rows;
    var rows1 := if FeaturesGiven(audioFeatures) then Seqs.Filter(rows0, (row: Row) => HasFeatures(row, audioFeatures.value)) else rows0;
    var rows2 := if "loudness" in t.columns then Seqs.Filter(rows1, LoudnessOk) else rows1;
    if "duration_ms" in t.columns then Seqs.Filter(rows2, (row: Row) => DurationOk(row, minDurationMs)) else rows2
  }

  const ZeroDivision: string := "ZeroDivisionError: division by zero"

  /**
   * `clean_dataset` as written: KeyError for a listed feature the frame lacks, and the
   * closing `len(df_clean) / initial_count` raises ZeroDivisionError on an empty frame.
   */
  method CleanDataset(t: Table, audioFeatures: Option<seq<string>>, removeDuplicates: bool, minDurationMs: int)
    returns (r: Result<Table>)
    ensures MissingSubset(t, audioFeatures) ==> r.Err? && r.error != ZeroDivision
    ensures !MissingSubset(t, audioFeatures) && |t.rows| == 0 ==> r == Err(ZeroDivision)
    ensures !MissingSubset(t, audioFeatures) && |t.rows| > 0 ==>
      r == Ok(Table(t.columns, CleanRows(t, audioFeatures, removeDuplicates, minDurationMs)))
  {
    var rows := t.rows;
    var initialCount := |rows|;
    if removeDuplicates {
      rows := Seqs.Unique(rows);
    }
    if FeaturesGiven(audioFeatures) {
      if exists f :: f in audioFeatures.value && f !in t.columns {
        return Err("KeyError");
      }
      rows := Seqs.Filter(rows, (row: Row) => HasFeatures(row, audioFeatures.value));
    }
    if "loudness" in t.columns {
      rows := Seqs.Filter(rows, LoudnessOk);
    }
    if "duration_ms" in t.columns {
      rows := Seqs.Filter(rows, (row: Row) => DurationOk(row, minDurationMs));
    }
    if initialCount == 0 {
      return Err(ZeroDivision);
    }
    return Ok(Table(t.columns, rows));
  }

  /**
   * What cleaning keeps: exactly the input rows that pass every applicable filter, never
   * more rows than came in, each at most once when duplicates are removed.
   */
  lemma CleanRowsSpec(t: Table, audioFeatures: Option<seq<string>>, removeDuplicates: bool, minDurationMs: int)
    ensures var rows := CleanRows(t, audioFeatures, removeDuplicates, minDurationMs);
      && |rows| <= |t.rows|
      && (forall row :: row in rows <==> row in t.rows && Passes(t, row, audioFeatures, minDurationMs))
      && (removeDuplicates ==> Seqs.NoRepeats(rows))
  {
    var rows0 := if removeDuplicates then Seqs.Unique(t.rows) else t.rows;
    Seqs.UniqueSpec(t.rows);
    var hasAll := (row: Row) => FeaturesGiven(audioFeatures) ==> HasFeatures(row, audioFeatures.value);
    var rows1 := if FeaturesGiven(audioFeatures) then Seqs.Filter(rows0, (row: Row) => HasFeatures(row, audioFeatures.value)) else rows0;
    if FeaturesGiven(audioFeatures) {
      Seqs.FilterSpec(rows0, (row: Row) => HasFeatures(row, audioFeatures.value));
      if removeDuplicates {
        Seqs.FilterDistinct(rows0, (row: Row) => HasFeatures(row, audioFeatures.value));
      }
    }
    var rows2 := if "loudness" in t.columns then Seqs.Filter(rows1, LoudnessOk) else rows1;
    if "loudness" in t.columns {
      Seqs.FilterSpec(rows1, LoudnessOk);
      if removeDuplicates {
        Seqs.FilterDistinct(rows1, LoudnessOk);
      }
    }
    if "duration_ms" in t.columns {
      Seqs.FilterSpec(rows2, (row: Row) => DurationOk(row, minDurationMs));
      if removeDuplicates {
        Seqs.FilterDistinct(rows2, (row: Row) => DurationOk(row, minDurationMs));
      }
    }
  }

  /** Cleaning a cleaned frame again removes nothing more. */
  lemma CleanRowsIdempotent(t: Table, audioFeatures: Option<seq<string>>, minDurationMs: int)
    ensures var once := Table(t.columns, CleanRows(t, audioFeatures, true, minDurationMs));
      CleanRows(once, audioFeatures, true, minDurationMs) == once.rows
  {
    var once := Table(t.columns, CleanRows(t, audioFeatures, true, minDurationMs));
    CleanRowsSpec(t, audioFeatures, true, minDurationMs);
    Seqs.UniqueOfDistinct(once.rows);
    var rows0 := Seqs.Unique(once.rows);
    assert rows0 == once.rows;
    var rows1 := if FeaturesGiven(audioFeatures) then Seqs.Filter(rows0, (row: Row) => HasFeatures(row, audioFeatures.value)) else rows0;
    if FeaturesGiven(audioFeatures) {
      Seqs.FilterKeepsAll(rows0, (row: Row) => HasFeatures(row, audioFeatures.value));
    }
    var rows2 := if "loudness" in t.columns then Seqs.Filter(rows1, LoudnessOk) else rows1;
    if "loudness" in t.columns {
      Seqs.FilterKeepsAll(rows1, LoudnessOk);
    }
    if "duration_ms" in t.columns {
      Seqs.FilterKeepsAll(rows2, (row: Row) => DurationOk(row, minDurationMs));
    }
  }

  /**
   * `clean_dataset` with the percentage reported only for a non-empty input: the same
   * errors for a missing feature column, and otherwise the cleaned frame, the empty frame
   * coming back empty.
   */
  function CleanDatasetGuarded(t: Table, audioFeatures: Option<seq<string>>, removeDuplicates: bool,
                               minDurationMs: int): (r: Result<Table>)
    ensures r.Ok? <==> !MissingSubset(t, audioFeatures)
    ensures r.Ok? ==> r.value.columns == t.columns && |r.value.rows| <= |t.rows|
    ensures r.Ok? && |t.rows| == 0 ==> r.value.rows == []
  {
    CleanRowsSpec(t, audioFeatures, removeDuplicates, minDurationMs);
    if MissingSubset(t, audioFeatures) then Err("KeyError")
    else Ok(Table(t.columns, CleanRows(t, audioFeatures, removeDuplicates, minDurationMs)))
  }
}

=== FILE: datetime_utils.dfy ===
/**
 * The pure helpers of app/func/datetime_utils.py: axis labels, hour and weekday histograms,
 * "time ago" text, the sync-freshness indicator and the season of a month.
 *
 * Time differences are real seconds (what `timedelta.total_seconds()` returns). A datetime
 * cell is a whole number of seconds on the wall clock, counted from 1970-01-01 00:00
 * (a Thursday); a missing value is Null.
 */
module DatetimeUtils {
  import opened Wrappers
  import opened Frames
  import Text

  // ---------------------------------------------------------------------------------------
  // get_axis_label

  const AxisLabels: map<string, string> := map[
    "played_at" := "Listening Time", "timestamp" := "Date", "datetime" := "Date & Time",
    "hour" := "Hour of Day", "hour_24h" := "Hour (24h format)", "hour_12h" := "Hour (12h format)",
    "day_of_week" := "Day of Week", "day_of_month" := "Day of Month", "day_of_year" := "Day of Year",
    "date" := "Date", "week_of_year" := "Week of Year", "week" := "Week",
    "month" := "Month", "month_name" := "Month", "month_year" := "Month & Year",
    "quarter" := "Quarter", "year" := "Year", "season" := "Season",
    "tracks" := "Number of Tracks", "count" := "Count", "plays" := "Plays", "listens" := "Listens"]

  /**
   * `get_axis_label`: the table entry when the column has one, else a truthy fallback, else
   * the column name with '_' turned into ' ' and title-cased.
   */
  function GetAxisLabel(column: string, fallback: Option<string>): (text: string)
    ensures column in AxisLabels ==> text == AxisLabels[column]
    ensures column !in AxisLabels && fallback.Some? && fallback.value != "" ==> text == fallback.value
  {
    if column in AxisLabels then AxisLabels[column]
    else if fallback.Some? && fallback.value != "" then fallback.value
    else Text.TitleCase(Text.ReplaceChar(column, '_', ' '))
  }

  /**
   * The generated label keeps the name's length and its non-letters (an underscore becoming a
   * space), never contains '_', and starts every word with a capital.
   */
  lemma AxisLabelFallback(column: string, fallback: Option<string>)
    requires column !in AxisLabels && (fallback.None? || fallback == Some(""))
    ensures var shown := GetAxisLabel(column, fallback);
      && |shown| == |column|
      && '_' !in shown
      && (forall i :: 0 <= i < |column| && !Text.IsLetter(column[i]) ==> shown[i] == if column[i] == '_' then ' ' else column[i])
      && (forall i :: 0 <= i < |column| && Text.IsLetter(column[i]) && (i == 0 || !Text.IsLetter(column[i - 1])) ==>
            !Text.IsLower(shown[i]))
  {
    var spaced := Text.ReplaceChar(column, '_', ' ');
    var shown := Text.TitleCase(spaced);
    forall i | 0 <= i < |column| ensures shown[i] != '_' {
      if !Text.IsLetter(spaced[i]) {
        assert shown[i] == spaced[i];
      }
    }
    forall i | 0 <= i < |column| && Text.IsLetter(column[i]) && (i == 0 || !Text.IsLetter(column[i - 1]))
      ensures !Text.IsLower(shown[i])
    {
      TitleStartsWord(spaced, false, i);
    }
  }

  /** A letter at the start of `s`, or after a non-letter, comes out of title-casing raised. */
  lemma {:induction false} TitleStartsWord(s: string, afterLetter: bool, i: nat)
    requires i < |s| && Text.IsLetter(s[i])
    requires if i == 0 then !afterLetter else !Text.IsLetter(s[i - 1])
    ensures !Text.IsLower(Text.TitleFrom(s, afterLetter)[i])
  {
    if i > 0 {
      TitleStartsWord(s[1..], Text.IsLetter(s[0]), i - 1);
    }
  }

  // ---------------------------------------------------------------------------------------
  // aggregate_by_hour / aggregate_by_day_of_week

  /** `.dt.hour` of a wall-clock second count. */
  function HourOf(s: int): (h: nat)
    ensures h < 24
  {
    (s % 86400) / 3600
  }

  /** `.dt.dayofweek` (Monday = 0); day 0 of the count is a Thursday. */
  function WeekdayOf(s: int): (d: nat)
    ensures d < 7
  {
    (s / 86400 + 3) % 7
  }

  const DayNames: seq<string> := ["Monday", "Tuesday", "Wednesday", "Thursday", "Friday", "Saturday", "Sunday"]

  /** Every cell of the column is a datetime or missing, so `.dt` applies. */
  predicate Datetimelike(t: Table, col: string) {
    forall i :: 0 <= i < |t.rows| ==> Cell(t.rows[i], col).Int? || Cell(t.rows[i], col) == Null
  }

  /** The bin a row falls in: it has a datetime and a non-missing count cell. */
  function BinOf(row: Row, dtCol: string, countCol: string, bin: int -> nat): Option<nat> {
    var dt := Cell(row, dtCol);
    if dt.Int? && Cell(row, countCol) != Null then Some(bin(dt.i)) else None
  }

  /** `groupby(bin)[count_col].count()` for one bin. */
  function BinCount(rows: seq<Row>, dtCol: string, countCol: string, bin: int -> nat, b: nat): nat {
    if |rows| == 0 then 0
    else
      BinCount(rows[..|rows| - 1], dtCol, countCol, bin, b)
        + (if BinOf(rows[|rows| - 1], dtCol, countCol, bin) == Some(b) then 1 else 0)
  }

  /** Rows that land in some bin. */
  function Counted(rows: seq<Row>, dtCol: string, countCol: string, bin: int -> nat): nat {
    if |rows| == 0 then 0
    else
      Counted(rows[..|rows| - 1], dtCol, countCol, bin)
        + (if BinOf(rows[|rows| - 1], dtCol, countCol, bin).Some? then 1 else 0)
  }

  /** The sum of the counts of bins 0..n-1. */
  function BinTotal(rows: seq<Row>, dtCol: string, countCol: string, bin: int -> nat, n: nat): nat {
    if n == 0 then 0 else BinTotal(rows, dtCol, countCol, bin, n - 1) + BinCount(rows, dtCol, countCol, bin, n - 1)
  }

  /** The sum of the count column of a histogram. */
  function Total<K>(hist: seq<(K, nat)>): nat {
    if |hist| == 0 then 0 else Total(hist[..|hist| - 1]) + hist[|hist| - 1].1
  }

  lemma {:induction false} BinTotalAppend(rows: seq<Row>, r: Row, dtCol: string, countCol: string, bin: int -> nat, n: nat)
    ensures BinTotal(rows + [r], dtCol, countCol, bin, n) == BinTotal(rows, dtCol, countCol, bin, n)
      + (if BinOf(r, dtCol, countCol, bin).Some? && BinOf(r, dtCol, countCol, bin).value < n then 1 else 0)
  {
    assert (rows + [r])[..|rows|] == rows;
    if n > 0 {
      BinTotalAppend(rows, r, dtCol, countCol, bin, n - 1);
    }
  }

  /** When every bin is below `n`, the bins 0..n-1 together count every binned row once. */
  lemma {:induction false} BinTotalCountsAll(rows: seq<Row>, dtCol: string, countCol: string, bin: int -> nat, n: nat)
    requires forall x :: bin(x) < n
    ensures BinTotal(rows, dtCol, countCol, bin, n) == Counted(rows, dtCol, countCol, bin)
  {
    if |rows| > 0 {
      var init := rows[..|rows| - 1];
      var last := rows[|rows| - 1];
      BinTotalCountsAll(init, dtCol, countCol, bin, n);
      BinTotalAppend(init, last, dtCol, countCol, bin, n);
      assert init + [last] == rows;
      var dt := Cell(last, dtCol);
      if BinOf(last, dtCol, countCol, bin).Some? {
        assert BinOf(last, dtCol, countCol, bin).value == bin(dt.i) < n;
      }
    } else {
      BinTotalNoRows(rows, dtCol, countCol, bin, n);
    }
  }

  lemma {:induction false} BinTotalNoRows(rows: seq<Row>, dtCol: string, countCol: string, bin: int -> nat, n: nat)
    requires rows == []
    ensures BinTotal(rows, dtCol, countCol, bin, n) == 0
  {
    if n > 0 {
      BinTotalNoRows(rows, dtCol, countCol, bin, n - 1);
    }
  }

  /** A histogram with one entry per bin 0..n-1. */
  function Histogram<K>(rows: seq<Row>, dtCol: string, countCol: string, bin: int -> nat, labels: seq<K>): (hist: seq<(K, nat)>)
    ensures |hist| == |labels|
    ensures forall b :: 0 <= b < |labels| ==> hist[b] == (labels[b], BinCount(rows, dtCol, countCol, bin, b))
  {
    seq(|labels|, b requires 0 <= b < |labels| => (labels[b], BinCount(rows, dtCol, countCol, bin, b)))
  }

  lemma {:induction false} HistogramTotal<K>(rows: seq<Row>, dtCol: string, countCol: string, bin: int -> nat, labels: seq<K>)
    ensures Total(Histogram(rows, dtCol, countCol, bin, labels)) == BinTotal(rows, dtCol, countCol, bin, |labels|)
  {
    if |labels| > 0 {
      var init := labels[..|labels| - 1];
      HistogramTotal(rows, dtCol, countCol, bin, init);
      assert Histogram(rows, dtCol, countCol, bin, labels)[..|labels| - 1] == Histogram(rows, dtCol, countCol, bin, init);
    }
  }

  /** The errors the two aggregators raise, in the order they arise. */
  function AggregateError(t: Table, dtCol: string, countCol: string): Option<string> {
    if dtCol !in t.columns then Some("Column '" + dtCol + "' not found in DataFrame")
    else if !Datetimelike(t, dtCol) then Some("Can only use .dt accessor with datetimelike values")
    else if countCol !in t.columns then Some(countCol)
    else None
  }

  function HourLabels(): (hs: seq<nat>)
    ensures |hs| == 24 && forall h :: 0 <= h < 24 ==> hs[h] == h
  {
    seq(24, h => h)
  }

  /**
   * `aggregate_by_hour`: a missing datetime column is a ValueError; otherwise 24 rows for the
   * hours 0..23 in order, an hour without plays counting zero.
   */
  function AggregateByHour(t: Table, dtCol: string, countCol: string): (r: Result<seq<(nat, nat)>>)
    ensures r.Err? <==> AggregateError(t, dtCol, countCol).Some?
    ensures dtCol !in t.columns ==> r == Err("Column '" + dtCol + "' not found in DataFrame")
    ensures r.Ok? ==> |r.value| == 24 && forall h :: 0 <= h < 24 ==> r.value[h].0 == h
  {
    var e := AggregateError(t, dtCol, countCol);
    if e.Some? then Err(e.value) else Ok(Histogram(t.rows, dtCol, countCol, HourOf, HourLabels()))
  }

  /**
   * `aggregate_by_day_of_week`: a missing datetime column is a ValueError; otherwise 7 rows
   * Monday..Sunday in order, a day without plays counting zero.
   */
  function AggregateByDayOfWeek(t: Table, dtCol: string, countCol: string): (r: Result<seq<(string, nat)>>)
    ensures r.Err? <==> AggregateError(t, dtCol, countCol).Some?
    ensures dtCol !in t.columns ==> r == Err("Column '" + dtCol + "' not found in DataFrame")
    ensures r.Ok? ==> |r.value| == 7 && forall d :: 0 <= d < 7 ==> r.value[d].0 == DayNames[d]
  {
    var e := AggregateError(t, dtCol, countCol);
    if e.Some? then Err(e.value) else Ok(Histogram(t.rows, dtCol, countCol, WeekdayOf, DayNames))
  }

  /**
   * Each histogram accounts for every counted play exactly once: its counts sum to the number
   * of rows with a datetime and a non-missing count cell, and each entry counts the plays of
   * its own hour or day.
   */
  lemma AggregatesCountEveryPlay(t: Table, dtCol: string, countCol: string)
    requires AggregateError(t, dtCol, countCol).None?
    ensures Total(AggregateByHour(t, dtCol, countCol).value) == Counted(t.rows, dtCol, countCol, HourOf)
    ensures Total(AggregateByDayOfWeek(t, dtCol, countCol).value) == Counted(t.rows, dtCol, countCol, WeekdayOf)
    ensures forall h :: 0 <= h < 24 ==> AggregateByHour(t, dtCol, countCol).value[h].1 == BinCount(t.rows, dtCol, countCol, HourOf, h)
    ensures forall d :: 0 <= d < 7 ==> AggregateByDayOfWeek(t, dtCol, countCol).value[d].1 == BinCount(t.rows, dtCol, countCol, WeekdayOf, d)
  {
    HistogramTotal(t.rows, dtCol, countCol, HourOf, HourLabels());
    BinTotalCountsAll(t.rows, dtCol, countCol, HourOf, 24);
    HistogramTotal(t.rows, dtCol, countCol, WeekdayOf, DayNames);
    BinTotalCountsAll(t.rows, dtCol, countCol, WeekdayOf, 7);
  }

  // ---------------------------------------------------------------------------------------
  // time_ago_string and get_freshness_indicator

  datatype Unit = Minute | Hour | Day | Week | Month | Year {
    function Seconds(): real {
      match this
      case Minute => 60.0
      case Hour => 3600.0
      case Day => 86400.0
      case Week => 604800.0
      case Month => 2592000.0
      case Year => 31536000.0
    }

    function Name(): string {
      match this
      case Minute => "minute"
      case Hour => "hour"
      case Day => "day"
      case Week => "week"
      case Month => "month"
      case Year => "year"
    }
  }

  /** What the text says: "just now", or a positive count of one unit. */
  datatype Ago = JustNow | Ago(count: nat, unit: Unit)

  /** The unit picked for a delta of at least a minute. */
  function UnitFor(seconds: real): Unit {
    if seconds < 3600.0 then Minute
    else if seconds < 86400.0 then Hour
    else if seconds < 604800.0 then Day
    else if seconds < 2592000.0 then Week
    else if seconds < 31536000.0 then Month
    else Year
  }

  /** The largest count each unit can show before the next unit takes over. */
  function MaxCount(u: Unit): nat {
    match u
    case Minute => 59
    case Hour => 23
    case Day => 6
    case Week => 4
    case Month => 12
    case Year => 0
  }

  /**
   * The bucket of `time_ago_string`: under 60 s (negative deltas included) "just now";
   * otherwise the unit whose band holds the delta, and the whole number of those units.
   */
  function TimeAgo(seconds: real): (a: Ago)
    ensures a.JustNow? <==> seconds < 60.0
    ensures a.Ago? ==> a.count >= 1
    ensures a.Ago? ==> (a.count as real) * a.unit.Seconds() <= seconds < ((a.count + 1) as real) * a.unit.Seconds()
    ensures a.Ago? && a.unit != Year ==> a.count <= MaxCount(a.unit)
    ensures a.Ago? && a.unit == Minute <==> 60.0 <= seconds < 3600.0
    ensures a.Ago? && a.unit == Hour <==> 3600.0 <= seconds < 86400.0
    ensures a.Ago? && a.unit == Day <==> 86400.0 <= seconds < 604800.0
    ensures a.Ago? && a.unit == Week <==> 604800.0 <= seconds < 2592000.0
    ensures a.Ago? && a.unit == Month <==> 2592000.0 <= seconds < 31536000.0
    ensures a.Ago? && a.unit == Year <==> 31536000.0 <= seconds
  {
    if seconds < 60.0 then JustNow
    else
      var u := UnitFor(seconds);
      var q := seconds / u.Seconds();
      assert q >= 1.0;
      var c := q.Floor;
      assert (c as real) <= q < (c as real) + 1.0;
      assert (c as real) * u.Seconds() <= seconds < ((c + 1) as real) * u.Seconds();
      Ago(c, u)
  }

  /** `f"{n} {unit}{'s' if n != 1 else ''} ago"`, or "just now". */
  function AgoText(a: Ago): (text: string)
    ensures a.Ago? ==> (Text.StartsWith(text, Text.NatToString(a.count) + " " + a.unit.Name()))
    ensures a.Ago? ==> (EndsWithPlural(text) <==> a.count != 1)
  {
    if a.JustNow? then "just now"
    else
      var head := Text.NatToString(a.count) + " " + a.unit.Name();
      var text := head + (if a.count != 1 then "s" else "") + " ago";
      assert text[..|head|] == head;
      assert a.unit.Name()[|a.unit.Name()| - 1] != 's';
      assert a.count == 1 ==> text[|text| - 5] == a.unit.Name()[|a.unit.Name()| - 1];
      text
  }

  /** The text ends in "s ago". */
  predicate EndsWithPlural(text: string) {
    |text| >= 5 && text[|text| - 5..] == "s ago"
  }

  /** `time_ago_string(dt, now)` for `seconds = (now - dt).total_seconds()`. */
  function TimeAgoString(seconds: real): string {
    AgoText(TimeAgo(seconds))
  }

  datatype Freshness = Fresh | Recent | Stale

  /** The bucket of `get_freshness_indicator`: under 12 hours, under 24 hours, or older. */
  function FreshnessOf(seconds: real): (f: Freshness)
    ensures f == Fresh <==> seconds / 3600.0 < 12.0
    ensures f == Recent <==> 12.0 <= seconds / 3600.0 < 24.0
    ensures f == Stale <==> 24.0 <= seconds / 3600.0
  {
    var hoursAgo := seconds / 3600.0;
    if hoursAgo < 1.0 then Fresh
    else if hoursAgo < 12.0 then Fresh
    else if hoursAgo < 24.0 then Recent
    else Stale
  }

  datatype Indicator = Indicator(emoji: string, color: string, message: string)

  /** `get_freshness_indicator`: the emoji, the colour and the message of the bucket. */
  function FreshnessIndicator(seconds: real): Indicator {
    var ago := TimeAgoString(seconds);
    match FreshnessOf(seconds)
    case Fresh => Indicator("\U{1F7E2}", "#1DB954", "Fresh (synced " + ago + ")")
    case Recent => Indicator("\U{1F7E1}", "#FFB000", "Recent (synced " + ago + ")")
    case Stale => Indicator("\U{1F534}", "#FF4444", "Stale (synced " + ago + ")")
  }

  /**
   * The indicator and its "time ago" text agree: a fresh sync reads in minutes or hours (or
   * "just now"), a recent one in 12 to 23 hours, a stale one in days or longer.
   */
  lemma FreshnessAgreesWithTimeAgo(seconds: real)
    ensures FreshnessOf(seconds) == Fresh ==> TimeAgo(seconds).JustNow? || TimeAgo(seconds).unit in {Minute, Hour}
    ensures FreshnessOf(seconds) == Recent ==> TimeAgo(seconds) .Ago? && TimeAgo(seconds).unit == Hour && 12 <= TimeAgo(seconds).count <= 23
    ensures FreshnessOf(seconds) == Stale ==> TimeAgo(seconds).Ago? && TimeAgo(seconds).unit !in {Minute, Hour}
  {
    var a := TimeAgo(seconds);
    if FreshnessOf(seconds) == Recent {
      assert 43200.0 <= seconds < 86400.0;
      assert (a.count as real) * 3600.0 <= seconds < ((a.count + 1) as real) * 3600.0;
    }
  }

  // ---------------------------------------------------------------------------------------
  // get_season

  /** `get_season`: December to February Winter, March to May Spring, June to August Summer. */
  function Season(month: int): (s: string)
    ensures s == "Winter" <==> month in {12, 1, 2}
    ensures s == "Spring" <==> month in {3, 4, 5}
    ensures s == "Summer" <==> month in {6, 7, 8}
    ensures s == "Fall" <==> month !in {12, 1, 2, 3, 4, 5, 6, 7, 8}
  {
    if month in {12, 1, 2} then "Winter"
    else if month in {3, 4, 5} then "Spring"
    else if month in {6, 7, 8} then "Summer"
    else "Fall"
  }

  /** Over the calendar months each season takes exactly three, Fall being September to November. */
  lemma SeasonsSplitYear()
    ensures (set m | 1 <= m <= 12 && Season(m) == "Winter") == {12, 1, 2}
    ensures (set m | 1 <= m <= 12 && Season(m) == "Spring") == {3, 4, 5}
    ensures (set m | 1 <= m <= 12 && Season(m) == "Summer") == {6, 7, 8}
    ensures (set m | 1 <= m <= 12 && Season(m) == "Fall") == {9, 10, 11}
  {
  }
}

=== FILE: enrich_audio_features.dfy ===
/**
 * The enrichment pipeline of scripts/enrich_with_audio_features.py: tracks are extracted from
 * the raw JSON of one member, audio features are fetched from the Spotify API in batches,
 * the ids the API did not answer are looked up by exact track id in the Kaggle table, and
 * every row is tagged with where its features came from.
 *
 * The API is an oracle that answers each batch call (by its position and its ids) with a
 * list of feature records or an exception. The JSON documents arrive already parsed.
 */
module EnrichAudioFeatures {
  import opened Wrappers
  import Seqs
  import Text

  // ---------------------------------------------------------------------------------------
  // Parsed JSON

  datatype Artist = Artist(name: string, id: Option<string>)

  /** The fields of a Spotify track object that are copied into a row. */
  datatype ApiTrack = ApiTrack(
    id: Option<string>,
    name: Option<string>,
    artists: seq<Artist>,
    albumName: Option<string>,
    albumId: Option<string>,
    durationMs: Option<int>,
    popularity: Option<int>,
    explicit: Option<bool>)

  /** `item['context']`: no such key, an explicit JSON null, or a context object. */
  datatype ContextField = NoContext | NullContext | Context(kind: Option<string>, uri: Option<string>)

  /** One item of the recently-played document; a missing `track` is the empty object. */
  datatype PlayItem = PlayItem(track: Option<ApiTrack>, playedAt: Option<string>, context: ContextField)

  /** One extracted row (`timestamp`/`context_*` for plays, `time_range` for top tracks). */
  datatype TrackRow = TrackRow(
    track: ApiTrack,
    artistName: string,
    artistId: Option<string>,
    timestamp: Option<string>,
    contextType: Option<string>,
    contextUri: Option<string>,
    timeRange: Option<string>,
    source: string)

  function NoTrack(): ApiTrack {
    ApiTrack(None, None, [], None, None, None, None, None)
  }

  function ArtistNames(artists: seq<Artist>): (names: seq<string>)
    ensures |names| == |artists|
    ensures forall i :: 0 <= i < |artists| ==> names[i] == artists[i].name
  {
    seq(|artists|, i requires 0 <= i < |artists| => artists[i].name)
  }

  /** `track['artists'][0]['id'] if track.get('artists') else None`. */
  function FirstArtistId(track: ApiTrack): (id: Option<string>)
    ensures track.artists == [] ==> id == None
    ensures track.artists != [] ==> id == track.artists[0].id
  {
    if |track.artists| == 0 then None else track.artists[0].id
  }

  /** The row of a top-track item of range `timeRange`. */
  function TopTrackRow(timeRange: string, track: ApiTrack): TrackRow {
    TrackRow(track, Text.Join(ArtistNames(track.artists), ", "), FirstArtistId(track),
      None, None, None, Some(timeRange), "top_tracks")
  }

  /**
   * The row of a recently-played item. `item.get('context', {}).get('type')` raises when the
   * context is an explicit null.
   */
  function PlayRow(item: PlayItem): (r: Result<TrackRow>)
    ensures r.Err? <==> item.context == NullContext
  {
    var track := item.track.GetOr(NoTrack());
    var names := Text.Join(ArtistNames(track.artists), ", ");
    match item.context
    case NullContext => Err("AttributeError: 'NoneType' object has no attribute 'get'")
    case NoContext => Ok(TrackRow(track, names, FirstArtistId(track), item.playedAt, None, None, None, "recently_played"))
    case Context(kind, uri) => Ok(TrackRow(track, names, FirstArtistId(track), item.playedAt, kind, uri, None, "recently_played"))
  }

  /** The same row with a null context read as no context. */
  function PlayRowFixed(item: PlayItem): (r: TrackRow)
    ensures item.context != NullContext ==> PlayRow(item) == Ok(r)
    ensures r.source == "recently_played" && r.timestamp == item.playedAt
    ensures r.track == item.track.GetOr(NoTrack())
  {
    var track := item.track.GetOr(NoTrack());
    var names := Text.Join(ArtistNames(track.artists), ", ");
    match item.context
    case Context(kind, uri) => TrackRow(track, names, FirstArtistId(track), item.playedAt, kind, uri, None, "recently_played")
    case _ => TrackRow(track, names, FirstArtistId(track), item.playedAt, None, None, None, "recently_played")
  }

  /** A recently-played item with a null context stops the whole extraction as written. */
  lemma NullContextStopsExtraction(track: ApiTrack)
    ensures PlayRow(PlayItem(Some(track), Some("2024-01-01T00:00:00Z"), NullContext)).Err?
    ensures PlayRowFixed(PlayItem(Some(track), Some("2024-01-01T00:00:00Z"), NullContext)).track == track
  {
  }

  /** The rows of the top-track document, one range after the other. */
  function TopRowsOf(doc: seq<(string, Option<seq<ApiTrack>>)>): seq<TrackRow> {
    if |doc| == 0 then []
    else
      var (range, items) := doc[|doc| - 1];
      var tracks := items.GetOr([]);
      TopRowsOf(doc[..|doc| - 1]) + seq(|tracks|, j requires 0 <= j < |tracks| => TopTrackRow(range, tracks[j]))
  }

  function ItemCount(doc: seq<(string, Option<seq<ApiTrack>>)>): nat {
    if |doc| == 0 then 0 else ItemCount(doc[..|doc| - 1]) + |doc[|doc| - 1].1.GetOr([])|
  }

  /** Item `j` of range `k` of the document. */
  predicate ItemOf(doc: seq<(string, Option<seq<ApiTrack>>)>, k: int, j: int) {
    0 <= k < |doc| && doc[k].1.Some? && 0 <= j < |doc[k].1.value|
  }

  /**
   * One row per item of every range, each tagged `top_tracks` with the key of the range the
   * item came from, its track, and the first artist's id (none when there are no artists).
   */
  lemma {:induction false} TopRowsOfSpec(doc: seq<(string, Option<seq<ApiTrack>>)>)
    ensures |TopRowsOf(doc)| == ItemCount(doc)
    ensures forall r :: r in TopRowsOf(doc) ==>
      && r.source == "top_tracks"
      && r.artistId == FirstArtistId(r.track)
      && exists k, j :: ItemOf(doc, k, j) && r.track == doc[k].1.value[j] && r.timeRange == Some(doc[k].0)
  {
    if |doc| > 0 {
      var init := doc[..|doc| - 1];
      TopRowsOfSpec(init);
      forall r | r in TopRowsOf(doc)
        ensures exists k, j :: ItemOf(doc, k, j) && r.track == doc[k].1.value[j] && r.timeRange == Some(doc[k].0)
      {
        if r in TopRowsOf(init) {
          var k, j :| ItemOf(init, k, j) && r.track == init[k].1.value[j] && r.timeRange == Some(init[k].0);
          assert doc[k] == init[k];
          assert ItemOf(doc, k, j);
        } else {
          var (range, items) := doc[|doc| - 1];
          var tracks := items.GetOr([]);
          var j :| 0 <= j < |tracks| && r == TopTrackRow(range, tracks[j]);
          assert ItemOf(doc, |doc| - 1, j);
        }
      }
    }
  }

  // ---------------------------------------------------------------------------------------
  // Feature records

  /** An audio-feature record: numeric cells (None for null/NaN) and an optional `source`. */
  datatype FeatureRecord = FeatureRecord(values: map<string, Option<real>>, source: Option<string>)

  /** Python truthiness of the record dict. */
  predicate Truthy(rec: Option<FeatureRecord>) {
    rec.Some? && (rec.value.values != map[] || rec.value.source.Some?)
  }

  /** What one `sp.audio_features(batch)` call gives back. */
  datatype BatchReply = Raised(message: string) | Returned(records: seq<Option<FeatureRecord>>)

  /** A row of the Kaggle table: its track id (None for NaN) and its numeric cells. */
  datatype KaggleRow = KaggleRow(trackId: Option<string>, cells: map<string, Option<real>>)

  /** Python's `int(x)` on a float: truncation toward zero. */
  function Trunc(x: real): (n: int)
    ensures 0.0 <= x ==> n as real <= x < n as real + 1.0
    ensures x < 0.0 ==> n as real - 1.0 < x <= n as real
  {
    if x >= 0.0 then x.Floor else -((-x).Floor)
  }

  /** `row.get(col)`. */
  function Cell(row: KaggleRow, col: string): Option<real> {
    if col in row.cells then row.cells[col] else None
  }

  /** `int(row.get(col, default))`: raises ValueError on a NaN cell. */
  function IntCell(row: KaggleRow, col: string, default: int): (r: Result<real>)
    ensures r.Err? <==> col in row.cells && row.cells[col].None?
    ensures col !in row.cells ==> r == Ok(default as real)
  {
    if col !in row.cells then Ok(default as real)
    else match row.cells[col]
      case None => Err("ValueError: cannot convert float NaN to integer")
      case Some(v) => Ok(Trunc(v) as real)
  }

  const FloatColumns: seq<string> := ["danceability", "energy", "loudness", "speechiness",
    "acousticness", "instrumentalness", "liveness", "valence", "tempo"]

  /** The twelve feature columns written onto the tracks. */
  const FeatureColumns: seq<string> := ["danceability", "energy", "key", "loudness", "mode",
    "speechiness", "acousticness", "instrumentalness", "liveness", "valence", "tempo", "time_signature"]

  /** The feature columns are the float columns and the three integer ones. */
  lemma FeatureColumnsSplit()
    ensures "key" !in FloatColumns && "mode" !in FloatColumns && "time_signature" !in FloatColumns
    ensures forall c :: c in FeatureColumns <==> c in FloatColumns || c == "key" || c == "mode" || c == "time_signature"
  {
  }

  /** What `int(row.get(col, default))` gives on a cell that is not NaN. */
  function TruncOr(row: KaggleRow, col: string, default: int): int
    requires col in row.cells ==> row.cells[col].Some?
  {
    if col in row.cells then Trunc(row.cells[col].value) else default
  }

  /**
   * A Kaggle row in the API's format, tagged `kaggle_db`: the float columns as they are and
   * the integer columns truncated; a NaN in one of the integer columns raises.
   */
  function KaggleRecord(row: KaggleRow): (r: Result<FeatureRecord>)
    ensures r.Err? <==> exists c :: c in ["key", "mode", "time_signature"] && c in row.cells && row.cells[c].None?
    ensures r.Ok? ==> r.value.source == Some("kaggle_db") && forall c :: c in r.value.values <==> c in FeatureColumns
    ensures r.Ok? ==> forall c :: c in FloatColumns ==> r.value.values[c] == Cell(row, c)
  {
    var key := IntCell(row, "key", 0);
    var mode := IntCell(row, "mode", 0);
    var sig := IntCell(row, "time_signature", 4);
    if key.Err? then Err(key.error)
    else if mode.Err? then Err(mode.error)
    else if sig.Err? then Err(sig.error)
    else
      var values := map c | c in FloatColumns :: Cell(row, c);
      FeatureColumnsSplit();
      Ok(FeatureRecord(values["key" := Some(key.value)]["mode" := Some(mode.value)]["time_signature" := Some(sig.value)],
        Some("kaggle_db")))
  }

  /** `key` and `mode` are truncated to integers (0 when absent), `time_signature` likewise (4 when absent). */
  lemma KaggleRecordInts(row: KaggleRow)
    requires KaggleRecord(row).Ok?
    ensures var v := KaggleRecord(row).value.values;
      && "key" in v && v["key"] == Some(TruncOr(row, "key", 0) as real)
      && "mode" in v && v["mode"] == Some(TruncOr(row, "mode", 0) as real)
      && "time_signature" in v && v["time_signature"] == Some(TruncOr(row, "time_signature", 4) as real)
  {
  }

  /** `set(kaggle_db['track_id'].values)` as far as string ids go (NaN equals no id). */
  function KaggleIds(db: seq<KaggleRow>): set<string> {
    set i | 0 <= i < |db| && db[i].trackId.Some? :: db[i].trackId.value
  }

  /** `kaggle_db[kaggle_db['track_id'] == tid].iloc[0]`: the first row with that id. */
  function FirstRow(db: seq<KaggleRow>, tid: string): (row: KaggleRow)
    requires tid in KaggleIds(db)
    ensures row.trackId == Some(tid)
    ensures exists i :: 0 <= i < |db| && db[i] == row && forall j :: 0 <= j < i ==> db[j].trackId != Some(tid)
  {
    if db[0].trackId == Some(tid) then db[0]
    else
      assert forall i :: 1 <= i < |db| ==> db[i] == db[1..][i - 1];
      var row := FirstRow(db[1..], tid);
      var i :| 0 <= i < |db[1..]| && db[1..][i] == row && forall j :: 0 <= j < i ==> db[1..][j].trackId != Some(tid);
      assert db[i + 1] == row && forall j :: 0 <= j < i + 1 ==> db[j].trackId != Some(tid);
      row
  }

  /** The outcome of the Kaggle loop over `ids`: stops at the first row that raises. */
  function KaggleLookup(db: seq<KaggleRow>, ids: seq<string>): Result<map<string, FeatureRecord>> {
    if |ids| == 0 then Ok(map[])
    else
      var tid := ids[|ids| - 1];
      match KaggleLookup(db, ids[..|ids| - 1])
      case Err(e) => Err(e)
      case Ok(m) =>
        if tid !in KaggleIds(db) then Ok(m)
        else match KaggleRecord(FirstRow(db, tid))
          case Err(e) => Err(e)
          case Ok(rec) => Ok(m[tid := rec])
  }

  /** How many times `features_from_kaggle` goes up during the same loop. */
  function KaggleHits(db: seq<KaggleRow>, ids: seq<string>): nat {
    if |ids| == 0 then 0
    else
      var init := ids[..|ids| - 1];
      var tid := ids[|ids| - 1];
      KaggleHits(db, init)
        + (if KaggleLookup(db, init).Ok? && tid in KaggleIds(db) && KaggleRecord(FirstRow(db, tid)).Ok? then 1 else 0)
  }

  /**
   * When the lookup succeeds, its keys are exactly the requested ids present in the table,
   * each mapped to the `kaggle_db` record of the first row with that id.
   */
  lemma {:induction false} KaggleLookupSpec(db: seq<KaggleRow>, ids: seq<string>)
    ensures KaggleLookup(db, ids).Ok? ==>
      && KaggleLookup(db, ids).value.Keys == (set t | t in ids && t in KaggleIds(db))
      && (forall t :: t in KaggleLookup(db, ids).value ==>
            && t in KaggleIds(db)
            && KaggleRecord(FirstRow(db, t)) == Ok(KaggleLookup(db, ids).value[t])
            && KaggleLookup(db, ids).value[t].source == Some("kaggle_db"))
    ensures KaggleLookup(db, ids).Err? <==>
      exists t :: t in ids && t in KaggleIds(db) && KaggleRecord(FirstRow(db, t)).Err?
  {
    if |ids| > 0 {
      var init := ids[..|ids| - 1];
      var tid := ids[|ids| - 1];
      assert ids == init + [tid];
      KaggleLookupSpec(db, init);
    }
  }

  // ---------------------------------------------------------------------------------------
  // API batches

  /** Running totals of `fetch_audio_features_batch`. */
  datatype FetchTally = FetchTally(features: map<string, FeatureRecord>, fromApi: nat, missing: nat, errors: seq<string>)

  function MinLen(a: nat, b: nat): nat {
    if a <= b then a else b
  }

  /** `all_features` after the first `k` pairs of `zip(batch, records)`. */
  function ZipInto(m: map<string, FeatureRecord>, batch: seq<string>, recs: seq<Option<FeatureRecord>>, k: nat): map<string, FeatureRecord>
    requires k <= |batch| && k <= |recs|
  {
    if k == 0 then m
    else
      var m' := ZipInto(m, batch, recs, k - 1);
      if Truthy(recs[k - 1]) then m'[batch[k - 1] := recs[k - 1].value] else m'
  }

  /** Truthy records among the first `k`. */
  function ZipHits(recs: seq<Option<FeatureRecord>>, k: nat): (n: nat)
    requires k <= |recs|
    ensures n <= k
  {
    if k == 0 then 0 else ZipHits(recs, k - 1) + (if Truthy(recs[k - 1]) then 1 else 0)
  }

  function BatchErrorMessage(message: string): string {
    "Error fetching audio features for batch: " + message
  }

  /** The totals after the batches `bs`, batch `j` being the `j`-th call. */
  function FetchFold(bs: seq<seq<string>>, api: (nat, seq<string>) -> BatchReply): FetchTally {
    if |bs| == 0 then FetchTally(map[], 0, 0, [])
    else BatchStep(FetchFold(bs[..|bs| - 1], api), |bs| - 1, bs[|bs| - 1], api)
  }

  /** Call `j` on batch `b`: one error if it raises, otherwise its records paired with the ids. */
  function BatchStep(t: FetchTally, j: nat, b: seq<string>, api: (nat, seq<string>) -> BatchReply): FetchTally {
    match api(j, b)
    case Raised(message) => t.(errors := t.errors + [BatchErrorMessage(message)])
    case Returned(recs) =>
      var k := MinLen(|b|, |recs|);
      FetchTally(ZipInto(t.features, b, recs, k), t.fromApi + ZipHits(recs, k), t.missing + (k - ZipHits(recs, k)), t.errors)
  }

  /** Ids paired with a record in the batches that did not raise. */
  function Paired(bs: seq<seq<string>>, api: (nat, seq<string>) -> BatchReply): nat {
    if |bs| == 0 then 0
    else
      Paired(bs[..|bs| - 1], api) + match api(|bs| - 1, bs[|bs| - 1])
        case Raised(_) => 0
        case Returned(recs) => MinLen(|bs[|bs| - 1]|, |recs|)
  }

  function Failed(bs: seq<seq<string>>, api: (nat, seq<string>) -> BatchReply): nat {
    if |bs| == 0 then 0 else Failed(bs[..|bs| - 1], api) + (if api(|bs| - 1, bs[|bs| - 1]).Raised? then 1 else 0)
  }

  /** Pairing only adds ids of the batch, each with a non-empty record. */
  lemma {:induction false} ZipIntoKeys(m: map<string, FeatureRecord>, batch: seq<string>, recs: seq<Option<FeatureRecord>>, k: nat)
    requires k <= |batch| && k <= |recs|
    requires forall t :: t in m ==> Truthy(Some(m[t]))
    ensures forall t :: t in ZipInto(m, batch, recs, k) ==> Truthy(Some(ZipInto(m, batch, recs, k)[t])) && (t in m || t in batch)
  {
    if k > 0 {
      ZipIntoKeys(m, batch, recs, k - 1);
    }
  }

  /** Each truthy record adds at most one key. */
  lemma {:induction false} ZipIntoSize(m: map<string, FeatureRecord>, batch: seq<string>, recs: seq<Option<FeatureRecord>>, k: nat)
    requires k <= |batch| && k <= |recs|
    ensures |ZipInto(m, batch, recs, k).Keys| <= |m.Keys| + ZipHits(recs, k)
  {
    if k > 0 {
      ZipIntoSize(m, batch, recs, k - 1);
      var m' := ZipInto(m, batch, recs, k - 1);
      if Truthy(recs[k - 1]) {
        assert m'[batch[k - 1] := recs[k - 1].value].Keys == m'.Keys + {batch[k - 1]};
      }
    }
  }

  /** Record `i` of the batch is paired, with a truthy record, within the first `k` pairs. */
  predicate ZipHit(batch: seq<string>, recs: seq<Option<FeatureRecord>>, k: nat, i: int)
    requires k <= |batch| && k <= |recs|
  {
    0 <= i < k && Truthy(recs[i])
  }

  /** The `zip` loop stores exactly the ids already there and the ids paired with a truthy record. */
  lemma {:induction false} ZipIntoMembers(m: map<string, FeatureRecord>, batch: seq<string>, recs: seq<Option<FeatureRecord>>, k: nat)
    requires k <= |batch| && k <= |recs|
    ensures forall id :: id in ZipInto(m, batch, recs, k) <==> id in m || exists i :: ZipHit(batch, recs, k, i) && batch[i] == id
  {
    if k > 0 {
      ZipIntoMembers(m, batch, recs, k - 1);
      var m' := ZipInto(m, batch, recs, k - 1);
      var z := ZipInto(m, batch, recs, k);
      assert m'.Keys <= z.Keys;
      forall id | id in z ensures id in m || exists i :: ZipHit(batch, recs, k, i) && batch[i] == id {
        if id !in m' {
          assert ZipHit(batch, recs, k, k - 1) && batch[k - 1] == id;
        } else if id !in m {
          var i :| ZipHit(batch, recs, k - 1, i) && batch[i] == id;
          assert ZipHit(batch, recs, k, i);
        }
      }
      forall id | exists i :: ZipHit(batch, recs, k, i) && batch[i] == id ensures id in z {
        var i :| ZipHit(batch, recs, k, i) && batch[i] == id;
        if i < k - 1 {
          assert ZipHit(batch, recs, k - 1, i);
        }
      }
    }
  }

  /** An id paired with a truthy record maps to the record of its last such pair. */
  lemma {:induction false} ZipIntoLast(m: map<string, FeatureRecord>, batch: seq<string>, recs: seq<Option<FeatureRecord>>, k: nat, i: nat)
    requires k <= |batch| && k <= |recs|
    requires ZipHit(batch, recs, k, i)
    requires forall i2 :: i < i2 < k && ZipHit(batch, recs, k, i2) ==> batch[i2] != batch[i]
    ensures batch[i] in ZipInto(m, batch, recs, k) && ZipInto(m, batch, recs, k)[batch[i]] == recs[i].value
  {
    if i < k - 1 {
      assert ZipHit(batch, recs, k, k - 1) ==> batch[k - 1] != batch[i];
      forall i2 | i < i2 < k - 1 && ZipHit(batch, recs, k - 1, i2) ensures batch[i2] != batch[i] {
        assert ZipHit(batch, recs, k, i2);
      }
      ZipIntoLast(m, batch, recs, k - 1, i);
    }
  }

  /** An id with no truthy pair keeps its old record. */
  lemma {:induction false} ZipIntoUntouched(m: map<string, FeatureRecord>, batch: seq<string>, recs: seq<Option<FeatureRecord>>, k: nat, id: string)
    requires k <= |batch| && k <= |recs|
    requires id in m && forall i :: ZipHit(batch, recs, k, i) ==> batch[i] != id
    ensures id in ZipInto(m, batch, recs, k) && ZipInto(m, batch, recs, k)[id] == m[id]
  {
    if k > 0 {
      assert ZipHit(batch, recs, k, k - 1) ==> batch[k - 1] != id;
      forall i | ZipHit(batch, recs, k - 1, i) ensures batch[i] != id {
        assert ZipHit(batch, recs, k, i);
      }
      ZipIntoUntouched(m, batch, recs, k - 1, id);
    }
  }

  /** Record `i` of batch `j` came back truthy from a call that did not raise. */
  predicate PairAt(bs: seq<seq<string>>, api: (nat, seq<string>) -> BatchReply, j: int, i: int) {
    0 <= j < |bs| && api(j, bs[j]).Returned? && 0 <= i < MinLen(|bs[j]|, |api(j, bs[j]).records|)
    && Truthy(api(j, bs[j]).records[i])
  }

  /** Pair (j2, i2) comes after pair (j, i) in call order. */
  predicate After(j: int, i: int, j2: int, i2: int) {
    j < j2 || (j == j2 && i < i2)
  }

  /** The pairs of the first `n` batches are the pairs of all batches with `j < n`. */
  lemma PairAtPrefix(bs: seq<seq<string>>, api: (nat, seq<string>) -> BatchReply, n: nat)
    requires n <= |bs|
    ensures forall j, i :: PairAt(bs[..n], api, j, i) <==> PairAt(bs, api, j, i) && j < n
  {
  }

  /** The last batch's call either leaves the map or zips its records into it. */
  lemma FetchFoldLast(bs: seq<seq<string>>, api: (nat, seq<string>) -> BatchReply)
    requires |bs| > 0
    ensures var n := |bs| - 1; var t := FetchFold(bs[..n], api);
      && (api(n, bs[n]).Raised? ==> FetchFold(bs, api).features == t.features && forall i :: !PairAt(bs, api, n, i))
      && (api(n, bs[n]).Returned? ==>
            var recs := api(n, bs[n]).records; var k := MinLen(|bs[n]|, |recs|);
            && FetchFold(bs, api).features == ZipInto(t.features, bs[n], recs, k)
            && forall i :: PairAt(bs, api, n, i) <==> ZipHit(bs[n], recs, k, i))
  {
  }

  /** Every stored id is paired with a truthy record in a batch that returned. */
  lemma {:induction false} FetchFoldKeysSound(bs: seq<seq<string>>, api: (nat, seq<string>) -> BatchReply)
    ensures forall id :: id in FetchFold(bs, api).features ==> exists j, i :: PairAt(bs, api, j, i) && bs[j][i] == id
  {
    if |bs| > 0 {
      var n := |bs| - 1;
      FetchFoldKeysSound(bs[..n], api);
      PairAtPrefix(bs, api, n);
      FetchFoldLast(bs, api);
      var t := FetchFold(bs[..n], api);
      forall id | id in FetchFold(bs, api).features ensures exists j, i :: PairAt(bs, api, j, i) && bs[j][i] == id {
        if id in t.features {
          var j, i :| PairAt(bs[..n], api, j, i) && bs[..n][j][i] == id;
          assert PairAt(bs, api, j, i) && bs[j][i] == id;
        } else {
          var recs := api(n, bs[n]).records;
          var k := MinLen(|bs[n]|, |recs|);
          ZipIntoMembers(t.features, bs[n], recs, k);
          var i :| ZipHit(bs[n], recs, k, i) && bs[n][i] == id;
          assert PairAt(bs, api, n, i);
        }
      }
    }
  }

  /** Every id paired with a truthy record in a batch that returned is stored. */
  lemma {:induction false} FetchFoldKeysComplete(bs: seq<seq<string>>, api: (nat, seq<string>) -> BatchReply)
    ensures forall j, i :: PairAt(bs, api, j, i) ==> bs[j][i] in FetchFold(bs, api).features
  {
    if |bs| > 0 {
      var n := |bs| - 1;
      FetchFoldKeysComplete(bs[..n], api);
      PairAtPrefix(bs, api, n);
      FetchFoldLast(bs, api);
      var t := FetchFold(bs[..n], api);
      forall j, i | PairAt(bs, api, j, i) ensures bs[j][i] in FetchFold(bs, api).features {
        if j < n {
          assert PairAt(bs[..n], api, j, i) && bs[..n][j] == bs[j];
          if api(n, bs[n]).Returned? {
            var recs := api(n, bs[n]).records;
            ZipIntoMembers(t.features, bs[n], recs, MinLen(|bs[n]|, |recs|));
          }
        } else {
          var recs := api(n, bs[n]).records;
          var k := MinLen(|bs[n]|, |recs|);
          ZipIntoMembers(t.features, bs[n], recs, k);
          assert ZipHit(bs[n], recs, k, i);
        }
      }
    }
  }

  /** The ids stored are exactly those paired with a truthy record in a batch that returned. */
  lemma FetchFoldKeys(bs: seq<seq<string>>, api: (nat, seq<string>) -> BatchReply)
    ensures forall id :: id in FetchFold(bs, api).features <==> exists j, i :: PairAt(bs, api, j, i) && bs[j][i] == id
  {
    FetchFoldKeysSound(bs, api);
    FetchFoldKeysComplete(bs, api);
  }

  /** No pair after (j, i) carries the same id: (j, i) is that id's last pair. */
  ghost predicate LastPair(bs: seq<seq<string>>, api: (nat, seq<string>) -> BatchReply, j: int, i: int)
    requires PairAt(bs, api, j, i)
  {
    forall j2, i2 :: PairAt(bs, api, j2, i2) && After(j, i, j2, i2) ==> bs[j2][i2] != bs[j][i]
  }

  /** Each stored id maps to the record of its last truthy pair. */
  lemma {:induction false} FetchFoldValues(bs: seq<seq<string>>, api: (nat, seq<string>) -> BatchReply)
    ensures forall j, i :: PairAt(bs, api, j, i) && LastPair(bs, api, j, i) ==>
      bs[j][i] in FetchFold(bs, api).features && FetchFold(bs, api).features[bs[j][i]] == api(j, bs[j]).records[i].value
  {
    if |bs| > 0 {
      var n := |bs| - 1;
      FetchFoldValues(bs[..n], api);
      PairAtPrefix(bs, api, n);
      FetchFoldLast(bs, api);
      var t := FetchFold(bs[..n], api);
      forall j, i | PairAt(bs, api, j, i) && LastPair(bs, api, j, i)
        ensures bs[j][i] in FetchFold(bs, api).features && FetchFold(bs, api).features[bs[j][i]] == api(j, bs[j]).records[i].value
      {
        LastPairStep(bs, api, j, i);
      }
    }
  }

  /** The step of `FetchFoldValues` for one pair, from the claim for the earlier batches. */
  lemma LastPairStep(bs: seq<seq<string>>, api: (nat, seq<string>) -> BatchReply, j: int, i: int)
    requires |bs| > 0 && PairAt(bs, api, j, i) && LastPair(bs, api, j, i)
    requires var n := |bs| - 1; forall j, i :: PairAt(bs[..n], api, j, i) && LastPair(bs[..n], api, j, i) ==>
      bs[..n][j][i] in FetchFold(bs[..n], api).features && FetchFold(bs[..n], api).features[bs[..n][j][i]] == api(j, bs[..n][j]).records[i].value
    ensures bs[j][i] in FetchFold(bs, api).features && FetchFold(bs, api).features[bs[j][i]] == api(j, bs[j]).records[i].value
  {
    var n := |bs| - 1;
    PairAtPrefix(bs, api, n);
    FetchFoldLast(bs, api);
    var t := FetchFold(bs[..n], api);
    var id := bs[j][i];
    if api(n, bs[n]).Returned? {
      var recs := api(n, bs[n]).records;
      var k := MinLen(|bs[n]|, |recs|);
      if j < n {
        assert PairAt(bs[..n], api, j, i) && bs[..n][j] == bs[j];
        assert LastPair(bs[..n], api, j, i);
        forall i2 | ZipHit(bs[n], recs, k, i2) ensures bs[n][i2] != id {
          assert PairAt(bs, api, n, i2) && After(j, i, n, i2);
        }
        ZipIntoUntouched(t.features, bs[n], recs, k, id);
      } else {
        forall i2 | i < i2 < k && ZipHit(bs[n], recs, k, i2) ensures bs[n][i2] != bs[n][i] {
          assert PairAt(bs, api, n, i2) && After(j, i, n, i2);
        }
        ZipIntoLast(t.features, bs[n], recs, k, i);
      }
    } else {
      assert PairAt(bs[..n], api, j, i) && bs[..n][j] == bs[j];
      assert LastPair(bs[..n], api, j, i);
    }
  }

  /**
   * Every fetched id comes from some batch and maps to a non-empty record; each id paired in a
   * successful batch raised exactly one of the two counters, each failed batch left exactly
   * one error, and no more ids are stored than records were counted. The map holds exactly
   * the ids paired with a truthy record, each with the record of its last such pair.
   */
  lemma {:induction false} FetchFoldSpec(bs: seq<seq<string>>, api: (nat, seq<string>) -> BatchReply)
    ensures var t := FetchFold(bs, api);
      && (forall id :: id in t.features ==> Truthy(Some(t.features[id])) && exists j :: 0 <= j < |bs| && id in bs[j])
      && t.fromApi + t.missing == Paired(bs, api)
      && |t.errors| == Failed(bs, api)
      && |t.features.Keys| <= t.fromApi
      && (forall id :: id in t.features <==> exists j, i :: PairAt(bs, api, j, i) && bs[j][i] == id)
      && (forall j, i :: PairAt(bs, api, j, i) && LastPair(bs, api, j, i) ==>
            bs[j][i] in t.features && t.features[bs[j][i]] == api(j, bs[j]).records[i].value)
  {
    FetchFoldKeys(bs, api);
    FetchFoldValues(bs, api);
    if |bs| > 0 {
      var init := bs[..|bs| - 1];
      var b := bs[|bs| - 1];
      FetchFoldSpec(init, api);
      var t := FetchFold(init, api);
      var t' := FetchFold(bs, api);
      if api(|bs| - 1, b).Returned? {
        var recs := api(|bs| - 1, b).records;
        var k := MinLen(|b|, |recs|);
        ZipIntoKeys(t.features, b, recs, k);
        ZipIntoSize(t.features, b, recs, k);
      }
      forall id | id in t'.features ensures exists j :: 0 <= j < |bs| && id in bs[j] {
        if id in t.features {
          var j :| 0 <= j < |init| && id in init[j];
          assert bs[j] == init[j];
        } else {
          assert id in bs[|bs| - 1];
        }
      }
    }
  }

  /** A present, non-empty id. */
  predicate TruthyId(id: Option<string>) {
    id.Some? && id.value != ""
  }

  /** `[tid for tid in track_ids if tid]`. */
  function TruthyIds(ids: seq<Option<string>>): (r: seq<string>)
    ensures forall t :: t in r ==> t != "" && Some(t) in ids
  {
    if |ids| == 0 then []
    else (if TruthyId(ids[0]) then [ids[0].value] else []) + TruthyIds(ids[1..])
  }

  /** Exactly the present, non-empty ids are kept, in their order and with repeats. */
  lemma {:induction false} TruthyIdsSpec(ids: seq<Option<string>>)
    ensures var kept := Seqs.Filter(ids, TruthyId); var r := TruthyIds(ids);
      && |r| == |kept|
      && (forall i :: 0 <= i < |r| ==> kept[i] == Some(r[i]))
      && (forall t :: t != "" && Some(t) in ids ==> t in r)
  {
    if |ids| > 0 {
      TruthyIdsSpec(ids[1..]);
      var r := TruthyIds(ids);
      forall t | t != "" && Some(t) in ids ensures t in r {
        if ids[0] != Some(t) {
          assert Some(t) in ids[1..];
        }
      }
    }
  }

  // ---------------------------------------------------------------------------------------
  // Source tagging

  /** A track with its twelve feature columns and `feature_source`. */
  datatype EnrichedRow = EnrichedRow(base: TrackRow, features: Option<FeatureRecord>, featureSource: string)

  /** The value written in column `col` of an enriched row. */
  function FeatureCell(row: EnrichedRow, col: string): Option<real> {
    if row.features.Some? && col in row.features.value.values then row.features.value.values[col] else None
  }

  /** One row tagged from the resolved features map. */
  function TagRow(row: TrackRow, resolved: map<string, FeatureRecord>): EnrichedRow {
    var tid := row.track.id;
    if tid.Some? && tid.value in resolved then
      EnrichedRow(row, Some(resolved[tid.value]), resolved[tid.value].source.GetOr("api"))
    else
      EnrichedRow(row, None, "missing")
  }

  /** `dropna().unique()` of the track ids. */
  function UniqueIds(rows: seq<TrackRow>): seq<string> {
    Seqs.Unique(PresentIds(rows))
  }

  function PresentIds(rows: seq<TrackRow>): seq<string> {
    if |rows| == 0 then []
    else (if rows[0].track.id.Some? then [rows[0].track.id.value] else []) + PresentIds(rows[1..])
  }

  function WrapIds(ids: seq<string>): (r: seq<Option<string>>)
    ensures |r| == |ids| && forall i :: 0 <= i < |ids| ==> r[i] == Some(ids[i])
  {
    seq(|ids|, i requires 0 <= i < |ids| => Some(ids[i]))
  }

  /** `[tid for tid in unique_track_ids if tid not in api_features]`. */
  function MissingIds(ids: seq<string>, api: map<string, FeatureRecord>): (r: seq<string>)
    ensures forall t :: t in r <==> t in ids && t !in api
  {
    if |ids| == 0 then []
    else (if ids[0] !in api then [ids[0]] else []) + MissingIds(ids[1..], api)
  }

  /**
   * Kaggle is asked only for ids the API did not answer, so no API record is replaced; a row
   * gets no features, and the tag `missing`, exactly when its id is in neither map; it is
   * tagged `kaggle_db` when the table supplied it, and otherwise carries the API record's own
   * source, `api` by default.
   */
  lemma ResolutionSpec(rows: seq<TrackRow>, ids: seq<string>, api: map<string, FeatureRecord>, db: seq<KaggleRow>, i: nat)
    requires KaggleLookup(db, MissingIds(ids, api)).Ok?
    requires i < |rows|
    ensures var kaggle := KaggleLookup(db, MissingIds(ids, api)).value; var resolved := api + kaggle;
      var tid := rows[i].track.id; var out := TagRow(rows[i], resolved);
      && (forall t :: t in api ==> t in resolved && resolved[t] == api[t])
      && out.base == rows[i]
      && (out.features.None? <==> !(tid.Some? && (tid.value in api || tid.value in kaggle)))
      && (out.features.None? ==> out.featureSource == "missing")
      && (tid.Some? && tid.value in api ==> out.features == Some(api[tid.value]) && out.featureSource == api[tid.value].source.GetOr("api"))
      && (tid.Some? && tid.value in kaggle ==> out.features == Some(kaggle[tid.value]) && out.featureSource == "kaggle_db")
  {
    KaggleLookupSpec(db, MissingIds(ids, api));
  }

  // ---------------------------------------------------------------------------------------
  // Classifiers

  /** `_classify_time_period(hour)`; a NaN hour fails every comparison and lands in night. */
  function ClassifyTimePeriod(hour: Option<int>): (p: string)
    ensures p == "morning" <==> hour.Some? && 6 <= hour.value < 12
    ensures p == "afternoon" <==> hour.Some? && 12 <= hour.value < 18
    ensures p == "evening" <==> hour.Some? && 18 <= hour.value < 23
    ensures p == "night" <==> hour.None? || hour.value < 6 || hour.value >= 23
  {
    match hour
    case None => "night"
    case Some(h) =>
      if 6 <= h < 12 then "morning"
      else if 12 <= h < 18 then "afternoon"
      else if 18 <= h < 23 then "evening"
      else "night"
  }

  /** `row.get(col, default)`: the default only when the column is absent; None is NaN. */
  function Get(row: map<string, Option<real>>, col: string, default: real): Option<real> {
    if col in row then row[col] else Some(default)
  }

  predicate Gt(x: Option<real>, c: real) { x.Some? && x.value > c }
  predicate Lt(x: Option<real>, c: real) { x.Some? && x.value < c }
  predicate Ge(x: Option<real>, c: real) { x.Some? && x.value >= c }
  predicate Le(x: Option<real>, c: real) { x.Some? && x.value <= c }

  /** High energy and high danceability. */
  predicate WorkoutRule(row: map<string, Option<real>>) {
    Gt(Get(row, "energy", 0.5), 0.7) && Gt(Get(row, "danceability", 0.5), 0.6)
  }

  /** Little speech and mostly instrumental. */
  predicate FocusRule(row: map<string, Option<real>>) {
    Lt(Get(row, "speechiness", 0.5), 0.2) && Gt(Get(row, "instrumentalness", 0.0), 0.5)
  }

  /** Low energy and acoustic: relaxation before hour 22, sleep otherwise. */
  predicate CalmRule(row: map<string, Option<real>>) {
    Lt(Get(row, "energy", 0.5), 0.4) && Gt(Get(row, "acousticness", 0.5), 0.5)
  }

  predicate BeforeTen(row: map<string, Option<real>>) {
    Lt(Get(row, "hour", 12.0), 22.0)
  }

  /** Happy and energetic, in the evening or at the weekend. */
  predicate PartyRule(row: map<string, Option<real>>, weekend: bool) {
    Gt(Get(row, "valence", 0.5), 0.6) && Gt(Get(row, "energy", 0.5), 0.6) && (Ge(Get(row, "hour", 12.0), 20.0) || weekend)
  }

  /** Energetic, on a weekday between hours 6 and 9 inclusive. */
  predicate CommuteRule(row: map<string, Option<real>>, weekend: bool) {
    Ge(Get(row, "hour", 12.0), 6.0) && Le(Get(row, "hour", 12.0), 9.0) && !weekend && Gt(Get(row, "energy", 0.5), 0.5)
  }

  /**
   * `_infer_context(row)`: the first rule that holds names the context, in the order workout,
   * focus, relaxation or sleep, party, commute, and general when none holds. The row maps
   * column names to cells (`hour` included); `isWeekend` is None when the row has no
   * `is_weekend` column, which reads as a weekday.
   */
  function InferContext(row: map<string, Option<real>>, isWeekend: Option<bool>): (c: string)
    ensures c in {"workout", "focus", "relaxation", "sleep", "party", "commute", "general"}
    ensures c == "workout" <==> WorkoutRule(row)
    ensures c == "focus" <==> !WorkoutRule(row) && FocusRule(row)
    ensures c == "relaxation" <==> !WorkoutRule(row) && !FocusRule(row) && CalmRule(row) && BeforeTen(row)
    ensures c == "sleep" <==> !WorkoutRule(row) && !FocusRule(row) && CalmRule(row) && !BeforeTen(row)
    ensures c == "party" <==>
      !WorkoutRule(row) && !FocusRule(row) && !CalmRule(row) && PartyRule(row, isWeekend == Some(true))
    ensures c == "commute" <==>
      && !WorkoutRule(row) && !FocusRule(row) && !CalmRule(row) && !PartyRule(row, isWeekend == Some(true))
      && CommuteRule(row, isWeekend == Some(true))
    ensures c == "general" <==>
      && !WorkoutRule(row) && !FocusRule(row) && !CalmRule(row) && !PartyRule(row, isWeekend == Some(true))
      && !CommuteRule(row, isWeekend == Some(true))
  {
    var weekend := isWeekend.GetOr(false);
    if WorkoutRule(row) then "workout"
    else if FocusRule(row) then "focus"
    else if CalmRule(row) then (if BeforeTen(row) then "relaxation" else "sleep")
    else if PartyRule(row, weekend) then "party"
    else if CommuteRule(row, weekend) then "commute"
    else "general"
  }

  /** A row without any feature or time column falls through every rule. */
  lemma InferContextDefaults()
    ensures InferContext(map[], None) == "general"
  {
  }

  // ---------------------------------------------------------------------------------------
  // The enricher

  class AudioFeaturesEnricher {
    var totalTracks: nat
    var featuresFromApi: nat
    var featuresFromKaggle: nat
    var featuresMissing: nat
    var errors: seq<string>
    /** The Kaggle table, or None when it could not be read. */
    var kaggleDb: Option<seq<KaggleRow>>

    constructor (kaggleDb: Option<seq<KaggleRow>>)
      ensures this.kaggleDb == kaggleDb
      ensures totalTracks == 0 && featuresFromApi == 0 && featuresFromKaggle == 0 && featuresMissing == 0
      ensures errors == []
    {
      this.kaggleDb := kaggleDb;
      totalTracks := 0;
      featuresFromApi := 0;
      featuresFromKaggle := 0;
      featuresMissing := 0;
      errors := [];
    }

    /** `extract_tracks_from_recently_played`; None is a missing file. */
    method ExtractTracksFromRecentlyPlayed(items: Option<seq<PlayItem>>) returns (rows: Result<seq<TrackRow>>)
      ensures items.None? ==> rows == Ok([])
      ensures items.Some? ==>
        (rows.Err? <==> exists i :: 0 <= i < |items.value| && items.value[i].context == NullContext)
      ensures rows.Ok? && items.Some? ==>
        && |rows.value| == |items.value|
        && forall i :: 0 <= i < |items.value| ==> PlayRow(items.value[i]) == Ok(rows.value[i])
    {
      if items.None? {
        return Ok([]);
      }
      var its := items.value;
      var acc: seq<TrackRow> := [];
      var i := 0;
      while i < |its|
        invariant 0 <= i <= |its|
        invariant |acc| == i
        invariant forall j :: 0 <= j < i ==> its[j].context != NullContext && PlayRow(its[j]) == Ok(acc[j])
      {
        var row := PlayRow(its[i]);
        if row.Err? {
          return Err(row.error);
        }
        acc := acc + [row.value];
        i := i + 1;
      }
      rows := Ok(acc);
    }

    /** `extract_tracks_from_top_tracks`; None is a missing file. */
    method ExtractTracksFromTopTracks(doc: Option<seq<(string, Option<seq<ApiTrack>>)>>) returns (rows: seq<TrackRow>)
      ensures rows == if doc.None? then [] else TopRowsOf(doc.value)
    {
      if doc.None? {
        return [];
      }
      var d := doc.value;
      rows := [];
      var i := 0;
      while i < |d|
        invariant 0 <= i <= |d|
        invariant rows == TopRowsOf(d[..i])
      {
        var (range, results) := d[i];
        var tracks := results.GetOr([]);
        var j := 0;
        while j < |tracks|
          invariant 0 <= j <= |tracks|
          invariant rows == TopRowsOf(d[..i]) + seq(j, k requires 0 <= k < j => TopTrackRow(range, tracks[k]))
        {
          rows := rows + [TopTrackRow(range, tracks[j])];
          j := j + 1;
        }
        assert d[..i + 1][..i] == d[..i];
        i := i + 1;
      }
      assert d[..i] == d;
    }

    /**
     * `fetch_audio_features_batch`: drops falsy ids, then asks the API batch by batch; a
     * batch that raises leaves one error and nothing else.
     */
    method FetchAudioFeaturesBatch(trackIds: seq<Option<string>>, batchSize: nat, api: (nat, seq<string>) -> BatchReply)
      returns (features: map<string, FeatureRecord>)
      requires batchSize > 0
      modifies this
      ensures var t := FetchFold(Seqs.Batches(TruthyIds(trackIds), batchSize), api);
        && features == t.features
        && featuresFromApi == old(featuresFromApi) + t.fromApi
        && featuresMissing == old(featuresMissing) + t.missing
        && errors == old(errors) + t.errors
      ensures totalTracks == old(totalTracks) && featuresFromKaggle == old(featuresFromKaggle) && kaggleDb == old(kaggleDb)
    {
      var ids := TruthyIds(trackIds);
      var bs := Seqs.Batches(ids, batchSize);
      features := map[];
      var j := 0;
      while j < |bs|
        invariant 0 <= j <= |bs|
        invariant var t := FetchFold(bs[..j], api);
          && features == t.features
          && featuresFromApi == old(featuresFromApi) + t.fromApi
          && featuresMissing == old(featuresMissing) + t.missing
          && errors == old(errors) + t.errors
        invariant totalTracks == old(totalTracks) && featuresFromKaggle == old(featuresFromKaggle) && kaggleDb == old(kaggleDb)
      {
        assert bs[..j + 1][..j] == bs[..j];
        features := ProcessBatch(j, bs[j], api, features, FetchFold(bs[..j], api),
                                 old(featuresFromApi), old(featuresMissing), old(errors));
        j := j + 1;
      }
      assert bs[..j] == bs;
    }

    /** One batch of `fetch_audio_features_batch`: the call, then its error or its records. */
    method ProcessBatch(j: nat, batch: seq<string>, api: (nat, seq<string>) -> BatchReply,
                        features: map<string, FeatureRecord>, ghost t: FetchTally,
                        ghost fromApi0: nat, ghost missing0: nat, ghost errors0: seq<string>)
      returns (features': map<string, FeatureRecord>)
      requires features == t.features && featuresFromApi == fromApi0 + t.fromApi
      requires featuresMissing == missing0 + t.missing && errors == errors0 + t.errors
      modifies this`featuresFromApi, this`featuresMissing, this`errors
      ensures var t' := BatchStep(t, j, batch, api);
        && features' == t'.features && featuresFromApi == fromApi0 + t'.fromApi
        && featuresMissing == missing0 + t'.missing && errors == errors0 + t'.errors
    {
      match api(j, batch) {
        case Raised(message) =>
          errors := errors + [BatchErrorMessage(message)];
          features' := features;
        case Returned(recs) =>
          features' := AddBatchRecords(features, batch, recs);
      }
    }

    /** The `zip(batch, features_list)` loop of one successful batch. */
    method AddBatchRecords(start: map<string, FeatureRecord>, batch: seq<string>, recs: seq<Option<FeatureRecord>>)
      returns (features: map<string, FeatureRecord>)
      modifies this`featuresFromApi, this`featuresMissing
      ensures var k := MinLen(|batch|, |recs|);
        && features == ZipInto(start, batch, recs, k)
        && featuresFromApi == old(featuresFromApi) + ZipHits(recs, k)
        && featuresMissing == old(featuresMissing) + (k - ZipHits(recs, k))
    {
      var k := MinLen(|batch|, |recs|);
      features := start;
      var p := 0;
      while p < k
        invariant 0 <= p <= k
        invariant features == ZipInto(start, batch, recs, p)
        invariant featuresFromApi == old(featuresFromApi) + ZipHits(recs, p)
        invariant featuresMissing == old(featuresMissing) + (p - ZipHits(recs, p))
      {
        if Truthy(recs[p]) {
          features := features[batch[p] := recs[p].value];
          featuresFromApi := featuresFromApi + 1;
        } else {
          featuresMissing := featuresMissing + 1;
        }
        p := p + 1;
      }
    }

    /**
     * `get_audio_features_from_kaggle`: `{}` without a table; otherwise the first matching
     * row of each requested id, counted in `features_from_kaggle`.
     */
    method GetAudioFeaturesFromKaggle(trackIds: seq<string>) returns (found: Result<map<string, FeatureRecord>>)
      modifies this
      ensures kaggleDb.None? ==> found == Ok(map[]) && featuresFromKaggle == old(featuresFromKaggle)
      ensures kaggleDb.Some? ==>
        found == KaggleLookup(kaggleDb.value, trackIds)
        && featuresFromKaggle == old(featuresFromKaggle) + KaggleHits(kaggleDb.value, trackIds)
      ensures kaggleDb == old(kaggleDb) && totalTracks == old(totalTracks) && errors == old(errors)
      ensures featuresFromApi == old(featuresFromApi) && featuresMissing == old(featuresMissing)
    {
      if kaggleDb.None? {
        return Ok(map[]);
      }
      var db := kaggleDb.value;
      var m: map<string, FeatureRecord> := map[];
      var i := 0;
      while i < |trackIds|
        invariant 0 <= i <= |trackIds|
        invariant KaggleLookup(db, trackIds[..i]) == Ok(m)
        invariant featuresFromKaggle == old(featuresFromKaggle) + KaggleHits(db, trackIds[..i])
        invariant kaggleDb == old(kaggleDb) && totalTracks == old(totalTracks) && errors == old(errors)
        invariant featuresFromApi == old(featuresFromApi) && featuresMissing == old(featuresMissing)
      {
        var tid := trackIds[i];
        assert trackIds[..i + 1][..i] == trackIds[..i];
        if tid in KaggleIds(db) {
          var rec := KaggleRecord(FirstRow(db, tid));
          if rec.Err? {
            KaggleLookupErrSticks(db, trackIds, i + 1);
            return Err(rec.error);
          }
          m := m[tid := rec.value];
          featuresFromKaggle := featuresFromKaggle + 1;
        }
        i := i + 1;
      }
      assert trackIds[..i] == trackIds;
      found := Ok(m);
    }

    /**
     * `enrich_tracks_with_features` up to the derived columns: every row gets the resolved
     * record of its id and a `feature_source` tag. The API counters and errors grow by what
     * the batches gave, the Kaggle counter by the table's hits when it was asked, and the
     * call raises exactly when the Kaggle look-up does.
     */
    method EnrichTracksWithFeatures(tracks: seq<TrackRow>, api: (nat, seq<string>) -> BatchReply)
      returns (out: Result<seq<EnrichedRow>>)
      modifies this
      ensures totalTracks == |tracks|
      ensures kaggleDb == old(kaggleDb)
      ensures var ids := UniqueIds(tracks);
        var t := FetchFold(Seqs.Batches(TruthyIds(WrapIds(ids)), 100), api);
        var missing := MissingIds(ids, t.features);
        var asked := kaggleDb.Some? && missing != [];
        && (out.Err? <==> asked && KaggleLookup(kaggleDb.value, missing).Err?)
        && featuresFromApi == old(featuresFromApi) + t.fromApi
        && featuresMissing == old(featuresMissing) + t.missing
        && errors == old(errors) + t.errors
        && featuresFromKaggle == old(featuresFromKaggle) + (if asked then KaggleHits(kaggleDb.value, missing) else 0)
      ensures out.Ok? ==> |out.value| == |tracks|
      ensures var ids := UniqueIds(tracks);
        var apiMap := FetchFold(Seqs.Batches(TruthyIds(WrapIds(ids)), 100), api).features;
        var missing := MissingIds(ids, apiMap);
        out.Ok? && kaggleDb.Some? && missing != [] ==>
          KaggleLookup(kaggleDb.value, missing).Ok?
          && forall i :: 0 <= i < |tracks| ==> out.value[i] == TagRow(tracks[i], apiMap + KaggleLookup(kaggleDb.value, missing).value)
      ensures var ids := UniqueIds(tracks);
        var apiMap := FetchFold(Seqs.Batches(TruthyIds(WrapIds(ids)), 100), api).features;
        out.Ok? && (kaggleDb.None? || MissingIds(ids, apiMap) == []) ==>
          forall i :: 0 <= i < |tracks| ==> out.value[i] == TagRow(tracks[i], apiMap)
    {
      totalTracks := |tracks|;
      var ids := UniqueIds(tracks);
      var apiMap := FetchAudioFeaturesBatch(WrapIds(ids), 100, api);
      var resolved := apiMap;
      var missing := MissingIds(ids, apiMap);
      if |missing| > 0 {
        var kaggle := GetAudioFeaturesFromKaggle(missing);
        if kaggle.Err? {
          return Err(kaggle.error);
        }
        resolved := apiMap + kaggle.value;
      }
      var rows := TagRows(tracks, resolved);
      out := Ok(rows);
    }
  }

  /** The row loop of `enrich_tracks_with_features`: each row tagged from the resolved map. */
  method TagRows(tracks: seq<TrackRow>, resolved: map<string, FeatureRecord>) returns (rows: seq<EnrichedRow>)
    ensures |rows| == |tracks|
    ensures forall i :: 0 <= i < |tracks| ==> rows[i] == TagRow(tracks[i], resolved)
  {
    rows := [];
    var i := 0;
    while i < |tracks|
      invariant 0 <= i <= |tracks|
      invariant |rows| == i
      invariant forall j :: 0 <= j < i ==> rows[j] == TagRow(tracks[j], resolved)
    {
      rows := rows + [TagRow(tracks[i], resolved)];
      i := i + 1;
    }
  }

  /** Once the Kaggle loop has raised, later ids change neither the outcome nor the count. */
  lemma {:induction false} KaggleLookupErrSticks(db: seq<KaggleRow>, ids: seq<string>, n: nat)
    requires n <= |ids|
    requires KaggleLookup(db, ids[..n]).Err?
    ensures KaggleLookup(db, ids) == KaggleLookup(db, ids[..n])
    ensures KaggleHits(db, ids) == KaggleHits(db, ids[..n])
    decreases |ids| - n
  {
    if n < |ids| {
      assert ids[..n + 1][..n] == ids[..n];
      KaggleLookupErrSticks(db, ids, n + 1);
    } else {
      assert ids[..n] == ids;
    }
  }
}

=== FILE: feature_engineering.dfy ===
/**
 * src/feature_engineering.py: which composite columns get created, the priority rules of
 * `classify_context`, the context column, and the two feature-name filters.
 *
 * The composite formulas are floating-point arithmetic and enter as a scoring function; only
 * the choice of columns they are written to is modelled.
 */
module FeatureEngineering {
  import opened Wrappers
  import opened Frames
  import Seqs

  /** A numeric cell; a missing value (NaN) or a non-number reads as None. */
  function Num(v: Value): Option<real> {
    match v
    case Real(r) => Some(r)
    case Int(i) => Some(i as real)
    case Bool(b) => Some(if b then 1.0 else 0.0)
    case _ => None
  }

  /**
   * `row.get(name, 0)` on a row of a frame with `columns`: the cell when the column exists
   * (NaN when the row has none), 0 when it does not.
   */
  function GetOrZero(columns: set<string>, row: Row, name: string): Option<real> {
    if name in columns then Num(Cell(row, name)) else Some(0.0)
  }

  /** `x > c`; any comparison with NaN is False. */
  predicate Gt(x: Option<real>, c: real) {
    x.Some? && x.value > c
  }

  predicate Lt(x: Option<real>, c: real) {
    x.Some? && x.value < c
  }

  predicate IsWorkout(columns: set<string>, row: Row) {
    Gt(GetOrZero(columns, row, "energy"), 0.7) && Gt(GetOrZero(columns, row, "danceability"), 0.6)
  }

  predicate IsFocus(columns: set<string>, row: Row) {
    Lt(GetOrZero(columns, row, "speechiness"), 0.2) && Gt(GetOrZero(columns, row, "instrumentalness"), 0.5)
  }

  predicate IsRelaxation(columns: set<string>, row: Row) {
    Lt(GetOrZero(columns, row, "energy"), 0.4) && Gt(GetOrZero(columns, row, "acousticness"), 0.5)
  }

  predicate IsParty(columns: set<string>, row: Row) {
    && Gt(GetOrZero(columns, row, "valence"), 0.6)
    && Gt(GetOrZero(columns, row, "energy"), 0.6)
    && Gt(GetOrZero(columns, row, "danceability"), 0.6)
  }

  const ContextLabels: set<string> := {"Workout", "Focus", "Relaxation", "Party", "General"}

  /**
   * `classify_context`: the first rule that holds, in the order Workout, Focus, Relaxation,
   * Party, and General when none does.
   */
  function ClassifyContext(columns: set<string>, row: Row): (context: string)
    ensures context in ContextLabels
    ensures context == "Workout" <==> IsWorkout(columns, row)
    ensures context == "Focus" <==> !IsWorkout(columns, row) && IsFocus(columns, row)
    ensures context == "Relaxation" <==> !IsWorkout(columns, row) && !IsFocus(columns, row) && IsRelaxation(columns, row)
    ensures context == "Party" <==>
      !IsWorkout(columns, row) && !IsFocus(columns, row) && !IsRelaxation(columns, row) && IsParty(columns, row)
  {
    if IsWorkout(columns, row) then "Workout"
    else if IsFocus(columns, row) then "Focus"
    else if IsRelaxation(columns, row) then "Relaxation"
    else if IsParty(columns, row) then "Party"
    else "General"
  }

  /** A frame with none of the audio-feature columns classifies every row as General. */
  lemma NoFeaturesIsGeneral(columns: set<string>, row: Row)
    requires forall c :: c in {"energy", "danceability", "speechiness", "instrumentalness", "acousticness", "valence"} ==> c !in columns
    ensures ClassifyContext(columns, row) == "General"
  {
  }

  /** Workout shadows Party: a Party track has energy above 0.6 but not above 0.7. */
  lemma PartyEnergyBand(columns: set<string>, row: Row)
    requires ClassifyContext(columns, row) == "Party"
    ensures var e := GetOrZero(columns, row, "energy"); e.Some? && 0.6 < e.value <= 0.7
  {
  }

  /**
   * `add_context_classification`: a copy with a "context" cell in every row, holding that
   * row's classification against the frame's own columns; every other cell is kept.
   */
  function AddContextClassification(t: Table): (r: Table)
    ensures r.columns == t.columns + {"context"}
    ensures |r.rows| == |t.rows|
    ensures forall i :: 0 <= i < |t.rows| ==>
      && Cell(r.rows[i], "context") == Str(ClassifyContext(t.columns, t.rows[i]))
      && (forall c :: c != "context" ==> Cell(r.rows[i], c) == Cell(t.rows[i], c))
  {
    Table(t.columns + {"context"},
      seq(|t.rows|, i requires 0 <= i < |t.rows| => t.rows[i]["context" := Str(ClassifyContext(t.columns, t.rows[i]))]))
  }

  /** Every context the column holds is one of the five labels. */
  lemma ContextColumnLabels(t: Table)
    ensures forall i :: 0 <= i < |t.rows| ==>
      Cell(AddContextClassification(t).rows[i], "context").Str? && Cell(AddContextClassification(t).rows[i], "context").s in ContextLabels
  {
  }

  // ---------------------------------------------------------------------------------------
  // create_composite_features (columns only)

  const CompositeNames: seq<string> := ["mood_score", "grooviness", "focus_score", "relaxation_score"]

  /** The input columns each composite needs. */
  function Inputs(name: string): set<string> {
    if name == "mood_score" then {"valence", "energy", "acousticness"}
    else if name == "grooviness" then {"danceability", "energy", "tempo"}
    else if name == "focus_score" then {"speechiness", "energy", "instrumentalness"}
    else {"energy", "acousticness", "tempo"}
  }

  /** The composites, in creation order, whose inputs are all present. */
  function Creatable(columns: set<string>): seq<string> {
    Seqs.Filter(CompositeNames, name => Inputs(name) <= columns)
  }

  /** Writes one column with the given per-row scores; every other cell is kept. */
  function WithScores(t: Table, name: string, score: (string, Row) -> Value): (r: Table)
    ensures r.columns == t.columns + {name}
    ensures |r.rows| == |t.rows|
    ensures forall i :: 0 <= i < |t.rows| ==>
      && Cell(r.rows[i], name) == score(name, t.rows[i])
      && forall c :: c != name ==> Cell(r.rows[i], c) == Cell(t.rows[i], c)
  {
    Table(t.columns + {name}, seq(|t.rows|, i requires 0 <= i < |t.rows| => t.rows[i][name := score(name, t.rows[i])]))
  }

  /** Writes the columns `names` one after the other; cells of other columns are kept. */
  function AddAll(t: Table, names: seq<string>, score: (string, Row) -> Value): (r: Table)
    ensures r.columns == t.columns + set n | n in names
    ensures |r.rows| == |t.rows|
    ensures forall i, c :: 0 <= i < |t.rows| && c !in names ==> Cell(r.rows[i], c) == Cell(t.rows[i], c)
    decreases |names|
  {
    if |names| == 0 then t
    else
      assert forall c :: c !in names ==> c != names[0] && c !in names[1..];
      AddAll(WithScores(t, names[0], score), names[1..], score)
  }

  /**
   * `create_composite_features`: a copy with a column for each composite whose input columns
   * are all present; no other column is created and none is removed, and every cell outside
   * the composite columns is kept.
   */
  function CreateCompositeFeatures(t: Table, score: (string, Row) -> Value): (r: Table)
    ensures r.columns == t.columns + set n | n in Creatable(t.columns)
    ensures |r.rows| == |t.rows|
    ensures forall i, c :: 0 <= i < |t.rows| && c !in CompositeNames ==> Cell(r.rows[i], c) == Cell(t.rows[i], c)
  {
    AddAll(t, Creatable(t.columns), score)
  }

  // ---------------------------------------------------------------------------------------
  // get_normalized_features / get_composite_features

  const NonNormalized: seq<string> := ["loudness", "tempo", "duration_ms", "key", "mode", "time_signature"]

  /** `get_normalized_features`: drops exactly the six names not on a 0..1 scale, keeping order. */
  function GetNormalizedFeatures(features: seq<string>): (r: seq<string>)
    ensures forall f :: f in r <==> f in features && f !in NonNormalized
    ensures |r| <= |features|
  {
    var keep := (f: string) => f !in NonNormalized;
    Seqs.FilterSpec(features, keep);
    Seqs.Filter(features, keep)
  }

  /** Filtering twice changes nothing, and a list of 0..1 features is kept as it is. */
  lemma NormalizedIdempotent(features: seq<string>)
    ensures GetNormalizedFeatures(GetNormalizedFeatures(features)) == GetNormalizedFeatures(features)
    ensures (forall f :: f in features ==> f !in NonNormalized) ==> GetNormalizedFeatures(features) == features
  {
    var keep := (f: string) => f !in NonNormalized;
    Seqs.FilterKeepsAll(GetNormalizedFeatures(features), keep);
    if forall f :: f in features ==> f !in NonNormalized {
      Seqs.FilterKeepsAll(features, keep);
    }
  }

  /**
   * The filter works name by name, so it keeps the relative order of the names it keeps:
   * filtering a concatenation is concatenating the filtered parts.
   */
  lemma NormalizedKeepsOrder(a: seq<string>, b: seq<string>)
    ensures GetNormalizedFeatures(a + b) == GetNormalizedFeatures(a) + GetNormalizedFeatures(b)
  {
    Seqs.FilterConcat(a, b, (f: string) => f !in NonNormalized);
  }

  /** `get_composite_features`: the composites present in the frame, in their fixed order. */
  function GetCompositeFeatures(t: Table): (r: seq<string>)
    ensures forall c :: c in r <==> c in CompositeNames && c in t.columns
  {
    var present := (c: string) => c in t.columns;
    Seqs.FilterSpec(CompositeNames, present);
    Seqs.Filter(CompositeNames, present)
  }

  /** After creating composites, every composite whose inputs exist is reported as present. */
  lemma CreatedCompositesReported(t: Table, score: (string, Row) -> Value)
    ensures forall c :: c in CompositeNames && Inputs(c) <= t.columns ==> c in GetCompositeFeatures(CreateCompositeFeatures(t, score))
  {
    var created := Creatable(t.columns);
    Seqs.FilterSpec(CompositeNames, name => Inputs(name) <= t.columns);
  }
}

=== FILE: frames.dfy ===
/**
 * A pandas DataFrame as the data path uses it: a set of column names and a sequence of rows,
 * each row a map from column name to cell. A cell the row lacks reads as a missing value.
 */
module Frames {
  import opened Wrappers
  import Seqs

  /** One cell: text, a whole number, a float, a flag, or a missing value (None/NaN/NaT). */
  datatype Value = Str(s: string) | Int(i: int) | Real(r: real) | Bool(b: bool) | Null

  type Row = map<string, Value>

  datatype Table = Table(columns: set<string>, rows: seq<Row>)

  /** `pd.DataFrame()`. */
  function EmptyTable(): Table {
    Table({}, [])
  }

  /** `df.empty`: no rows or no columns. */
  predicate IsEmpty(t: Table) {
    |t.rows| == 0 || t.columns == {}
  }

  /** `row[col]`, missing when the row has no such cell. */
  function Cell(row: Row, col: string): Value {
    if col in row then row[col] else Null
  }

  /** An optional JSON field as a cell: the value, or missing for None. */
  function OptStr(x: Option<string>): Value {
    if x.Some? then Str(x.value) else Null
  }

  function OptInt(x: Option<int>): Value {
    if x.Some? then Int(x.value) else Null
  }

  function OptBool(x: Option<bool>): Value {
    if x.Some? then Bool(x.value) else Null
  }

  /** `df[col] = v` for a constant `v`: every row gets the cell, the frame gets the column. */
  function WithColumn(t: Table, col: string, v: Value): (r: Table)
    ensures r.columns == t.columns + {col}
    ensures |r.rows| == |t.rows|
    ensures forall i :: 0 <= i < |t.rows| ==> r.rows[i] == t.rows[i][col := v]
  {
    Table(t.columns + {col}, seq(|t.rows|, i requires 0 <= i < |t.rows| => t.rows[i][col := v]))
  }

  /** The non-missing values of column `col` over `rows`. */
  function ValueSet(rows: seq<Row>, col: string): (vs: set<Value>)
    ensures |vs| <= |rows|
    ensures Null !in vs
    ensures forall i :: 0 <= i < |rows| && Cell(rows[i], col) != Null ==> Cell(rows[i], col) in vs
  {
    if |rows| == 0 then {}
    else
      var last := Cell(rows[|rows| - 1], col);
      var init := ValueSet(rows[..|rows| - 1], col);
      assert forall i :: 0 <= i < |rows| - 1 ==> rows[..|rows| - 1][i] == rows[i];
      init + (if last != Null then {last} else {})
  }

  /** `df[col].nunique()`: distinct non-missing values. */
  function NUnique(t: Table, col: string): (n: nat)
    ensures n <= |t.rows|
  {
    |ValueSet(t.rows, col)|
  }

  /** `pd.concat(ts, ignore_index=True)`: all columns, then all rows in frame order. */
  function Concat(ts: seq<Table>): (r: Table)
    ensures forall t :: t in ts ==> t.columns <= r.columns
    ensures forall t, row :: t in ts && row in t.rows ==> row in r.rows
  {
    if |ts| == 0 then EmptyTable()
    else
      var init := Concat(ts[..|ts| - 1]);
      var last := ts[|ts| - 1];
      assert forall t :: t in ts ==> t in ts[..|ts| - 1] || t == last;
      Table(init.columns + last.columns, init.rows + last.rows)
  }

  /** Every row of a concatenation comes from one of the frames. */
  lemma {:induction false} ConcatRowsFrom(ts: seq<Table>)
    ensures forall row :: row in Concat(ts).rows ==> exists t :: t in ts && row in t.rows
  {
    if |ts| > 0 {
      var init := ts[..|ts| - 1];
      ConcatRowsFrom(init);
      forall row | row in Concat(ts).rows ensures exists t :: t in ts && row in t.rows {
        if row in Concat(init).rows {
          var t :| t in init && row in t.rows;
          assert t in ts;
        } else {
          assert ts[|ts| - 1] in ts;
        }
      }
    }
  }
  // ---------------------------------------------------------------------------------------
  // DataFrame.merge(right, on=on, how='left', suffixes=(leftSuffix, rightSuffix))

  /** The columns both frames have, besides the join column; these get the suffixes. */
  function Clash(left: set<string>, right: set<string>, on: string): set<string> {
    left * right - {on}
  }

  function Suffixed(names: set<string>, suffix: string): set<string> {
    set c | c in names :: c + suffix
  }

  /** The name without its suffix. */
  function Strip(name: string, suffix: string): string {
    if |name| >= |suffix| then name[..|name| - |suffix|] else name
  }

  /** The merged frame's columns: each side's own columns, the clashing ones suffixed. */
  function JoinColumns(left: set<string>, right: set<string>, on: string, leftSuffix: string, rightSuffix: string): (cs: set<string>)
    ensures left - Clash(left, right, on) <= cs
    ensures right - Clash(left, right, on) - {on} <= cs
    ensures leftSuffix == [] ==> left <= cs
  {
    var clash := Clash(left, right, on);
    var cs := (left - clash) + Suffixed(clash, leftSuffix) + (right - clash - {on}) + Suffixed(clash, rightSuffix);
    assert leftSuffix == [] ==> forall c :: c in clash ==> c + leftSuffix == c && c + leftSuffix in cs;
    cs
  }

  /** One merged cell: from the left row, else from the matched right row (missing without a match). */
  function JoinCell(n: string, u: Row, k: Option<Row>, left: set<string>, right: set<string>, on: string,
                    leftSuffix: string, rightSuffix: string): Value
  {
    var clash := Clash(left, right, on);
    if n in left - clash then Cell(u, n)
    else if n in Suffixed(clash, leftSuffix) then Cell(u, Strip(n, leftSuffix))
    else if k.None? then Null
    else if n in right - clash - {on} then Cell(k.value, n)
    else Cell(k.value, Strip(n, rightSuffix))
  }

  function JoinRow(u: Row, k: Option<Row>, left: set<string>, right: set<string>, on: string,
                   leftSuffix: string, rightSuffix: string): Row
  {
    map n | n in JoinColumns(left, right, on, leftSuffix, rightSuffix) :: JoinCell(n, u, k, left, right, on, leftSuffix, rightSuffix)
  }

  /** The right rows whose join cell equals the left row's (missing values match each other). */
  function Matches(u: Row, right: Table, on: string): seq<Row> {
    Seqs.Filter(right.rows, (k: Row) => Cell(k, on) == Cell(u, on))
  }

  /** The merged rows of one left row: one per match, or one unmatched row. */
  function JoinedRows(u: Row, left: set<string>, right: Table, on: string, leftSuffix: string, rightSuffix: string): (rs: seq<Row>)
    ensures |rs| == if Matches(u, right, on) == [] then 1 else |Matches(u, right, on)|
  {
    var ms := Matches(u, right, on);
    if ms == [] then [JoinRow(u, None, left, right.columns, on, leftSuffix, rightSuffix)]
    else seq(|ms|, i requires 0 <= i < |ms| => JoinRow(u, Some(ms[i]), left, right.columns, on, leftSuffix, rightSuffix))
  }

  function JoinAll(rows: seq<Row>, left: set<string>, right: Table, on: string, leftSuffix: string, rightSuffix: string): (rs: seq<Row>)
    ensures |rs| >= |rows|
  {
    if |rows| == 0 then []
    else JoinedRows(rows[0], left, right, on, leftSuffix, rightSuffix) + JoinAll(rows[1..], left, right, on, leftSuffix, rightSuffix)
  }

  /**
   * The merged rows of one left row: every match has the left row's join value; each merged
   * row keeps the left row's own cells, and the i-th carries the i-th match's cells in the
   * right-only columns, which are missing when nothing matched.
   */
  lemma JoinedRowsCells(u: Row, left: set<string>, right: Table, on: string, leftSuffix: string, rightSuffix: string)
    ensures var ms := Matches(u, right, on); var out := JoinedRows(u, left, right, on, leftSuffix, rightSuffix);
      var clash := Clash(left, right.columns, on);
      && (forall i :: 0 <= i < |ms| ==> Cell(ms[i], on) == Cell(u, on))
      && (forall i, c :: 0 <= i < |out| && c in left - clash ==> Cell(out[i], c) == Cell(u, c))
      && (forall i, c :: 0 <= i < |out| && c in right.columns - clash - {on} && c !in Suffixed(clash, leftSuffix) ==>
            Cell(out[i], c) == if ms == [] then Null else Cell(ms[i], c))
  {
    var ms := Matches(u, right, on);
    forall i | 0 <= i < |ms| ensures Cell(ms[i], on) == Cell(u, on) {
      assert ms[i] in ms;
    }
  }

  /** The left merge: left rows in order, each repeated once per matching right row. */
  function LeftJoin(left: Table, right: Table, on: string, leftSuffix: string, rightSuffix: string): (r: Table)
    ensures r.columns == JoinColumns(left.columns, right.columns, on, leftSuffix, rightSuffix)
    ensures |r.rows| >= |left.rows|
  {
    Table(JoinColumns(left.columns, right.columns, on, leftSuffix, rightSuffix),
          JoinAll(left.rows, left.columns, right, on, leftSuffix, rightSuffix))
  }

  /** The right frame with one row per join value, the first. */
  function DistinctOn(t: Table, on: string): (r: Table)
    ensures r.columns == t.columns
    ensures |r.rows| <= |t.rows|
  {
    Seqs.KeepFirstSpec(t.rows, (k: Row) => Cell(k, on));
    Table(t.columns, Seqs.KeepFirst(t.rows, (k: Row) => Cell(k, on)))
  }

  /** With distinct join values on the right, every left row has at most one match. */
  lemma DistinctMatchesAtMostOne(u: Row, right: Table, on: string)
    ensures |Matches(u, DistinctOn(right, on), on)| <= 1
  {
    var key := (k: Row) => Cell(k, on);
    Seqs.KeepFirstSpec(right.rows, key);
    FilterOneKey(DistinctOn(right, on).rows, (k: Row) => Cell(k, on) == Cell(u, on), key, Cell(u, on));
  }

  /** In a list with distinct keys, the elements of one key number at most one. */
  lemma {:induction false} FilterOneKey(rows: seq<Row>, p: Row -> bool, key: Row -> Value, id: Value)
    requires forall r :: p(r) <==> key(r) == id
    requires forall i, j :: 0 <= i < j < |rows| ==> key(rows[i]) != key(rows[j])
    ensures |Seqs.Filter(rows, p)| <= 1
  {
    if |rows| > 0 {
      FilterOneKey(rows[1..], p, key, id);
      if p(rows[0]) {
        forall r | r in rows[1..] ensures !p(r) {
          var j :| 0 <= j < |rows[1..]| && rows[1..][j] == r;
          assert rows[j + 1] == r;
        }
        Seqs.FilterNone(rows[1..], p);
      }
    }
  }

  /**
   * Merging with a right frame of distinct join values keeps the left rows one for one: the
   * i-th merged row carries the i-th left row's own cells and join value.
   */
  lemma {:induction false} JoinAllDistinct(rows: seq<Row>, left: set<string>, right: Table, on: string,
                                           leftSuffix: string, rightSuffix: string)
    requires on in left
    ensures var rs := JoinAll(rows, left, DistinctOn(right, on), on, leftSuffix, rightSuffix);
      && |rs| == |rows|
      && forall i, c :: 0 <= i < |rows| && c in left - Clash(left, right.columns, on) ==> Cell(rs[i], c) == Cell(rows[i], c)
  {
    if |rows| > 0 {
      var d := DistinctOn(right, on);
      DistinctMatchesAtMostOne(rows[0], right, on);
      JoinAllDistinct(rows[1..], left, right, on, leftSuffix, rightSuffix);
      var head := JoinedRows(rows[0], left, d, on, leftSuffix, rightSuffix);
      var rest := JoinAll(rows[1..], left, d, on, leftSuffix, rightSuffix);
      var rs := JoinAll(rows, left, d, on, leftSuffix, rightSuffix);
      assert |head| == 1;
      assert rs == head + rest;
      forall i, c | 0 <= i < |rows| && c in left - Clash(left, right.columns, on)
        ensures Cell(rs[i], c) == Cell(rows[i], c)
      {
        if i == 0 {
          assert c in JoinColumns(left, right.columns, on, leftSuffix, rightSuffix);
        } else {
          assert rs[i] == rest[i - 1];
          assert rows[i] == rows[1..][i - 1];
        }
      }
    }
  }

  /**
   * Merging with a right frame of distinct join values, the i-th merged row carries the cells
   * of the right row with the i-th left row's join value in the right-only columns, and
   * missing cells there when no right row has that value.
   */
  lemma {:induction false} JoinAllDistinctRight(rows: seq<Row>, left: set<string>, right: Table, on: string,
                                                leftSuffix: string, rightSuffix: string)
    ensures var d := DistinctOn(right, on); var rs := JoinAll(rows, left, d, on, leftSuffix, rightSuffix);
      var clash := Clash(left, right.columns, on);
      forall i, c :: 0 <= i < |rows| && c in right.columns - clash - {on} && c !in Suffixed(clash, leftSuffix) ==>
        Cell(rs[i], c) == if Matches(rows[i], d, on) == [] then Null else Cell(Matches(rows[i], d, on)[0], c)
  {
    if |rows| > 0 {
      var d := DistinctOn(right, on);
      var clash := Clash(left, right.columns, on);
      JoinAllDistinctRight(rows[1..], left, right, on, leftSuffix, rightSuffix);
      var head := JoinedRows(rows[0], left, d, on, leftSuffix, rightSuffix);
      var rest := JoinAll(rows[1..], left, d, on, leftSuffix, rightSuffix);
      var rs := JoinAll(rows, left, d, on, leftSuffix, rightSuffix);
      assert |head| == 1 by {
        DistinctMatchesAtMostOne(rows[0], right, on);
      }
      assert rs[0] == head[0] && rs[1..] == rest;
      JoinedRowsCells(rows[0], left, d, on, leftSuffix, rightSuffix);
      forall i, c | 1 <= i < |rows| && c in right.columns - clash - {on} && c !in Suffixed(clash, leftSuffix)
        ensures Cell(rs[i], c) == if Matches(rows[i], d, on) == [] then Null else Cell(Matches(rows[i], d, on)[0], c)
      {
        assert rs[i] == rs[1..][i - 1];
        assert rows[i] == rows[1..][i - 1];
      }
    }
  }

  /**
   * The merge with distinct right join values keeps the left rows one for one, each with its
   * own cells, and adds the matching right row's cells, missing where nothing matched.
   */
  lemma LeftJoinDistinctRight(left: Table, right: Table, on: string, leftSuffix: string, rightSuffix: string)
    requires on in left.columns
    ensures var d := DistinctOn(right, on); var r := LeftJoin(left, d, on, leftSuffix, rightSuffix);
      var clash := Clash(left.columns, right.columns, on);
      && |r.rows| == |left.rows|
      && forall i, c :: 0 <= i < |left.rows| && c in right.columns - clash - {on} && c !in Suffixed(clash, leftSuffix) ==>
           Cell(r.rows[i], c) == if Matches(left.rows[i], d, on) == [] then Null else Cell(Matches(left.rows[i], d, on)[0], c)
  {
    JoinAllDistinct(left.rows, left.columns, right, on, leftSuffix, rightSuffix);
    JoinAllDistinctRight(left.rows, left.columns, right, on, leftSuffix, rightSuffix);
  }

  /** The merge keeps row count and left cells exactly when the right join values are distinct. */
  lemma LeftJoinDistinct(left: Table, right: Table, on: string, leftSuffix: string, rightSuffix: string)
    requires on in left.columns
    ensures var r := LeftJoin(left, DistinctOn(right, on), on, leftSuffix, rightSuffix);
      && |r.rows| == |left.rows|
      && forall i, c :: 0 <= i < |left.rows| && c in left.columns - Clash(left.columns, right.columns, on) ==>
           Cell(r.rows[i], c) == Cell(left.rows[i], c)
  {
    JoinAllDistinct(left.rows, left.columns, right, on, leftSuffix, rightSuffix);
  }

  /** `df[col].notna().sum()`. */
  function NotNaCount(rows: seq<Row>, col: string): (n: nat)
    ensures n <= |rows|
  {
    if |rows| == 0 then 0 else (if Cell(rows[0], col) != Null then 1 else 0) + NotNaCount(rows[1..], col)
  }
}

=== FILE: merge_team_data.dfy ===
/**
 * The team merge of scripts/merge_team_data.py: per-member listening histories are loaded,
 * concatenated, ordered by timestamp, given numeric user ids in sorted-name order and
 * de-duplicated with one rule per record type, and count statistics are gathered.
 *
 * A pandas frame is a set of column names plus a sequence of rows; a cell of a column the
 * frame lacks, or a missing value, is `None`. Reading the CSV files is an oracle.
 */
module MergeTeamData {
  import opened Wrappers
  import Seqs
  import Text

  /** One row of a processed listening history. */
  datatype HistoryRow = HistoryRow(
    userName: string,
    trackId: Option<string>,
    timeRange: Option<string>,
    source: Option<string>,
    timestamp: Option<int>,
    userId: Option<nat>)

  datatype Frame = Frame(columns: set<string>, rows: seq<HistoryRow>)

  /** `pd.DataFrame()`. */
  function EmptyFrame(): Frame {
    Frame({}, [])
  }

  /** `df.empty`: one of the two axes has length zero. */
  predicate IsEmpty(f: Frame) {
    |f.rows| == 0 || f.columns == {}
  }

  // ---------------------------------------------------------------------------------------
  // merge_dataframes

  function ConcatRows(frames: seq<Frame>): seq<HistoryRow> {
    if |frames| == 0 then [] else frames[0].rows + ConcatRows(frames[1..])
  }

  function AllColumns(frames: seq<Frame>): set<string> {
    if |frames| == 0 then {} else frames[0].columns + AllColumns(frames[1..])
  }

  function TotalRows(frames: seq<Frame>): nat {
    if |frames| == 0 then 0 else |frames[0].rows| + TotalRows(frames[1..])
  }

  lemma {:induction false} ConcatRowsLength(frames: seq<Frame>)
    ensures |ConcatRows(frames)| == TotalRows(frames)
  {
    if |frames| > 0 {
      ConcatRowsLength(frames[1..]);
    }
  }

  predicate HasTimestamp(rows: seq<HistoryRow>) {
    exists i :: 0 <= i < |rows| && rows[i].timestamp.Some?
  }

  /** `sort_values('timestamp')` order: ascending, missing timestamps last. */
  predicate TimestampLe(a: HistoryRow, b: HistoryRow) {
    b.timestamp.None? || (a.timestamp.Some? && a.timestamp.value <= b.timestamp.value)
  }

  lemma TimestampLeTotalPreorder()
    ensures Seqs.TotalPreorder(TimestampLe)
  {
  }

  /**
   * `merge_dataframes`: nothing to merge gives the empty frame; otherwise all rows of all
   * inputs, ordered by timestamp when some row has one and in input order when none does.
   */
  function MergeDataframes(frames: seq<Frame>): (r: Frame)
    ensures frames == [] ==> r == EmptyFrame()
    ensures frames != [] ==> r.columns == AllColumns(frames)
    ensures |r.rows| == TotalRows(frames)
    ensures multiset(r.rows) == multiset(ConcatRows(frames))
    ensures frames != [] && "timestamp" in r.columns && HasTimestamp(ConcatRows(frames))
      ==> Seqs.SortedBy(r.rows, TimestampLe)
    ensures !("timestamp" in r.columns && HasTimestamp(ConcatRows(frames))) ==> r.rows == ConcatRows(frames)
  {
    if |frames| == 0 then EmptyFrame()
    else
      ConcatRowsLength(frames);
      var rows := ConcatRows(frames);
      var cols := AllColumns(frames);
      if "timestamp" in cols && HasTimestamp(rows) then
        TimestampLeTotalPreorder();
        Seqs.SortSpec(rows, TimestampLe);
        Frame(cols, Seqs.Sort(rows, TimestampLe))
      else
        Frame(cols, rows)
  }

  // ---------------------------------------------------------------------------------------
  // add_user_ids

  function UserNames(rows: seq<HistoryRow>): (names: seq<string>)
    ensures |names| == |rows|
    ensures forall i :: 0 <= i < |rows| ==> names[i] == rows[i].userName
  {
    seq(|rows|, i requires 0 <= i < |rows| => rows[i].userName)
  }

  function IndexOf(xs: seq<string>, x: string): (i: nat)
    requires x in xs
    ensures i < |xs| && xs[i] == x
    ensures forall j :: 0 <= j < i ==> xs[j] != x
  {
    if xs[0] == x then 0 else 1 + IndexOf(xs[1..], x)
  }

  /** The names in the order ids are handed out: `sorted(df['user_name'].unique())`. */
  function IdOrder(f: Frame): seq<string> {
    Text.SortedDistinct(UserNames(f.rows))
  }

  /** `add_user_ids`: user `n` of the sorted distinct names gets id `n + 1`. */
  function AddUserIds(f: Frame): (r: Frame)
    ensures "user_name" !in f.columns ==> r == f
    ensures |r.rows| == |f.rows|
  {
    if "user_name" !in f.columns then f
    else
      var users := IdOrder(f);
      Text.SortedDistinctSpec(UserNames(f.rows));
      assert forall i :: 0 <= i < |f.rows| ==> f.rows[i].userName in users by {
        forall i | 0 <= i < |f.rows| ensures f.rows[i].userName in users {
          assert UserNames(f.rows)[i] in UserNames(f.rows);
        }
      }
      Frame(f.columns + {"user_id"},
        seq(|f.rows|, i requires 0 <= i < |f.rows| =>
          f.rows[i].(userId := Some(IndexOf(users, f.rows[i].userName) + 1))))
  }

  /**
   * The ids of `add_user_ids` number the distinct names 1..k in sorted-name order: every
   * row gets the id of its own name, equal names share an id, different names never do,
   * a smaller name has a smaller id, and every id in 1..k is some name's.
   */
  lemma AddUserIdsSpec(f: Frame)
    requires "user_name" in f.columns
    ensures var r := AddUserIds(f); var users := IdOrder(f);
      && r.columns == f.columns + {"user_id"}
      && Text.StrictlySorted(users)
      && (forall x :: x in users <==> x in UserNames(f.rows))
      && (forall i :: 0 <= i < |r.rows| ==>
            && r.rows[i] == f.rows[i].(userId := r.rows[i].userId)
            && r.rows[i].userId.Some?
            && 1 <= r.rows[i].userId.value <= |users|
            && users[r.rows[i].userId.value - 1] == f.rows[i].userName)
      && (forall i, j :: 0 <= i < |r.rows| && 0 <= j < |r.rows| ==>
            (r.rows[i].userId == r.rows[j].userId <==> f.rows[i].userName == f.rows[j].userName))
      && (forall i, j :: 0 <= i < |r.rows| && 0 <= j < |r.rows| && Text.LexLess(f.rows[i].userName, f.rows[j].userName)
            ==> r.rows[i].userId.value < r.rows[j].userId.value)
  {
    Text.SortedDistinctSpec(UserNames(f.rows));
    AddUserIdsRows(f);
    AddUserIdsInjective(f);
    AddUserIdsMonotone(f);
  }

  /** Each row keeps its cells and gets the position of its name in the id order, plus one. */
  lemma AddUserIdsRows(f: Frame)
    requires "user_name" in f.columns
    ensures var r := AddUserIds(f); var users := IdOrder(f);
      forall i :: 0 <= i < |r.rows| ==>
        && r.rows[i] == f.rows[i].(userId := r.rows[i].userId)
        && r.rows[i].userId.Some?
        && 1 <= r.rows[i].userId.value <= |users|
        && users[r.rows[i].userId.value - 1] == f.rows[i].userName
  {
  }

  /** Rows share an id exactly when they share a name. */
  lemma AddUserIdsInjective(f: Frame)
    requires "user_name" in f.columns
    ensures var r := AddUserIds(f);
      forall i, j :: 0 <= i < |r.rows| && 0 <= j < |r.rows| ==>
        (r.rows[i].userId == r.rows[j].userId <==> f.rows[i].userName == f.rows[j].userName)
  {
    AddUserIdsRows(f);
  }

  /** A smaller name gets a smaller id. */
  lemma AddUserIdsMonotone(f: Frame)
    requires "user_name" in f.columns
    ensures var r := AddUserIds(f);
      forall i, j :: 0 <= i < |r.rows| && 0 <= j < |r.rows| && Text.LexLess(f.rows[i].userName, f.rows[j].userName)
        ==> r.rows[i].userId.value < r.rows[j].userId.value
  {
    var r := AddUserIds(f);
    var users := IdOrder(f);
    Text.SortedDistinctSpec(UserNames(f.rows));
    AddUserIdsRows(f);
    forall i, j | 0 <= i < |r.rows| && 0 <= j < |r.rows| && Text.LexLess(f.rows[i].userName, f.rows[j].userName)
      ensures r.rows[i].userId.value < r.rows[j].userId.value
    {
      var a, b := r.rows[i].userId.value - 1, r.rows[j].userId.value - 1;
      if b < a {
        Text.LexLessAsymmetric(users[b], users[a]);
      } else if a == b {
        Text.LexLessIrreflexive(users[a]);
      }
    }
  }

  // ---------------------------------------------------------------------------------------
  // deduplicate_tracks

  predicate IsRecentlyPlayed(r: HistoryRow) {
    r.source == Some("recently_played")
  }

  predicate IsTopTrack(r: HistoryRow) {
    r.source == Some("top_tracks")
  }

  /** The `drop_duplicates` subset of top-track rows. */
  function TopKey(r: HistoryRow): (string, Option<string>, Option<string>) {
    (r.userName, r.trackId, r.timeRange)
  }

  /** The top-track rows of `rows`, in order. */
  function TopRows(rows: seq<HistoryRow>): seq<HistoryRow> {
    Seqs.Filter(rows, IsTopTrack)
  }

  /** The `drop_duplicates` subset as column names. */
  const TopKeyColumns: set<string> := {"user_name", "track_id", "time_range"}

  /**
   * `deduplicate_tracks`: every play, then the first top-track row per (user, track, range).
   * A frame without a `source` column raises KeyError, and so does one with top-track rows
   * that lacks a column of the `drop_duplicates` subset.
   */
  function DeduplicateTracks(f: Frame): (r: Result<Frame>)
    ensures r.Err? <==> "source" !in f.columns || (TopRows(f.rows) != [] && !(TopKeyColumns <= f.columns))
    ensures r.Ok? ==> r.value.columns == f.columns && |r.value.rows| <= |f.rows|
  {
    if "source" !in f.columns then Err("KeyError: 'source'")
    else if TopRows(f.rows) != [] && !(TopKeyColumns <= f.columns) then Err("KeyError: drop_duplicates subset")
    else
      var plays := Seqs.Filter(f.rows, IsRecentlyPlayed);
      var tops := Seqs.KeepFirst(TopRows(f.rows), TopKey);
      Seqs.KeepFirstKeys(TopRows(f.rows), TopKey);
      Seqs.FilterDisjointLength(f.rows, IsRecentlyPlayed, IsTopTrack);
      Ok(Frame(f.columns, plays + tops))
  }

  /** The `duplicates_removed` figure that is reported: never negative. */
  function DuplicatesRemoved(f: Frame): (n: nat)
    requires DeduplicateTracks(f).Ok?
    ensures n == |f.rows| - |DeduplicateTracks(f).value.rows|
  {
    |f.rows| - |DeduplicateTracks(f).value.rows|
  }

  /**
   * No play is ever removed, not even an exact repeat: the plays of the output are the plays
   * of the input, in order and with multiplicity.
   */
  lemma DeduplicateKeepsPlays(f: Frame)
    requires DeduplicateTracks(f).Ok?
    ensures Seqs.Filter(DeduplicateTracks(f).value.rows, IsRecentlyPlayed) == Seqs.Filter(f.rows, IsRecentlyPlayed)
  {
    var plays := Seqs.Filter(f.rows, IsRecentlyPlayed);
    var tops := Seqs.KeepFirst(TopRows(f.rows), TopKey);
    Seqs.FilterConcat(plays, tops, IsRecentlyPlayed);
    Seqs.FilterKeepsAll(plays, IsRecentlyPlayed);
    Seqs.KeepFirstSubset(TopRows(f.rows), TopKey);
    Seqs.FilterNone(tops, IsRecentlyPlayed);
  }

  /** Only plays and top-track rows survive, and all plays come before all top-track rows. */
  lemma DeduplicateLayout(f: Frame)
    requires DeduplicateTracks(f).Ok?
    ensures var out := DeduplicateTracks(f).value.rows;
      && (forall i :: 0 <= i < |out| ==> IsRecentlyPlayed(out[i]) || IsTopTrack(out[i]))
      && (forall i, j :: 0 <= i < j < |out| && IsTopTrack(out[i]) ==> IsTopTrack(out[j]))
  {
    var plays := Seqs.Filter(f.rows, IsRecentlyPlayed);
    var kept := Seqs.KeepFirst(TopRows(f.rows), TopKey);
    Seqs.KeepFirstSubset(TopRows(f.rows), TopKey);
    assert forall i :: 0 <= i < |kept| ==> kept[i] in kept;
    assert forall i :: 0 <= i < |plays| ==> plays[i] in plays;
  }

  /** The top-track rows of the output are exactly the kept ones, after all the plays. */
  lemma DeduplicateTopRows(f: Frame)
    requires DeduplicateTracks(f).Ok?
    ensures var out := DeduplicateTracks(f).value.rows; var kept := Seqs.KeepFirst(TopRows(f.rows), TopKey);
      var np := |Seqs.Filter(f.rows, IsRecentlyPlayed)|;
      && np + |kept| == |out|
      && Seqs.Filter(out, IsTopTrack) == kept
      && (forall i :: 0 <= i < |out| && IsTopTrack(out[i]) ==> np <= i && out[i] == kept[i - np])
  {
    var plays := Seqs.Filter(f.rows, IsRecentlyPlayed);
    var kept := Seqs.KeepFirst(TopRows(f.rows), TopKey);
    var out := plays + kept;
    Seqs.KeepFirstSubset(TopRows(f.rows), TopKey);
    Seqs.FilterConcat(plays, kept, IsTopTrack);
    Seqs.FilterNone(plays, IsTopTrack);
    Seqs.FilterKeepsAll(kept, IsTopTrack);
  }

  /**
   * The top-track rows that survive share no (user, track, range) key, every key of the input
   * is kept, and each kept row is the first input row with its key, in input order.
   */
  lemma DeduplicateTopTracks(f: Frame)
    requires DeduplicateTracks(f).Ok?
    ensures var kept := Seqs.Filter(DeduplicateTracks(f).value.rows, IsTopTrack); var tops := TopRows(f.rows);
      && (forall i, j :: 0 <= i < j < |kept| ==> TopKey(kept[i]) != TopKey(kept[j]))
      && Seqs.KeySet(kept, TopKey) == Seqs.KeySet(tops, TopKey)
      && (forall i :: 0 <= i < |kept| ==>
            TopKey(kept[i]) in Seqs.KeySet(tops, TopKey) && kept[i] == tops[Seqs.FirstIndex(tops, TopKey, TopKey(kept[i]))])
      && (forall i, j :: 0 <= i < j < |kept| ==>
            Seqs.FirstIndex(tops, TopKey, TopKey(kept[i])) < Seqs.FirstIndex(tops, TopKey, TopKey(kept[j])))
  {
    DeduplicateTopRows(f);
    Seqs.KeepFirstSpec(TopRows(f.rows), TopKey);
  }

  // ---------------------------------------------------------------------------------------
  // Statistics and loading

  /** `per_user[name]`. */
  datatype UserStats = UserStats(totalTracks: nat, uniqueTracks: nat, plays: nat)

  /** What reading one member's CSV gives: no file, an exception, or a frame. */
  datatype LoadOutcome = Missing | Failed(message: string) | Loaded(frame: Frame)

  /** `df['track_id'].nunique()`: distinct non-missing track ids. */
  function DistinctTracks(rows: seq<HistoryRow>): set<string> {
    set i | 0 <= i < |rows| && rows[i].trackId.Some? :: rows[i].trackId.value
  }

  /** `df[df['timestamp'].notna()].shape[0]`. */
  function Plays(rows: seq<HistoryRow>): (n: nat)
    ensures n <= |rows|
  {
    if |rows| == 0 then 0 else (if rows[0].timestamp.Some? then 1 else 0) + Plays(rows[1..])
  }

  /** `df[df['user_name'] == user]`. */
  function RowsOf(rows: seq<HistoryRow>, user: string): (r: seq<HistoryRow>)
    ensures |r| <= |rows|
    ensures forall x :: x in r ==> x in rows && x.userName == user
  {
    if |rows| == 0 then []
    else (if rows[0].userName == user then [rows[0]] else []) + RowsOf(rows[1..], user)
  }

  function StatsFor(rows: seq<HistoryRow>, user: string, hasTimestamp: bool): UserStats {
    var mine := RowsOf(rows, user);
    UserStats(|mine|, |DistinctTracks(mine)|, if hasTimestamp then Plays(mine) else 0)
  }

  /** Sum of the per-user row counts over `users`. */
  function SumTotals(rows: seq<HistoryRow>, users: seq<string>): nat {
    if |users| == 0 then 0 else |RowsOf(rows, users[0])| + SumTotals(rows, users[1..])
  }

  predicate Distinct(users: seq<string>) {
    forall i, j :: 0 <= i < j < |users| ==> users[i] != users[j]
  }

  lemma {:induction false} SumTotalsStep(rows: seq<HistoryRow>, users: seq<string>)
    requires |rows| > 0
    requires Distinct(users)
    ensures SumTotals(rows, users) == SumTotals(rows[1..], users) + (if rows[0].userName in users then 1 else 0)
  {
    if |users| > 0 {
      SumTotalsStep(rows, users[1..]);
      assert users == [users[0]] + users[1..];
      if rows[0].userName == users[0] {
        assert rows[0].userName !in users[1..];
      }
    }
  }

  /** Over distinct users that cover every row, the per-user counts add up to all rows. */
  lemma {:induction false} SumTotalsCover(rows: seq<HistoryRow>, users: seq<string>)
    requires Distinct(users)
    requires forall i :: 0 <= i < |rows| ==> rows[i].userName in users
    ensures SumTotals(rows, users) == |rows|
  {
    if |rows| == 0 {
      SumTotalsEmpty(users);
    } else {
      SumTotalsStep(rows, users);
      SumTotalsCover(rows[1..], users);
    }
  }

  lemma {:induction false} SumTotalsEmpty(users: seq<string>)
    ensures SumTotals([], users) == 0
  {
    if |users| > 0 {
      SumTotalsEmpty(users[1..]);
    }
  }

  /** `per_user` once the loop has gone through `users`. */
  function PerUserMap(rows: seq<HistoryRow>, users: seq<string>, hasTimestamp: bool): map<string, UserStats> {
    map u | u in users :: StatsFor(rows, u, hasTimestamp)
  }

  lemma PerUserMapAppend(rows: seq<HistoryRow>, users: seq<string>, u: string, hasTimestamp: bool)
    ensures PerUserMap(rows, users + [u], hasTimestamp) == PerUserMap(rows, users, hasTimestamp)[u := StatsFor(rows, u, hasTimestamp)]
  {
    var m1 := PerUserMap(rows, users + [u], hasTimestamp);
    var m2 := PerUserMap(rows, users, hasTimestamp)[u := StatsFor(rows, u, hasTimestamp)];
    assert m1.Keys == m2.Keys;
  }

  /** The users of `per_user`, in `df['user_name'].unique()` order. */
  function StatsUsers(rows: seq<HistoryRow>): seq<string> {
    Seqs.Unique(UserNames(rows))
  }

  /** The per-user `total_tracks` figures add up to the overall `total_tracks`. */
  lemma PerUserTotalsSum(rows: seq<HistoryRow>)
    ensures SumTotals(rows, StatsUsers(rows)) == |rows|
  {
    var names := UserNames(rows);
    Seqs.UniqueSpec(names);
    forall i | 0 <= i < |rows| ensures rows[i].userName in StatsUsers(rows) {
      assert names[i] in names;
    }
    SumTotalsCover(rows, StatsUsers(rows));
  }

  /** The outcomes of the members, in order, that `load_all_team_data` keeps. */
  predicate Kept(o: LoadOutcome) {
    o.Loaded? && !IsEmpty(o.frame)
  }

  function LoadedFrames(names: seq<string>, load: string -> LoadOutcome): seq<Frame> {
    if |names| == 0 then []
    else
      var last := load(names[|names| - 1]);
      LoadedFrames(names[..|names| - 1], load) + (if Kept(last) then [last.frame] else [])
  }

  function ProcessedNames(names: seq<string>, load: string -> LoadOutcome): seq<string> {
    if |names| == 0 then []
    else
      var n := names[|names| - 1];
      ProcessedNames(names[..|names| - 1], load) + (if Kept(load(n)) then [n] else [])
  }

  function LoadErrorMessage(user: string, message: string): string {
    "Error loading data for " + user + ": " + message
  }

  function LoadErrors(names: seq<string>, load: string -> LoadOutcome): seq<string> {
    if |names| == 0 then []
    else
      var n := names[|names| - 1];
      LoadErrors(names[..|names| - 1], load)
        + (if load(n).Failed? then [LoadErrorMessage(n, load(n).message)] else [])
  }

  /** Whether `load_all_team_data` keeps the member `n`. */
  function KeptUnder(load: string -> LoadOutcome): string -> bool {
    n => Kept(load(n))
  }

  /** Whether reading the member `n` raised. */
  function FailedUnder(load: string -> LoadOutcome): string -> bool {
    n => load(n).Failed?
  }

  /**
   * `members_processed` lists exactly the members whose frame loaded non-empty, in load
   * order, side by side with the frames returned; missing files, failures and empty files
   * are skipped.
   */
  lemma {:induction false} LoadedFramesSpec(names: seq<string>, load: string -> LoadOutcome)
    ensures var fs := LoadedFrames(names, load); var ns := ProcessedNames(names, load);
      && ns == Seqs.Filter(names, KeptUnder(load))
      && |fs| == |ns|
      && (forall j :: 0 <= j < |ns| ==> load(ns[j]) == Loaded(fs[j]) && !IsEmpty(fs[j]))
  {
    if |names| > 0 {
      var init := names[..|names| - 1];
      var last := names[|names| - 1];
      LoadedFramesSpec(init, load);
      assert names == init + [last];
      Seqs.FilterConcat(init, [last], KeptUnder(load));
    }
  }

  /** The load errors are one message per member whose read raised, in load order. */
  lemma {:induction false} LoadErrorsSpec(names: seq<string>, load: string -> LoadOutcome)
    ensures var failed := Seqs.Filter(names, FailedUnder(load)); var es := LoadErrors(names, load);
      && |es| == |failed|
      && (forall j :: 0 <= j < |failed| ==> load(failed[j]).Failed?)
      && (forall j :: 0 <= j < |es| ==> es[j] == LoadErrorMessage(failed[j], load(failed[j]).message))
  {
    var failed := Seqs.Filter(names, FailedUnder(load));
    if |names| > 0 {
      var init := names[..|names| - 1];
      var last := names[|names| - 1];
      LoadErrorsSpec(init, load);
      assert names == init + [last];
      Seqs.FilterConcat(init, [last], FailedUnder(load));
      assert Seqs.Filter([last], FailedUnder(load)) == if load(last).Failed? then [last] else [];
      assert LoadErrors(names, load) == LoadErrors(init, load)
        + (if load(last).Failed? then [LoadErrorMessage(last, load(last).message)] else []);
    }
    forall j | 0 <= j < |failed| ensures load(failed[j]).Failed? {
      assert failed[j] in failed;
    }
  }

  /** The count figures of `self.stats`: totals, distinct tracks, plays and `per_user`. */
  datatype Figures = Figures(
    totalTracks: nat,
    uniqueTracks: nat,
    totalPlays: nat,
    perUser: map<string, UserStats>,
    perUserOrder: seq<string>)

  /**
   * The figures `calculate_statistics` leaves after running on `df` over the figures
   * `before`: a missing `track_id` raises after `total_tracks` was stored, and a missing
   * `user_name` after every figure up to the emptied `per_user`.
   */
  function StatisticsAfter(df: Frame, before: Figures): Figures {
    if "track_id" !in df.columns then before.(totalTracks := |df.rows|)
    else
      var hasTimestamp := "timestamp" in df.columns;
      var counted := Figures(|df.rows|, |DistinctTracks(df.rows)|,
        if hasTimestamp then Plays(df.rows) else before.totalPlays, map[], []);
      if "user_name" !in df.columns then counted
      else counted.(perUser := PerUserMap(df.rows, StatsUsers(df.rows), hasTimestamp), perUserOrder := StatsUsers(df.rows))
  }

  /**
   * What the figures mean: all rows, the distinct track ids, the timestamped rows when there
   * is a timestamp column (otherwise the earlier figure), and one `per_user` entry per user
   * in order of appearance whose `total_tracks` add up to the overall `total_tracks`.
   */
  lemma StatisticsAfterSpec(df: Frame, before: Figures)
    ensures var after := StatisticsAfter(df, before);
      && after.totalTracks == |df.rows|
      && ("track_id" in df.columns ==> after.uniqueTracks == |DistinctTracks(df.rows)|)
      && ("track_id" !in df.columns ==> after.uniqueTracks == before.uniqueTracks && after.perUser == before.perUser)
      && after.totalPlays == (if "track_id" in df.columns && "timestamp" in df.columns then Plays(df.rows) else before.totalPlays)
      && (after.totalPlays <= after.totalTracks || after.totalPlays == before.totalPlays)
      && ("track_id" in df.columns && "user_name" in df.columns ==>
            && (forall u :: u in after.perUser <==> u in UserNames(df.rows))
            && (forall u :: u in after.perUser ==> after.perUser[u] == StatsFor(df.rows, u, "timestamp" in df.columns))
            && SumTotals(df.rows, after.perUserOrder) == after.totalTracks)
  {
    Seqs.UniqueSpec(UserNames(df.rows));
    PerUserTotalsSum(df.rows);
  }

  /** The merge statistics and the bookkeeping of `TeamDataMerger`. */
  class TeamDataMerger {
    var membersProcessed: seq<string>
    var errors: seq<string>
    var totalTracks: nat
    var uniqueTracks: nat
    var totalPlays: nat
    var perUser: map<string, UserStats>
    var perUserOrder: seq<string>

    constructor ()
      ensures membersProcessed == [] && errors == []
      ensures totalTracks == 0 && uniqueTracks == 0 && totalPlays == 0
      ensures perUser == map[] && perUserOrder == []
    {
      membersProcessed := [];
      errors := [];
      totalTracks := 0;
      uniqueTracks := 0;
      totalPlays := 0;
      perUser := map[];
      perUserOrder := [];
    }

    /** The count figures held now. */
    function Counted(): Figures
      reads this
    {
      Figures(totalTracks, uniqueTracks, totalPlays, perUser, perUserOrder)
    }

    /**
     * `load_all_team_data`: the named members, or when none are named every member with a
     * file in the listing; each non-empty frame is kept and its member recorded, and each
     * failed read adds one error.
     */
    method LoadAllTeamData(members: seq<string>, listing: seq<string>, load: string -> LoadOutcome)
      returns (frames: seq<Frame>)
      modifies this
      ensures var names := if |members| > 0 then members else listing;
        && frames == LoadedFrames(names, load)
        && membersProcessed == old(membersProcessed) + ProcessedNames(names, load)
        && errors == old(errors) + LoadErrors(names, load)
      ensures totalTracks == old(totalTracks) && uniqueTracks == old(uniqueTracks) && totalPlays == old(totalPlays)
      ensures perUser == old(perUser) && perUserOrder == old(perUserOrder)
    {
      var names := if |members| > 0 then members else listing;
      frames := [];
      var i := 0;
      while i < |names|
        invariant 0 <= i <= |names|
        invariant frames == LoadedFrames(names[..i], load)
        invariant membersProcessed == old(membersProcessed) + ProcessedNames(names[..i], load)
        invariant errors == old(errors) + LoadErrors(names[..i], load)
        invariant totalTracks == old(totalTracks) && uniqueTracks == old(uniqueTracks) && totalPlays == old(totalPlays)
        invariant perUser == old(perUser) && perUserOrder == old(perUserOrder)
      {
        var user := names[i];
        assert names[..i + 1][..i] == names[..i];
        var outcome := load(user);
        match outcome {
          case Missing =>
          case Failed(message) =>
            errors := errors + [LoadErrorMessage(user, message)];
          case Loaded(df) =>
            if !IsEmpty(df) {
              frames := frames + [df];
              membersProcessed := membersProcessed + [user];
            }
        }
        i := i + 1;
      }
      assert names[..i] == names;
    }

    /**
     * The count part of `calculate_statistics`. A frame without `track_id` or `user_name`
     * raises KeyError part way, after the figures computed before that point were stored.
     */
    method CalculateStatistics(df: Frame) returns (outcome: Result<()>)
      modifies this
      ensures outcome.Err? <==> "track_id" !in df.columns || "user_name" !in df.columns
      ensures Counted() == StatisticsAfter(df, old(Counted()))
      ensures membersProcessed == old(membersProcessed) && errors == old(errors)
    {
      totalTracks := |df.rows|;
      if "track_id" !in df.columns {
        return Err("KeyError: 'track_id'");
      }
      uniqueTracks := |DistinctTracks(df.rows)|;
      var hasTimestamp := "timestamp" in df.columns;
      if hasTimestamp {
        totalPlays := Plays(df.rows);
      }
      perUser := map[];
      perUserOrder := [];
      if "user_name" !in df.columns {
        return Err("KeyError: 'user_name'");
      }
      FillPerUser(df.rows, hasTimestamp);
      outcome := Ok(());
    }

    /** The per-user loop of `calculate_statistics`: one entry per user, in order of appearance. */
    method FillPerUser(rows: seq<HistoryRow>, hasTimestamp: bool)
      modifies this`perUser, this`perUserOrder
      ensures perUserOrder == StatsUsers(rows)
      ensures perUser == PerUserMap(rows, perUserOrder, hasTimestamp)
    {
      var users := StatsUsers(rows);
      perUser := map[];
      perUserOrder := [];
      var i := 0;
      while i < |users|
        invariant 0 <= i <= |users|
        invariant perUserOrder == users[..i]
        invariant perUser == PerUserMap(rows, users[..i], hasTimestamp)
      {
        assert users[..i + 1] == users[..i] + [users[i]];
        PerUserMapAppend(rows, users[..i], users[i], hasTimestamp);
        perUser := perUser[users[i] := StatsFor(rows, users[i], hasTimestamp)];
        perUserOrder := perUserOrder + [users[i]];
        i := i + 1;
      }
      assert users[..i] == users;
    }

    /**
     * What `_print_summary` and `_print_data_quality_report` can raise. The summary reads
     * the `per_user` entry of every processed member in order, so the first member without
     * one raises KeyError; the quality report then reads the `timestamp` column unguarded.
     * The printed text itself is not modelled.
     */
    method PrintSummary(df: Frame) returns (outcome: Result<()>)
      ensures outcome.Err? <==> (exists u :: u in membersProcessed && u !in perUser) || "timestamp" !in df.columns
      ensures (forall u :: u in membersProcessed ==> u in perUser) && outcome.Err? ==> outcome.error == "KeyError: 'timestamp'"
      ensures outcome.Err? && outcome.error != "KeyError: 'timestamp'" ==>
        exists i :: 0 <= i < |membersProcessed| && membersProcessed[i] !in perUser
          && (forall j :: 0 <= j < i ==> membersProcessed[j] in perUser)
          && outcome.error == "KeyError: '" + membersProcessed[i] + "'"
    {
      var i := 0;
      while i < |membersProcessed|
        invariant 0 <= i <= |membersProcessed|
        invariant forall j :: 0 <= j < i ==> membersProcessed[j] in perUser
      {
        if membersProcessed[i] !in perUser {
          return Err("KeyError: '" + membersProcessed[i] + "'");
        }
        i := i + 1;
      }
      if "timestamp" !in df.columns {
        return Err("KeyError: 'timestamp'");
      }
      outcome := Ok(());
    }

    /**
     * `merge_and_save` without the file writes: load, then merge, number the users,
     * de-duplicate and gather the statistics; nothing loaded gives the empty frame and
     * leaves the figures alone. A KeyError of the de-duplication or of the statistics ends
     * the run, the latter after the figures computed before it were stored; a KeyError of
     * the summary printers ends it after the figures (and both files) were written.
     */
    method MergeAndSave(members: seq<string>, listing: seq<string>, load: string -> LoadOutcome)
      returns (merged: Result<Frame>)
      modifies this
      ensures var names := if |members| > 0 then members else listing;
        && membersProcessed == old(membersProcessed) + ProcessedNames(names, load)
        && errors == old(errors) + LoadErrors(names, load)
      ensures var frames := LoadedFrames(if |members| > 0 then members else listing, load);
        && (frames == [] ==> merged == Ok(EmptyFrame()) && Counted() == old(Counted()))
        && (frames != [] ==>
              var deduped := DeduplicateTracks(AddUserIds(MergeDataframes(frames)));
              && (merged.Err? <==>
                    || deduped.Err? || "track_id" !in deduped.value.columns || "user_name" !in deduped.value.columns
                    || (exists u :: u in membersProcessed && u !in perUser) || "timestamp" !in deduped.value.columns)
              && (merged.Ok? ==> merged == deduped)
              && Counted() == if deduped.Ok? then StatisticsAfter(deduped.value, old(Counted())) else old(Counted()))
    {
      var frames := LoadAllTeamData(members, listing, load);
      if |frames| == 0 {
        return Ok(EmptyFrame());
      }
      var df := MergeDataframes(frames);
      df := AddUserIds(df);
      merged := DeduplicateTracks(df);
      if merged.Ok? {
        var stats := CalculateStatistics(merged.value);
        if stats.Err? {
          merged := Err(stats.error);
        } else {
          var printed := PrintSummary(merged.value);
          if printed.Err? {
            merged := Err(printed.error);
          }
        }
      }
    }
  }
}

=== FILE: s3_storage.dfy ===
/**
 * The object-store side of app/func/s3_storage.py: the guards of an upload, listing a user's
 * snapshot files newest first, and loading the archive of one data type (key filter, skipped
 * downloads, keep-first de-duplication).
 *
 * A listing is given as its outcome: the sequence of the store's object keys, a
 * `ClientError`, or any other exception the client raises. A download is a function from key
 * to an optional frame (None for a missing object or any download failure), a put a
 * function reporting success; a missing client is a flag.
 */
module S3Storage {
  import opened Wrappers
  import opened Frames
  import Seqs
  import Text

  /** What one upload did: whether it reached the store, and its reported success. */
  datatype UploadOutcome = UploadOutcome(attempted: bool, ok: bool)

  /**
   * `upload_dataframe_to_s3`: an empty frame or a missing client returns False before the
   * store is touched; otherwise the result is what the put reports.
   */
  function UploadDataframeToS3(t: Table, bucket: string, key: string, hasClient: bool,
                               put: (string, string, Table) -> bool): (r: UploadOutcome)
    ensures IsEmpty(t) || !hasClient ==> !r.attempted
    ensures r.ok ==> r.attempted
    ensures r.attempted ==> (r.ok <==> put(bucket, key, t))
    ensures !IsEmpty(t) && hasClient ==> r.attempted
  {
    if IsEmpty(t) then UploadOutcome(false, false)
    else if !hasClient then UploadOutcome(false, false)
    else UploadOutcome(true, put(bucket, key, t))
  }

  /**
   * What one `list_objects_v2` call did: the stored keys it saw (an empty store stands for a
   * response without 'Contents'), a `ClientError`, or another exception with its text (a
   * botocore error such as a network failure or missing credentials).
   */
  datatype Listing = Listed(stored: seq<string>) | ClientFailed | OtherFailed(error: string)

  /** The folder of a user's snapshot files. */
  function UserPrefix(userId: string): string {
    "users/" + userId + "/snapshots/"
  }

  /** `list_objects_v2(Prefix=prefix)`: the stored keys under the prefix, in listing order. */
  function ListedUnder(store: seq<string>, prefix: string): (keys: seq<string>)
    ensures forall k :: k in keys <==> k in store && Text.StartsWith(k, prefix)
  {
    if |store| == 0 then []
    else
      var init := store[..|store| - 1];
      var k := store[|store| - 1];
      assert forall x :: x in store <==> x in init || x == k;
      ListedUnder(init, prefix) + (if Text.StartsWith(k, prefix) then [k] else [])
  }

  /** Descending Python string order, ties allowed. */
  predicate DescLe(a: string, b: string) {
    a == b || Text.LexLess(b, a)
  }

  lemma DescLeTotalPreorder()
    ensures Seqs.TotalPreorder(DescLe)
  {
    forall a, b ensures DescLe(a, b) || DescLe(b, a) {
      Text.LexLessTotal(a, b);
    }
    forall a, b, c | DescLe(a, b) && DescLe(b, c) ensures DescLe(a, c) {
      if a != b && b != c {
        Text.LexLessTransitive(c, b, a);
      }
    }
  }

  /**
   * `list_user_snapshots`: no client or a `ClientError` gives []; any other exception of the
   * listing escapes; otherwise the keys under `users/{uid}/snapshots/`, sorted in descending
   * order.
   */
  function ListUserSnapshots(hasClient: bool, listing: Listing, userId: string): (r: Result<seq<string>>)
    ensures r.Err? <==> hasClient && listing.OtherFailed?
    ensures r.Err? ==> r.error == listing.error
    ensures !hasClient || listing.ClientFailed? ==> r == Ok([])
    ensures r.Ok? ==> forall k :: k in r.value ==> Text.StartsWith(k, UserPrefix(userId))
  {
    if !hasClient then Ok([])
    else match listing
      case ClientFailed => Ok([])
      case OtherFailed(e) => Err(e)
      case Listed(store) =>
        var listed := ListedUnder(store, UserPrefix(userId));
        var keys := Seqs.Sort(listed, DescLe);
        DescLeTotalPreorder();
        Seqs.SortSpec(listed, DescLe);
        assert forall k :: k in keys ==> k in multiset(listed);
        Ok(keys)
  }

  /**
   * The listing holds exactly the user's stored keys, each as often as it is stored, newest
   * (greatest) first.
   */
  lemma ListUserSnapshotsSpec(store: seq<string>, userId: string)
    ensures var keys := ListUserSnapshots(true, Listed(store), userId).value;
      && Seqs.SortedBy(keys, DescLe)
      && multiset(keys) == multiset(ListedUnder(store, UserPrefix(userId)))
      && (forall k :: k in keys <==> k in store && Text.StartsWith(k, UserPrefix(userId)))
  {
    DescLeTotalPreorder();
    var listed := ListedUnder(store, UserPrefix(userId));
    Seqs.SortSpec(listed, DescLe);
    var keys := ListUserSnapshots(true, Listed(store), userId).value;
    forall k ensures k in keys <==> k in listed {
      assert k in keys <==> k in multiset(keys);
      assert k in listed <==> k in multiset(listed);
    }
  }

  // ---------------------------------------------------------------------------------------
  // load_all_user_data

  /** The de-duplication key of the archive: (track_id, snapshot_timestamp). */
  function TrackSnapshot(row: Row): (Value, Value) {
    (Cell(row, "track_id"), Cell(row, "snapshot_timestamp"))
  }

  predicate HasTypeTag(dataType: string, key: string) {
    Text.Contains(key, dataType)
  }

  /** `[k for k in keys if data_type in k]`. */
  function MatchingKeys(keys: seq<string>, dataType: string): seq<string> {
    Seqs.Filter(keys, k => HasTypeTag(dataType, k))
  }

  /** The non-empty frames the downloads of `keys` return, in key order. */
  function Downloaded(keys: seq<string>, download: string -> Option<Table>): (dfs: seq<Table>)
    ensures forall t :: t in dfs ==> !IsEmpty(t) && exists k :: k in keys && download(k) == Some(t)
  {
    if |keys| == 0 then []
    else
      var init := keys[..|keys| - 1];
      var k := keys[|keys| - 1];
      var df := download(k);
      assert forall x :: x in init ==> x in keys;
      Downloaded(init, download) + (if df.Some? && !IsEmpty(df.value) then [df.value] else [])
  }

  /** The concatenation, de-duplicated on (track_id, snapshot_timestamp) when both exist. */
  function Combine(dfs: seq<Table>): Table {
    var combined := Concat(dfs);
    if "track_id" in combined.columns && "snapshot_timestamp" in combined.columns then
      Table(combined.columns, Seqs.KeepFirst(combined.rows, TrackSnapshot))
    else combined
  }

  /** What `load_all_user_data` returns for a store listing under the user's folder. */
  function LoadResult(listed: seq<string>, dataType: string, download: string -> Option<Table>): Table {
    var keys := MatchingKeys(listed, dataType);
    if keys == [] then EmptyTable()
    else
      var dfs := Downloaded(keys, download);
      if dfs == [] then EmptyTable() else Combine(dfs)
  }

  /**
   * `load_all_user_data`: no client or a failed listing (of any kind, as the broad `except`
   * catches every exception) gives an empty frame; otherwise the
   * files under the user's folder whose key contains `dataType` are downloaded in listing
   * order, failed and empty downloads are skipped, and the rest are concatenated and
   * de-duplicated.
   */
  method LoadAllUserData(hasClient: bool, listing: Listing, userId: string, dataType: string,
                         download: string -> Option<Table>)
    returns (t: Table)
    ensures !hasClient || !listing.Listed? ==> t == EmptyTable()
    ensures hasClient && listing.Listed? ==> t == LoadResult(ListedUnder(listing.stored, UserPrefix(userId)), dataType, download)
  {
    if !hasClient || !listing.Listed? {
      return EmptyTable();
    }
    var listed := ListedUnder(listing.stored, UserPrefix(userId));
    var keys := MatchingKeys(listed, dataType);
    if keys == [] {
      return EmptyTable();
    }
    var dfs: seq<Table> := [];
    var i := 0;
    while i < |keys|
      invariant 0 <= i <= |keys|
      invariant dfs == Downloaded(keys[..i], download)
    {
      assert keys[..i + 1][..i] == keys[..i];
      var df := download(keys[i]);
      if df.Some? && !IsEmpty(df.value) {
        dfs := dfs + [df.value];
      }
      i := i + 1;
    }
    assert keys[..i] == keys;
    if dfs == [] {
      return EmptyTable();
    }
    t := Combine(dfs);
  }

  /** When no stored key of the user contains the data type, the result is empty. */
  lemma LoadNothingMatches(listed: seq<string>, dataType: string, download: string -> Option<Table>)
    requires forall k :: k in listed ==> !HasTypeTag(dataType, k)
    ensures LoadResult(listed, dataType, download) == EmptyTable()
  {
    Seqs.FilterNone(listed, k => HasTypeTag(dataType, k));
  }

  /** When every download fails or is empty, the result is empty. */
  lemma LoadNothingDownloaded(listed: seq<string>, dataType: string, download: string -> Option<Table>)
    requires forall k :: k in listed ==> download(k).None? || IsEmpty(download(k).value)
    ensures LoadResult(listed, dataType, download) == EmptyTable()
  {
    NoneDownloaded(MatchingKeys(listed, dataType), download);
  }

  lemma {:induction false} NoneDownloaded(keys: seq<string>, download: string -> Option<Table>)
    requires forall k :: k in keys ==> download(k).None? || IsEmpty(download(k).value)
    ensures Downloaded(keys, download) == []
  {
    if |keys| > 0 {
      assert keys[|keys| - 1] in keys;
      NoneDownloaded(keys[..|keys| - 1], download);
    }
  }

  /**
   * Every row loaded comes from a non-empty download of a stored key that contains the data
   * type; and when both key columns exist, no two rows share (track_id, snapshot_timestamp)
   * and each kept row is the first one with its pair.
   */
  lemma LoadResultSpec(listed: seq<string>, dataType: string, download: string -> Option<Table>)
    ensures var t := LoadResult(listed, dataType, download);
      forall row :: row in t.rows ==> exists k, df :: k in listed && HasTypeTag(dataType, k) && download(k) == Some(df) && row in df.rows
    ensures var t := LoadResult(listed, dataType, download);
      "track_id" in t.columns && "snapshot_timestamp" in t.columns ==>
        forall i, j :: 0 <= i < j < |t.rows| ==> TrackSnapshot(t.rows[i]) != TrackSnapshot(t.rows[j])
  {
    var keys := MatchingKeys(listed, dataType);
    if keys != [] {
      var dfs := Downloaded(keys, download);
      if dfs != [] {
        var combined := Concat(dfs);
        ConcatRowsFrom(dfs);
        Seqs.KeepFirstSubset(combined.rows, TrackSnapshot);
        Seqs.KeepFirstSpec(combined.rows, TrackSnapshot);
        var t := LoadResult(listed, dataType, download);
        forall row | row in t.rows
          ensures exists k, df :: k in listed && HasTypeTag(dataType, k) && download(k) == Some(df) && row in df.rows
        {
          assert row in combined.rows;
          var df :| df in dfs && row in df.rows;
          var k :| k in keys && download(k) == Some(df);
        }
      }
    }
  }

  /** Within one snapshot, a track played twice is kept once: the first of its rows. */
  lemma LoadKeepsFirstPerSnapshot(dfs: seq<Table>)
    requires "track_id" in Concat(dfs).columns && "snapshot_timestamp" in Concat(dfs).columns
    ensures var rows := Concat(dfs).rows;
      var kept := Combine(dfs).rows;
      && Seqs.KeySet(kept, TrackSnapshot) == Seqs.KeySet(rows, TrackSnapshot)
      && (forall j :: 0 <= j < |kept| ==>
            && TrackSnapshot(kept[j]) in Seqs.KeySet(rows, TrackSnapshot)
            && kept[j] == rows[Seqs.FirstIndex(rows, TrackSnapshot, TrackSnapshot(kept[j]))])
  {
    Seqs.KeepFirstSpec(Concat(dfs).rows, TrackSnapshot);
  }
}

=== FILE: seqs.dfy ===
/**
 * Sequence operations shared by several parts of the data path: slicing a list into
 * fixed-size batches (`for i in range(0, len(xs), n): xs[i:i+n]`), filtering and counting,
 * pandas' `drop_duplicates(keep='first')` / `Series.unique()`, and a stable sort.
 */
module Seqs {

  function Flatten<T>(xss: seq<seq<T>>): seq<T> {
    if |xss| == 0 then [] else xss[0] + Flatten(xss[1..])
  }

  /** `[xs[i:i + size] for i in range(0, len(xs), size)]`. */
  function Batches<T>(xs: seq<T>, size: nat): seq<seq<T>>
    requires size > 0
    decreases |xs|
  {
    if |xs| == 0 then []
    else if |xs| <= size then [xs]
    else [xs[..size]] + Batches(xs[size..], size)
  }

  /**
   * The batches are consecutive slices that cover the list in order: concatenated they give
   * the list back, none is empty, none is longer than `size`, and every batch but the last
   * is full.
   */
  lemma {:induction false} BatchesCover<T>(xs: seq<T>, size: nat)
    requires size > 0
    ensures Flatten(Batches(xs, size)) == xs
    ensures forall i :: 0 <= i < |Batches(xs, size)| ==> 0 < |Batches(xs, size)[i]| <= size
    ensures forall i :: 0 <= i < |Batches(xs, size)| - 1 ==> |Batches(xs, size)[i]| == size
    ensures xs == [] <==> Batches(xs, size) == []
    decreases |xs|
  {
    if |xs| > size {
      BatchesCover(xs[size..], size);
      var bs := Batches(xs, size);
      assert bs == [xs[..size]] + Batches(xs[size..], size);
      assert bs[1..] == Batches(xs[size..], size);
      assert xs[..size] + xs[size..] == xs;
    }
  }

  /** `[x for x in xs if p(x)]`. */
  function Filter<T(==)>(xs: seq<T>, p: T -> bool): (r: seq<T>)
    ensures |r| <= |xs|
    ensures forall x :: x in r ==> x in xs && p(x)
  {
    if |xs| == 0 then [] else (if p(xs[0]) then [xs[0]] else []) + Filter(xs[1..], p)
  }

  /** An element survives the filter exactly when it is in the list and satisfies the condition. */
  lemma {:induction false} FilterSpec<T>(xs: seq<T>, p: T -> bool)
    ensures forall x :: x in Filter(xs, p) <==> x in xs && p(x)
  {
    if |xs| > 0 {
      FilterSpec(xs[1..], p);
      assert xs == [xs[0]] + xs[1..];
    }
  }

  lemma {:induction false} FilterConcat<T>(a: seq<T>, b: seq<T>, p: T -> bool)
    ensures Filter(a + b, p) == Filter(a, p) + Filter(b, p)
  {
    if |a| == 0 {
      assert a + b == b;
    } else {
      assert (a + b)[0] == a[0];
      assert (a + b)[1..] == a[1..] + b;
      FilterConcat(a[1..], b, p);
    }
  }

  lemma {:induction false} FilterKeepsAll<T>(xs: seq<T>, p: T -> bool)
    requires forall x :: x in xs ==> p(x)
    ensures Filter(xs, p) == xs
  {
    if |xs| > 0 {
      FilterKeepsAll(xs[1..], p);
    }
  }

  /** Elements that no filter keeps are dropped entirely. */
  lemma {:induction false} FilterNone<T>(xs: seq<T>, p: T -> bool)
    requires forall x :: x in xs ==> !p(x)
    ensures Filter(xs, p) == []
  {
    if |xs| > 0 {
      FilterNone(xs[1..], p);
    }
  }

  /** `xs` is listed in strictly increasing `rank`. */
  predicate RankOrdered<T>(xs: seq<T>, rank: T -> int) {
    forall i, j :: 0 <= i < j < |xs| ==> rank(xs[i]) < rank(xs[j])
  }

  /** No element of `xs` occurs twice. */
  predicate NoRepeats<T(==)>(xs: seq<T>) {
    forall i, j :: 0 <= i < j < |xs| ==> xs[i] != xs[j]
  }

  /** Filtering keeps the relative order: a list ordered by `rank` stays ordered by it. */
  lemma {:induction false} FilterKeepsRankOrder<T>(xs: seq<T>, p: T -> bool, rank: T -> int)
    requires RankOrdered(xs, rank)
    ensures RankOrdered(Filter(xs, p), rank)
  {
    if |xs| > 0 {
      FilterKeepsRankOrder(xs[1..], p, rank);
      var rest := Filter(xs[1..], p);
      forall x | x in rest ensures rank(xs[0]) < rank(x) {
        var k :| 0 <= k < |xs[1..]| && xs[1..][k] == x;
        assert xs[k + 1] == x;
      }
      if p(xs[0]) {
        var r := Filter(xs, p);
        assert r == [xs[0]] + rest;
        forall i, j | 0 <= i < j < |r| ensures rank(r[i]) < rank(r[j]) {
          assert r[j] == rest[j - 1];
          if i > 0 {
            assert r[i] == rest[i - 1];
          } else {
            assert rest[j - 1] in rest;
          }
        }
      }
    }
  }

  /** Filtering a list without repetitions gives a list without repetitions. */
  lemma {:induction false} FilterDistinct<T>(xs: seq<T>, p: T -> bool)
    requires NoRepeats(xs)
    ensures NoRepeats(Filter(xs, p))
  {
    if |xs| > 0 {
      FilterDistinct(xs[1..], p);
      var rest := Filter(xs[1..], p);
      forall x | x in rest ensures x != xs[0] {
        var k :| 0 <= k < |xs[1..]| && xs[1..][k] == x;
        assert xs[k + 1] == x;
      }
      if p(xs[0]) {
        var r := Filter(xs, p);
        assert r == [xs[0]] + rest;
        forall i, j | 0 <= i < j < |r| ensures r[i] != r[j] {
          assert r[j] == rest[j - 1];
          if i > 0 {
            assert r[i] == rest[i - 1];
          } else {
            assert rest[j - 1] in rest;
          }
        }
      }
    }
  }

  /** Two filters with disjoint conditions together keep at most the whole list. */
  lemma {:induction false} FilterDisjointLength<T>(xs: seq<T>, p: T -> bool, q: T -> bool)
    requires forall x :: x in xs ==> !(p(x) && q(x))
    ensures |Filter(xs, p)| + |Filter(xs, q)| <= |xs|
  {
    if |xs| > 0 {
      FilterDisjointLength(xs[1..], p, q);
    }
  }

  /** `sum(1 for x in xs if p(x))`. */
  function Count<T(==)>(xs: seq<T>, p: T -> bool): nat {
    |Filter(xs, p)|
  }

  /** The set of keys that occur in `xs`. */
  function KeySet<T, K(==)>(xs: seq<T>, key: T -> K): set<K> {
    set i | 0 <= i < |xs| :: key(xs[i])
  }

  lemma KeySetAppend<T, K>(xs: seq<T>, x: T, key: T -> K)
    ensures KeySet(xs + [x], key) == KeySet(xs, key) + {key(x)}
  {
    var ys := xs + [x];
    assert forall i :: 0 <= i < |xs| ==> ys[i] == xs[i];
    assert ys[|xs|] == x;
  }

  /**
   * `drop_duplicates(subset=key, keep='first')`: an element is kept exactly when no earlier
   * element has the same key.
   */
  function KeepFirst<T, K(==)>(xs: seq<T>, key: T -> K): seq<T>
    decreases |xs|
  {
    if |xs| == 0 then []
    else
      var init := xs[..|xs| - 1];
      KeepFirst(init, key) + (if key(xs[|xs| - 1]) in KeySet(init, key) then [] else [xs[|xs| - 1]])
  }

  /** Position of the first element of `xs` with key `k`. */
  function FirstIndex<T, K(==)>(xs: seq<T>, key: T -> K, k: K): (i: nat)
    requires k in KeySet(xs, key)
    ensures i < |xs| && key(xs[i]) == k
    ensures forall j :: 0 <= j < i ==> key(xs[j]) != k
    decreases |xs|
  {
    var init := xs[..|xs| - 1];
    if k in KeySet(init, key) then
      assert forall j :: 0 <= j < |init| ==> init[j] == xs[j];
      FirstIndex(init, key, k)
    else
      assert forall j :: 0 <= j < |init| ==> init[j] in init;
      |xs| - 1
  }

  /** An index holding key `k` with no earlier one is the first index of `k`. */
  lemma FirstIndexUnique<T, K>(xs: seq<T>, key: T -> K, k: K, i: nat)
    requires i < |xs| && key(xs[i]) == k
    requires forall j :: 0 <= j < i ==> key(xs[j]) != k
    ensures k in KeySet(xs, key) && FirstIndex(xs, key, k) == i
  {
    assert key(xs[i]) in KeySet(xs, key);
  }

  /** Appending an element does not move the first occurrence of a key already present. */
  lemma FirstIndexAppend<T, K>(xs: seq<T>, x: T, key: T -> K, k: K)
    requires k in KeySet(xs, key)
    ensures k in KeySet(xs + [x], key)
    ensures FirstIndex(xs + [x], key, k) == FirstIndex(xs, key, k)
  {
    KeySetAppend(xs, x, key);
    var i := FirstIndex(xs, key, k);
    var ys := xs + [x];
    assert forall j :: 0 <= j <= i ==> ys[j] == xs[j];
    FirstIndexUnique(ys, key, k, i);
  }

  /** `KeepFirst` keeps every key of the input and no more elements than the input has. */
  lemma {:induction false} KeepFirstKeys<T, K>(xs: seq<T>, key: T -> K)
    ensures |KeepFirst(xs, key)| <= |xs|
    ensures KeySet(KeepFirst(xs, key), key) == KeySet(xs, key)
    decreases |xs|
  {
    if |xs| > 0 {
      var init := xs[..|xs| - 1];
      var last := xs[|xs| - 1];
      assert xs == init + [last];
      KeepFirstKeys(init, key);
      KeySetAppend(init, last, key);
      if key(last) !in KeySet(init, key) {
        assert KeepFirst(xs, key) == KeepFirst(init, key) + [last];
        KeySetAppend(KeepFirst(init, key), last, key);
      } else {
        assert KeepFirst(xs, key) == KeepFirst(init, key);
      }
    }
  }

  /** `KeepFirst` only keeps elements of its input. */
  lemma {:induction false} KeepFirstSubset<T, K>(xs: seq<T>, key: T -> K)
    ensures forall x :: x in KeepFirst(xs, key) ==> x in xs
    decreases |xs|
  {
    if |xs| > 0 {
      var init := xs[..|xs| - 1];
      KeepFirstSubset(init, key);
      assert xs == init + [xs[|xs| - 1]];
    }
  }

  /** No two elements that `KeepFirst` keeps share a key. */
  lemma {:induction false} KeepFirstDistinct<T, K>(xs: seq<T>, key: T -> K)
    ensures var r := KeepFirst(xs, key);
      forall i, j :: 0 <= i < j < |r| ==> key(r[i]) != key(r[j])
    decreases |xs|
  {
    if |xs| > 0 {
      var init := xs[..|xs| - 1];
      var last := xs[|xs| - 1];
      var ri := KeepFirst(init, key);
      KeepFirstDistinct(init, key);
      KeepFirstKeys(init, key);
      if key(last) !in KeySet(init, key) {
        forall j | 0 <= j < |ri|
          ensures key(ri[j]) != key(last)
        {
          assert key(ri[j]) in KeySet(ri, key);
        }
      }
    }
  }

  /**
   * Every element `KeepFirst` keeps is the first occurrence of its key in the input, and
   * kept elements appear in the order of those first occurrences.
   */
  lemma {:induction false} KeepFirstOrigin<T, K>(xs: seq<T>, key: T -> K)
    ensures var r := KeepFirst(xs, key);
      && (forall j :: 0 <= j < |r| ==> key(r[j]) in KeySet(xs, key) && r[j] == xs[FirstIndex(xs, key, key(r[j]))])
      && (forall i, j :: 0 <= i < j < |r| ==> FirstIndex(xs, key, key(r[i])) < FirstIndex(xs, key, key(r[j])))
    decreases |xs|
  {
    if |xs| > 0 {
      var init := xs[..|xs| - 1];
      var last := xs[|xs| - 1];
      assert xs == init + [last];
      var ri := KeepFirst(init, key);
      var r := KeepFirst(xs, key);
      KeepFirstOrigin(init, key);
      KeepFirstKeys(init, key);
      KeySetAppend(init, last, key);
      forall j | 0 <= j < |ri|
        ensures key(ri[j]) in KeySet(init, key)
        ensures FirstIndex(xs, key, key(ri[j])) == FirstIndex(init, key, key(ri[j]))
        ensures FirstIndex(init, key, key(ri[j])) < |init|
      {
        FirstIndexAppend(init, last, key, key(ri[j]));
      }
      if key(last) !in KeySet(init, key) {
        assert r == ri + [last];
        FirstIndexUnique(xs, key, key(last), |xs| - 1);
      } else {
        assert r == ri;
      }
    }
  }

  /**
   * What `KeepFirst` keeps: one element per key and every key of the input, each kept element
   * being the first occurrence of its key, in input order.
   */
  lemma KeepFirstSpec<T, K>(xs: seq<T>, key: T -> K)
    ensures var r := KeepFirst(xs, key);
      && |r| <= |xs|
      && KeySet(r, key) == KeySet(xs, key)
      && (forall i, j :: 0 <= i < j < |r| ==> key(r[i]) != key(r[j]))
      && (forall j :: 0 <= j < |r| ==> key(r[j]) in KeySet(xs, key) && r[j] == xs[FirstIndex(xs, key, key(r[j]))])
      && (forall i, j :: 0 <= i < j < |r| ==> FirstIndex(xs, key, key(r[i])) < FirstIndex(xs, key, key(r[j])))
  {
    KeepFirstKeys(xs, key);
    KeepFirstDistinct(xs, key);
    KeepFirstOrigin(xs, key);
  }

  /** A list whose keys are already distinct is kept whole. */
  lemma {:induction false} KeepFirstOfDistinct<T, K>(xs: seq<T>, key: T -> K)
    requires forall i, j :: 0 <= i < j < |xs| ==> key(xs[i]) != key(xs[j])
    ensures KeepFirst(xs, key) == xs
  {
    if |xs| > 0 {
      var n := |xs| - 1;
      var init := xs[..n];
      KeepFirstOfDistinct(init, key);
      assert key(xs[n]) !in KeySet(init, key);
      assert init + [xs[n]] == xs;
    }
  }

  /** `pd.Series(xs).unique()`: distinct values in order of first appearance. */
  function Unique<T(==)>(xs: seq<T>): seq<T> {
    KeepFirst(xs, (x: T) => x)
  }

  /** The values of `Unique(xs)` are pairwise distinct and are exactly the values of `xs`. */
  lemma UniqueSpec<T>(xs: seq<T>)
    ensures forall i, j :: 0 <= i < j < |Unique(xs)| ==> Unique(xs)[i] != Unique(xs)[j]
    ensures forall x :: x in Unique(xs) <==> x in xs
    ensures |Unique(xs)| <= |xs|
  {
    var id := (x: T) => x;
    KeepFirstSpec(xs, id);
    var r := Unique(xs);
    assert KeySet(r, id) == KeySet(xs, id);
    forall x
      ensures x in r <==> x in xs
    {
      if x in r {
        assert id(x) in KeySet(r, id);
      }
      if x in xs {
        assert id(x) in KeySet(xs, id);
      }
    }
  }

  /** A list without repetitions is its own `unique()`. */
  lemma UniqueOfDistinct<T>(xs: seq<T>)
    requires NoRepeats(xs)
    ensures Unique(xs) == xs
  {
    KeepFirstOfDistinct(xs, (x: T) => x);
  }

  /** `le` is a total preorder: any two elements compare, and comparison chains. */
  ghost predicate TotalPreorder<T(!new)>(le: (T, T) -> bool) {
    && (forall a, b :: le(a, b) || le(b, a))
    && (forall a, b, c :: le(a, b) && le(b, c) ==> le(a, c))
  }

  predicate SortedBy<T>(xs: seq<T>, le: (T, T) -> bool) {
    forall i, j :: 0 <= i < j < |xs| ==> le(xs[i], xs[j])
  }

  function Insert<T>(x: T, xs: seq<T>, le: (T, T) -> bool): seq<T> {
    if |xs| == 0 then [x]
    else if le(x, xs[0]) then [x] + xs
    else [xs[0]] + Insert(x, xs[1..], le)
  }

  /** A stable sort by `le`. */
  function Sort<T>(xs: seq<T>, le: (T, T) -> bool): seq<T> {
    if |xs| == 0 then [] else Insert(xs[0], Sort(xs[1..], le), le)
  }

  lemma {:induction false} InsertSpec<T(!new)>(x: T, xs: seq<T>, le: (T, T) -> bool)
    requires TotalPreorder(le)
    requires SortedBy(xs, le)
    ensures SortedBy(Insert(x, xs, le), le)
    ensures multiset(Insert(x, xs, le)) == multiset(xs) + multiset{x}
  {
    if |xs| > 0 && le(x, xs[0]) {
      InsertFront(x, xs, le);
    } else if |xs| > 0 {
      InsertSpec(x, xs[1..], le);
      assert le(xs[0], x);
      InsertBehind(x, xs, le);
    }
  }

  /** An element no greater than the head goes in front. */
  lemma InsertFront<T(!new)>(x: T, xs: seq<T>, le: (T, T) -> bool)
    requires TotalPreorder(le)
    requires SortedBy(xs, le)
    requires |xs| > 0 && le(x, xs[0])
    ensures SortedBy([x] + xs, le)
  {
    var r := [x] + xs;
    forall j | 1 <= j < |r| ensures le(x, r[j]) {
      assert r[j] == xs[j - 1];
      assert le(xs[0], xs[j - 1]) || j == 1;
    }
  }

  /** An element greater than the head goes behind it, into the sorted rest. */
  lemma InsertBehind<T>(x: T, xs: seq<T>, le: (T, T) -> bool)
    requires SortedBy(xs, le)
    requires |xs| > 0 && !le(x, xs[0]) && le(xs[0], x)
    requires SortedBy(Insert(x, xs[1..], le), le)
    requires multiset(Insert(x, xs[1..], le)) == multiset(xs[1..]) + multiset{x}
    ensures SortedBy(Insert(x, xs, le), le)
    ensures multiset(Insert(x, xs, le)) == multiset(xs) + multiset{x}
  {
    var rest := Insert(x, xs[1..], le);
    assert xs == [xs[0]] + xs[1..];
    assert Insert(x, xs, le) == [xs[0]] + rest;
    forall k | 0 <= k < |rest| ensures le(xs[0], rest[k]) {
      assert rest[k] in multiset(rest);
      if rest[k] != x {
        var j :| 0 <= j < |xs[1..]| && xs[1..][j] == rest[k];
        assert xs[j + 1] == rest[k];
      }
    }
    SortedCons(xs[0], rest, le);
  }

  /** A head no greater than any element of a sorted tail keeps the whole sorted. */
  lemma SortedCons<T>(h: T, rest: seq<T>, le: (T, T) -> bool)
    requires SortedBy(rest, le)
    requires forall k :: 0 <= k < |rest| ==> le(h, rest[k])
    ensures SortedBy([h] + rest, le)
  {
    var r := [h] + rest;
    forall i, j | 0 <= i < j < |r| ensures le(r[i], r[j]) {
      assert r[j] == rest[j - 1];
      if i > 0 {
        assert r[i] == rest[i - 1];
      }
    }
  }

  /** Sorting yields an ordered permutation of the input. */
  lemma {:induction false} SortSpec<T(!new)>(xs: seq<T>, le: (T, T) -> bool)
    requires TotalPreorder(le)
    ensures SortedBy(Sort(xs, le), le)
    ensures multiset(Sort(xs, le)) == multiset(xs)
  {
    if |xs| > 0 {
      SortSpec(xs[1..], le);
      InsertSpec(xs[0], Sort(xs[1..], le), le);
      assert xs == [xs[0]] + xs[1..];
    }
  }
}

=== FILE: text.dfy ===
/**
 * The few Python string operations the data path relies on, with Python's meaning:
 * `sub in s`, `s.startswith(p)`, `s.split(sep)`, `sep.join(parts)`, `s.replace(a, b)` for
 * single characters, the code-point order that `sorted` uses on `str`, and ASCII
 * `lower()` / `upper()` / `title()`.
 */
module Text {

  /** `sub in s`. */
  predicate Contains(s: string, sub: string) {
    exists i | 0 <= i <= |s| - |sub| :: StartsAt(s, i, sub)
  }

  /** `s.startswith(p)`. */
  predicate StartsWith(s: string, p: string) {
    |p| <= |s| && s[..|p|] == p
  }

  /** The separator occurs in `s` at position `i`. */
  predicate StartsAt(s: string, i: nat, sep: string) {
    i + |sep| <= |s| && s[i..i + |sep|] == sep
  }

  /**
   * `s.split(sep)`: cuts at every leftmost, non-overlapping occurrence of `sep`,
   * so there is always at least one part and `"".split(sep) == [""]`.
   */
  function SplitOn(s: string, sep: string): (parts: seq<string>)
    requires sep != []
    ensures |parts| >= 1
    decreases |s|
  {
    if |s| == 0 then [""]
    else if StartsAt(s, 0, sep) then [""] + SplitOn(s[|sep|..], sep)
    else
      var rest := SplitOn(s[1..], sep);
      [[s[0]] + rest[0]] + rest[1..]
  }

  /** `s.split(sep)[0]`: the text before the first separator (all of `s` when there is none). */
  function BeforeFirst(s: string, sep: string): string
    requires sep != []
  {
    SplitOn(s, sep)[0]
  }

  lemma StartsAtShift(s: string, i: nat, sep: string)
    requires |s| > 0
    ensures StartsAt(s[1..], i, sep) <==> StartsAt(s, i + 1, sep)
  {
    if i + |sep| <= |s[1..]| {
      assert s[1..][i..i + |sep|] == s[i + 1..i + 1 + |sep|];
    }
  }

  /** Splitting text that starts with a separator-free field peels that field off. */
  lemma {:induction false} SplitOnConcat(a: string, sep: string, b: string)
    requires sep != []
    requires forall i :: 0 <= i < |a| ==> !StartsAt(a + sep + b, i, sep)
    ensures SplitOn(a + sep + b, sep) == [a] + SplitOn(b, sep)
  {
    var s := a + sep + b;
    if |a| == 0 {
      assert s == sep + b;
      assert StartsAt(s, 0, sep);
      assert s[|sep|..] == b;
    } else {
      assert !StartsAt(s, 0, sep);
      assert s[1..] == a[1..] + sep + b;
      forall i | 0 <= i < |a[1..]|
        ensures !StartsAt(a[1..] + sep + b, i, sep)
      {
        StartsAtShift(s, i, sep);
      }
      SplitOnConcat(a[1..], sep, b);
      assert [a[0]] + a[1..] == a;
    }
  }

  /** Text without any occurrence of the separator is not cut at all. */
  lemma {:induction false} SplitOnNone(s: string, sep: string)
    requires sep != []
    requires forall i :: 0 <= i < |s| ==> !StartsAt(s, i, sep)
    ensures SplitOn(s, sep) == [s]
  {
    if |s| > 0 {
      forall i | 0 <= i < |s[1..]|
        ensures !StartsAt(s[1..], i, sep)
      {
        StartsAtShift(s, i, sep);
      }
      SplitOnNone(s[1..], sep);
      assert [s[0]] + s[1..] == s;
    }
  }

  /** `sep.join(parts)`. */
  function Join(parts: seq<string>, sep: string): string {
    if |parts| == 0 then ""
    else if |parts| == 1 then parts[0]
    else parts[0] + sep + Join(parts[1..], sep)
  }

  /** Cutting at a single character that the first field lacks peels that field off. */
  lemma SplitOnCharConcat(a: string, c: char, b: string)
    requires c !in a
    ensures SplitOn(a + [c] + b, [c]) == [a] + SplitOn(b, [c])
  {
    var s := a + [c] + b;
    forall i | 0 <= i < |a| ensures !StartsAt(s, i, [c]) {
      assert s[i..i + 1] == [a[i]];
    }
    SplitOnConcat(a, [c], b);
  }

  /** Text without the character is not cut. */
  lemma SplitOnCharNone(s: string, c: char)
    requires c !in s
    ensures SplitOn(s, [c]) == [s]
  {
    forall i | 0 <= i < |s| ensures !StartsAt(s, i, [c]) {
      assert s[i..i + 1] == [s[i]];
    }
    SplitOnNone(s, [c]);
  }

  /**
   * `", ".join(parts).split(", ")` gives the parts back when none of them contains ", "
   * (and `[""]` for no parts at all).
   */
  lemma {:induction false} SplitJoinComma(parts: seq<string>)
    requires forall p :: p in parts ==> !Contains(p, ", ")
    ensures SplitOn(Join(parts, ", "), ", ") == if parts == [] then [""] else parts
  {
    if |parts| == 1 {
      NoOccurrence(parts[0], ", ");
      SplitOnNone(parts[0], ", ");
    } else if |parts| > 1 {
      var a := parts[0];
      var rest := Join(parts[1..], ", ");
      var s := a + ", " + rest;
      forall i | 0 <= i < |a| ensures !StartsAt(s, i, ", ") {
        if i + 2 <= |a| {
          NoOccurrence(a, ", ");
          assert !StartsAt(a, i, ", ");
          assert s[i..i + 2] == a[i..i + 2];
        } else {
          assert s[i..i + 2] == [a[i], ','];
          assert ", " == [',', ' '];
        }
      }
      SplitOnConcat(a, ", ", rest);
      SplitJoinComma(parts[1..]);
      assert parts == [a] + parts[1..];
    }
  }

  lemma NoOccurrence(s: string, sub: string)
    requires !Contains(s, sub)
    ensures forall i :: 0 <= i < |s| ==> !StartsAt(s, i, sub)
  {
  }

  /** `s.replace(a, b)` for one character `a` and one character `b`. */
  function ReplaceChar(s: string, a: char, b: char): (r: string)
    ensures |r| == |s|
    ensures forall i :: 0 <= i < |s| ==> r[i] == if s[i] == a then b else s[i]
    ensures a != b ==> a !in r
  {
    seq(|s|, i requires 0 <= i < |s| => if s[i] == a then b else s[i])
  }

  /** Python's `a < b` on `str`: lexicographic on code points, a proper prefix first. */
  predicate LexLess(a: string, b: string)
    decreases |a|
  {
    if |a| == 0 then |b| > 0
    else if |b| == 0 then false
    else if a[0] != b[0] then a[0] < b[0]
    else LexLess(a[1..], b[1..])
  }

  lemma {:induction false} LexLessIrreflexive(a: string)
    ensures !LexLess(a, a)
  {
    if |a| > 0 {
      LexLessIrreflexive(a[1..]);
    }
  }

  lemma {:induction false} LexLessTransitive(a: string, b: string, c: string)
    requires LexLess(a, b) && LexLess(b, c)
    ensures LexLess(a, c)
  {
    if |a| > 0 && |b| > 0 && |c| > 0 && a[0] == b[0] && b[0] == c[0] {
      LexLessTransitive(a[1..], b[1..], c[1..]);
    }
  }

  lemma {:induction false} LexLessTotal(a: string, b: string)
    ensures a == b || LexLess(a, b) || LexLess(b, a)
  {
    if |a| > 0 && |b| > 0 && a[0] == b[0] {
      LexLessTotal(a[1..], b[1..]);
      if a[1..] == b[1..] {
        assert a == [a[0]] + a[1..] && b == [b[0]] + b[1..];
      }
    }
  }

  lemma LexLessAsymmetric(a: string, b: string)
    requires LexLess(a, b)
    ensures !LexLess(b, a)
  {
    if LexLess(b, a) {
      LexLessTransitive(a, b, a);
      LexLessIrreflexive(a);
    }
  }

  /** Strictly increasing in Python's string order (so also free of repeats). */
  predicate StrictlySorted(xs: seq<string>) {
    forall i, j :: 0 <= i < j < |xs| ==> LexLess(xs[i], xs[j])
  }

  /** Adds `x` to a strictly sorted list unless it is already there. */
  function InsertDistinct(x: string, xs: seq<string>): seq<string> {
    if |xs| == 0 then [x]
    else if x == xs[0] then xs
    else if LexLess(x, xs[0]) then [x] + xs
    else [xs[0]] + InsertDistinct(x, xs[1..])
  }

  lemma {:induction false} InsertDistinctSpec(x: string, xs: seq<string>)
    requires StrictlySorted(xs)
    ensures StrictlySorted(InsertDistinct(x, xs))
    ensures forall y :: y in InsertDistinct(x, xs) <==> y == x || y in xs
  {
    if |xs| > 0 && x != xs[0] {
      if LexLess(x, xs[0]) {
        var r := [x] + xs;
        forall i, j | 0 <= i < j < |r| ensures LexLess(r[i], r[j]) {
          if i == 0 && j > 1 {
            LexLessTransitive(x, xs[0], xs[j - 1]);
          }
        }
      } else {
        LexLessTotal(x, xs[0]);
        InsertDistinctSpec(x, xs[1..]);
        assert xs == [xs[0]] + xs[1..];
        var r := InsertDistinct(x, xs);
        forall j | 1 <= j < |r| ensures LexLess(xs[0], r[j]) {
          assert r[j] in InsertDistinct(x, xs[1..]);
        }
      }
    }
  }

  /** `sorted(set(xs))`: the distinct strings of `xs` in increasing order. */
  function SortedDistinct(xs: seq<string>): seq<string> {
    if |xs| == 0 then [] else InsertDistinct(xs[|xs| - 1], SortedDistinct(xs[..|xs| - 1]))
  }

  lemma {:induction false} SortedDistinctSpec(xs: seq<string>)
    ensures StrictlySorted(SortedDistinct(xs))
    ensures forall y :: y in SortedDistinct(xs) <==> y in xs
  {
    if |xs| > 0 {
      var init := xs[..|xs| - 1];
      SortedDistinctSpec(init);
      InsertDistinctSpec(xs[|xs| - 1], SortedDistinct(init));
      assert xs == init + [xs[|xs| - 1]];
    }
  }

  predicate IsUpper(c: char) { 'A' <= c <= 'Z' }
  predicate IsLower(c: char) { 'a' <= c <= 'z' }
  predicate IsLetter(c: char) { IsUpper(c) || IsLower(c) }

  function LowerChar(c: char): (r: char)
    ensures IsLetter(r) == IsLetter(c)
  {
    if IsUpper(c) then (c as int + 32) as char else c
  }

  function UpperChar(c: char): (r: char)
    ensures IsLetter(r) == IsLetter(c)
  {
    if IsLower(c) then (c as int - 32) as char else c
  }

  /** `s.lower()` on ASCII letters. */
  function Lower(s: string): (r: string)
    ensures |r| == |s|
    ensures forall i :: 0 <= i < |s| ==> r[i] == LowerChar(s[i])
  {
    seq(|s|, i requires 0 <= i < |s| => LowerChar(s[i]))
  }

  /**
   * `s.title()` on ASCII: a letter that follows a letter is lowered, any other letter is
   * raised; every other character is kept and ends the word.
   */
  function TitleFrom(s: string, afterLetter: bool): (r: string)
    ensures |r| == |s|
    ensures forall i :: 0 <= i < |s| ==> IsLetter(r[i]) == IsLetter(s[i])
    ensures forall i :: 0 <= i < |s| && !IsLetter(s[i]) ==> r[i] == s[i]
  {
    if |s| == 0 then ""
    else
      var c := s[0];
      var c' := if !IsLetter(c) then c else if afterLetter then LowerChar(c) else UpperChar(c);
      var rest := TitleFrom(s[1..], IsLetter(c));
      assert forall i :: 1 <= i < |s| ==> ([c'] + rest)[i] == rest[i - 1] && s[i] == s[1..][i - 1];
      [c'] + rest
  }

  function TitleCase(s: string): (r: string)
    ensures |r| == |s|
  {
    TitleFrom(s, false)
  }

  function DigitChar(d: nat): char
    requires d < 10
  {
    "0123456789"[d]
  }

  /** `str(n)` for a natural number: its decimal digits, no leading zeros. */
  function NatToString(n: nat): (r: string)
    ensures |r| >= 1
    ensures forall i :: 0 <= i < |r| ==> '0' <= r[i] <= '9'
    decreases n
  {
    if n < 10 then [DigitChar(n)] else NatToString(n / 10) + [DigitChar(n % 10)]
  }
}

=== FILE: track_processing.dfy ===
/**
 * app/func/data_processing.py: turning Spotify's recently-played items and top tracks into
 * frames (items without a track id dropped, order kept), the time columns of a play, the
 * optional audio-feature merge with its composite and context steps, and the guards of the
 * artist diversity score.
 *
 * Timestamps are parsed by a given function (seconds since the epoch, None when the text
 * is not a date); the audio features are the records `fetch_audio_features` returned.
 */
module TrackProcessing {
  import opened Wrappers
  import opened Frames
  import Seqs
  import DatetimeUtils
  import FeatureEngineering

  /**
   * A track object as far as the rows read it. `artists` is None when the key is absent;
   * each artist is its optional name.
   */
  datatype TrackObject = TrackObject(
    id: Option<string>,
    name: Option<string>,
    artists: Option<seq<Option<string>>>,
    albumName: Option<string>,
    durationMs: Option<int>,
    popularity: Option<int>,
    explicit: Option<bool>,
    previewUrl: Option<string>)

  /** `{}`: what `item.get('track', {})` reads when the item has no track. */
  const NoTrack: TrackObject := TrackObject(None, None, None, None, None, None, None, None)

  /** A recently-played item: its track (None when absent) and `played_at`. */
  datatype PlayItem = PlayItem(track: Option<TrackObject>, playedAt: Option<string>)

  function TrackOf(item: PlayItem): TrackObject {
    item.track.GetOr(NoTrack)
  }

  /** `if track_id:` — present and not the empty string. */
  predicate HasId(t: TrackObject) {
    t.id.Some? && t.id.value != ""
  }

  /**
   * `track.get('artists', [{}])[0].get('name')`: no name when the key is absent, the first
   * artist's name otherwise, and IndexError for an empty artist list.
   */
  function ArtistName(t: TrackObject): (r: Result<Option<string>>)
    ensures r.Err? <==> t.artists == Some([])
    ensures t.artists.Some? && t.artists.value != [] ==> r == Ok(t.artists.value[0])
  {
    if t.artists.None? then Ok(None)
    else if t.artists.value == [] then Err("IndexError: list index out of range")
    else Ok(t.artists.value[0])
  }

  /** The row of one recently-played item. */
  function RecentRow(item: PlayItem, artist: Option<string>): Row
    requires HasId(TrackOf(item))
  {
    var t := TrackOf(item);
    map["track_id" := Str(t.id.value), "track_name" := OptStr(t.name), "artist_name" := OptStr(artist),
        "album_name" := OptStr(t.albumName), "played_at" := OptStr(item.playedAt),
        "duration_ms" := OptInt(t.durationMs), "popularity" := OptInt(t.popularity),
        "explicit" := OptBool(t.explicit), "preview_url" := OptStr(t.previewUrl)]
  }

  /** The rows built so far and the ids sent for audio features. */
  datatype Extracted = Extracted(rows: seq<Row>, ids: seq<string>)

  /** The extraction loop over the first items, the first IndexError stopping it. */
  function RecentRows(items: seq<PlayItem>): Result<Extracted> {
    if |items| == 0 then Ok(Extracted([], []))
    else
      var prev := RecentRows(items[..|items| - 1]);
      var item := items[|items| - 1];
      if prev.Err? || !HasId(TrackOf(item)) then prev
      else match ArtistName(TrackOf(item))
        case Err(e) => Err(e)
        case Ok(artist) => Ok(Extracted(prev.value.rows + [RecentRow(item, artist)], prev.value.ids + [TrackOf(item).id.value]))
  }

  /** The items that have a track id, in order. */
  function WithId(items: seq<PlayItem>): seq<PlayItem> {
    Seqs.Filter(items, (item: PlayItem) => HasId(TrackOf(item)))
  }

  /**
   * The extraction keeps exactly the items with a track id, in their order: one row and one
   * id per such item, the row carrying that item's id and play time.
   */
  lemma {:induction false} RecentRowsSpec(items: seq<PlayItem>)
    requires RecentRows(items).Ok?
    ensures var e := RecentRows(items).value; var kept := WithId(items);
      && |e.rows| == |kept| == |e.ids|
      && forall i :: 0 <= i < |kept| ==>
           && TrackOf(kept[i]).id == Some(e.ids[i])
           && Cell(e.rows[i], "track_id") == Str(e.ids[i])
           && Cell(e.rows[i], "played_at") == OptStr(kept[i].playedAt)
  {
    if |items| > 0 {
      var n := |items| - 1;
      var init := items[..n];
      var item := items[n];
      assert items == init + [item];
      var p := (x: PlayItem) => HasId(TrackOf(x));
      Seqs.FilterConcat(init, [item], p);
      assert RecentRows(init).Ok?;
      RecentRowsSpec(init);
      var e, e0 := RecentRows(items).value, RecentRows(init).value;
      if HasId(TrackOf(item)) {
        var artist := ArtistName(TrackOf(item)).value;
        RecentRowCells(item, artist);
        assert e.rows == e0.rows + [RecentRow(item, artist)];
        assert e.ids == e0.ids + [TrackOf(item).id.value];
        var kept, kept0 := WithId(items), WithId(init);
        assert kept == kept0 + [item];
        forall i | 0 <= i < |kept|
          ensures TrackOf(kept[i]).id == Some(e.ids[i])
          ensures Cell(e.rows[i], "track_id") == Str(e.ids[i])
          ensures Cell(e.rows[i], "played_at") == OptStr(kept[i].playedAt)
        {
          if i < |kept0| {
            assert kept[i] == kept0[i] && e.rows[i] == e0.rows[i] && e.ids[i] == e0.ids[i];
          }
        }
      } else {
        assert e == e0;
        assert WithId(items) == WithId(init);
      }
    }
  }

  lemma RecentRowCells(item: PlayItem, artist: Option<string>)
    requires HasId(TrackOf(item))
    ensures Cell(RecentRow(item, artist), "track_id") == Str(TrackOf(item).id.value)
    ensures Cell(RecentRow(item, artist), "played_at") == OptStr(item.playedAt)
  {
  }

  /** The same loop as a statement sequence; the item list is walked once. */
  method ExtractRecent(items: seq<PlayItem>) returns (r: Result<Extracted>)
    ensures r == RecentRows(items)
  {
    var rows: seq<Row> := [];
    var ids: seq<string> := [];
    var i := 0;
    while i < |items|
      invariant 0 <= i <= |items|
      invariant RecentRows(items[..i]) == Ok(Extracted(rows, ids))
    {
      var item := items[i];
      assert items[..i + 1][..i] == items[..i];
      var t := TrackOf(item);
      if HasId(t) {
        var artist := ArtistName(t);
        if artist.Err? {
          ErrSticks(items, i + 1);
          return Err(artist.error);
        }
        ids := ids + [t.id.value];
        rows := rows + [RecentRow(item, artist.value)];
      }
      i := i + 1;
    }
    assert items[..i] == items;
    r := Ok(Extracted(rows, ids));
  }

  /** Once an item has raised, the whole extraction has. */
  lemma {:induction false} ErrSticks(items: seq<PlayItem>, k: nat)
    requires k <= |items|
    requires RecentRows(items[..k]).Err?
    ensures RecentRows(items) == RecentRows(items[..k])
    decreases |items| - k
  {
    if k < |items| {
      assert items[..k + 1][..k] == items[..k];
      ErrSticks(items, k + 1);
    } else {
      assert items[..k] == items;
    }
  }

  // ---------------------------------------------------------------------------------------
  // The time columns of a play

  /** `pd.to_datetime(df['played_at'])` for one cell: seconds, NaT for a missing value. */
  datatype Stamp = Parsed(seconds: int) | NaT

  function StampOf(row: Row, parse: string -> Option<int>): Result<Stamp> {
    match Cell(row, "played_at")
    case Str(s) => if parse(s).Some? then Ok(Parsed(parse(s).value)) else Err("ValueError: unparseable played_at")
    case Null => Ok(NaT)
    case _ => Err("ValueError: unparseable played_at")
  }

  const TimeColumns: set<string> := {"duration_min", "hour", "day_of_week", "date", "is_weekend"}

  /** `duration_ms / 60000` as minutes, missing when the duration is. */
  function DurationMin(row: Row): Value {
    match Cell(row, "duration_ms")
    case Int(d) => Real(d as real / 60000.0)
    case _ => Null
  }

  /** The derived cells of one play: minutes, hour, weekday name, date, weekend flag. */
  function WithTime(row: Row, stamp: Stamp): Row {
    match stamp
    case Parsed(s) =>
      row["duration_min" := DurationMin(row)]["hour" := Int(DatetimeUtils.HourOf(s))]
         ["day_of_week" := Str(DatetimeUtils.DayNames[DatetimeUtils.WeekdayOf(s)])]
         ["date" := Int(s / 86400)]["is_weekend" := Bool(DatetimeUtils.WeekdayOf(s) >= 5)]
    case NaT =>
      row["duration_min" := DurationMin(row)]["hour" := Null]["day_of_week" := Null]["date" := Null]["is_weekend" := Bool(false)]
  }

  /** The time columns over all rows; one unparseable time fails the whole conversion. */
  function AddTimeColumns(rows: seq<Row>, parse: string -> Option<int>): (r: Result<seq<Row>>)
    ensures r.Ok? ==> |r.value| == |rows|
    ensures r.Ok? ==> forall i :: 0 <= i < |rows| ==> StampOf(rows[i], parse).Ok? && r.value[i] == WithTime(rows[i], StampOf(rows[i], parse).value)
  {
    if |rows| == 0 then Ok([])
    else
      var rest := AddTimeColumns(rows[1..], parse);
      var stamp := StampOf(rows[0], parse);
      if stamp.Err? then Err(stamp.error)
      else if rest.Err? then rest
      else Ok([WithTime(rows[0], stamp.value)] + rest.value)
  }

  /**
   * `is_weekend` is `dayofweek >= 5`: true exactly on Saturdays and Sundays, and the weekday
   * name and hour agree with the same instant.
   */
  lemma IsWeekendSpec(row: Row, s: int)
    ensures var r := WithTime(row, Parsed(s));
      && (r["is_weekend"] == Bool(true) <==> r["day_of_week"] == Str("Saturday") || r["day_of_week"] == Str("Sunday"))
      && r["hour"] == Int((s % 86400) / 3600)
  {
    var d := DatetimeUtils.WeekdayOf(s);
    var names := DatetimeUtils.DayNames;
    assert names[5] == "Saturday" && names[6] == "Sunday";
    assert d < 5 ==> names[d] != "Saturday" && names[d] != "Sunday";
  }

  // ---------------------------------------------------------------------------------------
  // The audio-feature merge

  /** `af_df.rename(columns={'id': 'track_id'})` for one record. */
  function RenameId(rec: Row): Row {
    if "id" in rec then (rec - {"id"})["track_id" := rec["id"]] else rec
  }

  function RecordColumns(records: seq<Row>): set<string> {
    if |records| == 0 then {} else records[0].Keys + RecordColumns(records[1..])
  }

  /** `pd.DataFrame(audio_features)` with the id column renamed. */
  function FeatureFrame(records: seq<Row>): Table {
    var cols := RecordColumns(records);
    Table(if "id" in cols then cols - {"id"} + {"track_id"} else cols, seq(|records|, i requires 0 <= i < |records| => RenameId(records[i])))
  }

  /** `df.merge(af_df, on='track_id', how='left')`, pandas' default suffixes. */
  function FeatureJoin(df: Table, af: Table): Table {
    LeftJoin(df, af, "track_id", "_x", "_y")
  }

  /**
   * The optional step as written: nothing without a client, ids or records; a KeyError when
   * the records have no id; otherwise the merge, composites when danceability is there, and
   * the context step, which hands the whole frame to the row classifier: the frame's
   * comparisons have no single truth value, the error is swallowed and the frame is kept.
   */
  function AttachFeatures(df: Table, ids: seq<string>, hasClient: bool, records: seq<Row>,
                          score: (string, Row) -> Value): (r: Result<Table>)
    ensures !hasClient || ids == [] || records == [] ==> r == Ok(df)
    ensures r.Ok? && "context" in r.value.columns ==> "context" in df.columns || "context" in FeatureFrame(records).columns
  {
    if !hasClient || ids == [] || records == [] then Ok(df)
    else
      var af := FeatureFrame(records);
      if "track_id" !in af.columns then Err("KeyError: track_id")
      else
        var joined := FeatureJoin(df, af);
        var withComposites := if "danceability" in joined.columns then FeatureEngineering.CreateCompositeFeatures(joined, score) else joined;
        ContextFromJoin(df, af);
        Ok(withComposites)
  }

  /** No merged name is "context" unless one side had that column. */
  lemma ContextFromJoin(df: Table, af: Table)
    ensures "context" in FeatureJoin(df, af).columns ==> "context" in df.columns || "context" in af.columns
    ensures forall c :: c in FeatureEngineering.CompositeNames ==> c != "context"
  {
    var clash := Clash(df.columns, af.columns, "track_id");
    forall c, suf | c in clash && suf in {"_x", "_y"} ensures c + suf != "context" {
      assert (c + suf)[|c + suf| - 2] == '_';
    }
  }

  /**
   * As written, a track played twice before the sync is asked for twice, Spotify returns a
   * record per id asked, and the merge pairs each play with each record: two plays become four
   * rows.
   */
  lemma ReplayedTrackSquaresRows()
    ensures var play := map["track_id" := Str("t")];
      var rec := map["id" := Str("t"), "danceability" := Real(0.5)];
      |FeatureJoin(Table({"track_id"}, [play, play]), FeatureFrame([rec, rec])).rows| == 4
  {
    var play := map["track_id" := Str("t")];
    var rec := map["id" := Str("t"), "danceability" := Real(0.5)];
    var af := FeatureFrame([rec, rec]);
    var renamed := RenameId(rec);
    assert renamed == map["danceability" := Real(0.5), "track_id" := Str("t")];
    assert af.rows == [renamed, renamed];
    var p := (k: Row) => Cell(k, "track_id") == Cell(play, "track_id");
    assert Seqs.Filter([renamed], p) == [renamed];
    assert Matches(play, af, "track_id") == [renamed, renamed];
    var df := Table({"track_id"}, [play, play]);
    assert df.rows[1..][1..] == [];
    assert JoinAll(df.rows[1..][1..], df.columns, af, "track_id", "_x", "_y") == [];
  }

  /**
   * The step with both slips repaired: the records are reduced to one per track id before the
   * merge, and the context column is computed row by row. Every play stays one row with its
   * own cells, and the context column appears whenever energy is there.
   */
  function AttachFeaturesFixed(df: Table, ids: seq<string>, hasClient: bool, records: seq<Row>,
                               score: (string, Row) -> Value): (r: Result<Table>)
    requires "track_id" in df.columns
    ensures !hasClient || ids == [] || records == [] ==> r == Ok(df)
    ensures r.Ok? ==> |r.value.rows| == |df.rows|
    ensures r.Ok? && hasClient && ids != [] && records != [] && "energy" in FeatureJoin(df, FeatureFrame(records)).columns ==>
      "context" in r.value.columns
  {
    if !hasClient || ids == [] || records == [] then Ok(df)
    else
      var af := FeatureFrame(records);
      if "track_id" !in af.columns then Err("KeyError: track_id")
      else
        var joined := FeatureJoin(df, DistinctOn(af, "track_id"));
        LeftJoinDistinct(df, af, "track_id", "_x", "_y");
        var withComposites := if "danceability" in joined.columns then FeatureEngineering.CreateCompositeFeatures(joined, score) else joined;
        Ok(if "energy" in withComposites.columns then FeatureEngineering.AddContextClassification(withComposites) else withComposites)
  }

  /** With the repair, each play keeps its own cells in the columns the records do not share. */
  lemma AttachFeaturesFixedKeepsPlays(df: Table, records: seq<Row>)
    requires "track_id" in df.columns
    ensures var joined := FeatureJoin(df, DistinctOn(FeatureFrame(records), "track_id"));
      && |joined.rows| == |df.rows|
      && forall i, c :: 0 <= i < |df.rows| && c in df.columns - Clash(df.columns, FeatureFrame(records).columns, "track_id") ==>
           Cell(joined.rows[i], c) == Cell(df.rows[i], c)
  {
    LeftJoinDistinct(df, FeatureFrame(records), "track_id", "_x", "_y");
  }

  // ---------------------------------------------------------------------------------------
  // process_recent_tracks / process_top_tracks

  const RecentColumns: set<string> := {"track_id", "track_name", "artist_name", "album_name", "played_at",
    "duration_ms", "popularity", "explicit", "preview_url"}

  /**
   * The frame `process_recent_tracks` builds before the audio-feature step, with the ids it
   * asks features for: None where it returns the empty frame instead (no items, or no item
   * with a track id); otherwise the rows of the items with an id, in order, with their time
   * columns.
   */
  method RecentFrame(items: seq<PlayItem>, parse: string -> Option<int>) returns (r: Result<Option<(Table, seq<string>)>>)
    ensures items == [] ==> r == Ok(None)
    ensures RecentRows(items).Ok? && RecentRows(items).value.rows == [] ==> r == Ok(None)
    ensures RecentRows(items).Err? ==> r.Err?
    ensures items != [] && RecentRows(items).Ok? && RecentRows(items).value.rows != [] ==>
      var timed := AddTimeColumns(RecentRows(items).value.rows, parse);
      && (timed.Err? ==> r.Err?)
      && (timed.Ok? ==> r == Ok(Some((Table(RecentColumns + TimeColumns, timed.value), RecentRows(items).value.ids))))
    ensures r.Ok? && r.value.Some? ==> |r.value.value.0.rows| == |WithId(items)| && "track_id" in r.value.value.0.columns
  {
    if items == [] {
      return Ok(None);
    }
    var extracted := ExtractRecent(items);
    if extracted.Err? {
      return Err(extracted.error);
    }
    if extracted.value.rows == [] {
      return Ok(None);
    }
    RecentRowsSpec(items);
    var timed := AddTimeColumns(extracted.value.rows, parse);
    if timed.Err? {
      return Err(timed.error);
    }
    r := Ok(Some((Table(RecentColumns + TimeColumns, timed.value), extracted.value.ids)));
  }

  /**
   * `process_recent_tracks` as written: the empty frame, an error, or the audio-feature step
   * as written on the frame built. The records are what `fetch_audio_features` answered for
   * the ids. Without a client or records, one row per item with an id comes back.
   */
  method ProcessRecentTracks(items: seq<PlayItem>, hasClient: bool, parse: string -> Option<int>,
                             records: seq<Row>, score: (string, Row) -> Value)
    returns (r: Result<Table>)
    ensures items == [] ==> r == Ok(EmptyTable())
    ensures RecentRows(items).Ok? && RecentRows(items).value.rows == [] ==> r == Ok(EmptyTable())
    ensures RecentRows(items).Err? ==> r.Err?
    ensures items != [] && RecentRows(items).Ok? && RecentRows(items).value.rows != [] ==>
      var timed := AddTimeColumns(RecentRows(items).value.rows, parse);
      && (timed.Err? ==> r.Err?)
      && (timed.Ok? ==>
            r == AttachFeatures(Table(RecentColumns + TimeColumns, timed.value), RecentRows(items).value.ids, hasClient, records, score))
    ensures r.Ok? && r.value != EmptyTable() && (!hasClient || records == []) ==> |r.value.rows| == |WithId(items)|
  {
    var frame := RecentFrame(items, parse);
    if frame.Err? {
      return Err(frame.error);
    }
    if frame.value.None? {
      return Ok(EmptyTable());
    }
    var (df, ids) := frame.value.value;
    r := AttachFeatures(df, ids, hasClient, records, score);
  }

  /**
   * `process_recent_tracks` over the repaired audio-feature step: one row per item with an
   * id whatever the records.
   */
  method ProcessRecentTracksFixed(items: seq<PlayItem>, hasClient: bool, parse: string -> Option<int>,
                                  records: seq<Row>, score: (string, Row) -> Value)
    returns (r: Result<Table>)
    ensures items == [] ==> r == Ok(EmptyTable())
    ensures RecentRows(items).Ok? && RecentRows(items).value.rows == [] ==> r == Ok(EmptyTable())
    ensures RecentRows(items).Err? ==> r.Err?
    ensures items != [] && RecentRows(items).Ok? && RecentRows(items).value.rows != [] ==>
      var timed := AddTimeColumns(RecentRows(items).value.rows, parse);
      && (timed.Err? ==> r.Err?)
      && (timed.Ok? ==>
            r == AttachFeaturesFixed(Table(RecentColumns + TimeColumns, timed.value), RecentRows(items).value.ids, hasClient, records, score))
    ensures r.Ok? && r.value != EmptyTable() ==> |r.value.rows| == |WithId(items)|
  {
    var frame := RecentFrame(items, parse);
    if frame.Err? {
      return Err(frame.error);
    }
    if frame.value.None? {
      return Ok(EmptyTable());
    }
    var (df, ids) := frame.value.value;
    r := AttachFeaturesFixed(df, ids, hasClient, records, score);
  }

  /** The row of one top track; a missing duration counts as 0 minutes. */
  function TopRow(t: TrackObject, artist: Option<string>): Row
    requires HasId(t)
  {
    map["track_id" := Str(t.id.value), "track_name" := OptStr(t.name), "artist_name" := OptStr(artist),
        "album_name" := OptStr(t.albumName), "popularity" := OptInt(t.popularity),
        "duration_ms" := OptInt(t.durationMs),
        "duration_min" := Real(if t.durationMs.Some? then t.durationMs.value as real / 60000.0 else 0.0),
        "preview_url" := OptStr(t.previewUrl)]
  }

  const TopColumns: set<string> := {"track_id", "track_name", "artist_name", "album_name", "popularity",
    "duration_ms", "duration_min", "preview_url"}

  /** The top-track loop over the first tracks, the first IndexError stopping it. */
  function TopRows(tracks: seq<TrackObject>): Result<Extracted> {
    if |tracks| == 0 then Ok(Extracted([], []))
    else
      var prev := TopRows(tracks[..|tracks| - 1]);
      var t := tracks[|tracks| - 1];
      if prev.Err? || !HasId(t) then prev
      else match ArtistName(t)
        case Err(e) => Err(e)
        case Ok(artist) => Ok(Extracted(prev.value.rows + [TopRow(t, artist)], prev.value.ids + [t.id.value]))
  }

  /** The same filter as for plays: one row per track with an id, in rank order. */
  lemma {:induction false} TopRowsSpec(tracks: seq<TrackObject>)
    requires TopRows(tracks).Ok?
    ensures var e := TopRows(tracks).value; var kept := Seqs.Filter(tracks, HasId);
      && |e.rows| == |kept| == |e.ids|
      && forall i :: 0 <= i < |kept| ==> kept[i].id == Some(e.ids[i]) && Cell(e.rows[i], "track_id") == Str(e.ids[i])
  {
    if |tracks| > 0 {
      var n := |tracks| - 1;
      assert tracks == tracks[..n] + [tracks[n]];
      Seqs.FilterConcat(tracks[..n], [tracks[n]], HasId);
      TopRowsSpec(tracks[..n]);
    }
  }

  /**
   * The frame `process_top_tracks` builds before the audio-feature step, with the ids it asks
   * features for: None where it returns the empty frame instead (no tracks, or none with an
   * id); otherwise a row per track with an id, in rank order.
   */
  method TopFrame(tracks: seq<TrackObject>) returns (r: Result<Option<(Table, seq<string>)>>)
    ensures tracks == [] ==> r == Ok(None)
    ensures TopRows(tracks).Ok? && TopRows(tracks).value.rows == [] ==> r == Ok(None)
    ensures TopRows(tracks).Err? ==> r.Err?
    ensures tracks != [] && TopRows(tracks).Ok? && TopRows(tracks).value.rows != [] ==>
      r == Ok(Some((Table(TopColumns, TopRows(tracks).value.rows), TopRows(tracks).value.ids)))
    ensures r.Ok? && r.value.Some? ==> |r.value.value.0.rows| == |Seqs.Filter(tracks, HasId)| && "track_id" in r.value.value.0.columns
  {
    if tracks == [] {
      return Ok(None);
    }
    var rows: seq<Row> := [];
    var ids: seq<string> := [];
    var i := 0;
    while i < |tracks|
      invariant 0 <= i <= |tracks|
      invariant TopRows(tracks[..i]) == Ok(Extracted(rows, ids))
    {
      var t := tracks[i];
      assert tracks[..i + 1][..i] == tracks[..i];
      if HasId(t) {
        var artist := ArtistName(t);
        if artist.Err? {
          TopErrSticks(tracks, i + 1);
          return Err(artist.error);
        }
        ids := ids + [t.id.value];
        rows := rows + [TopRow(t, artist.value)];
      }
      i := i + 1;
    }
    assert tracks[..i] == tracks;
    if rows == [] {
      return Ok(None);
    }
    TopRowsSpec(tracks);
    r := Ok(Some((Table(TopColumns, rows), ids)));
  }

  /**
   * `process_top_tracks` as written: the empty frame, an error, or the audio-feature step as
   * written on the frame built. Without a client or records, one row per track with an id
   * comes back.
   */
  method ProcessTopTracks(tracks: seq<TrackObject>, hasClient: bool, records: seq<Row>, score: (string, Row) -> Value)
    returns (r: Result<Table>)
    ensures tracks == [] ==> r == Ok(EmptyTable())
    ensures TopRows(tracks).Ok? && TopRows(tracks).value.rows == [] ==> r == Ok(EmptyTable())
    ensures TopRows(tracks).Err? ==> r.Err?
    ensures tracks != [] && TopRows(tracks).Ok? && TopRows(tracks).value.rows != [] ==>
      r == AttachFeatures(Table(TopColumns, TopRows(tracks).value.rows), TopRows(tracks).value.ids, hasClient, records, score)
    ensures r.Ok? && r.value != EmptyTable() && (!hasClient || records == []) ==> |r.value.rows| == |Seqs.Filter(tracks, HasId)|
  {
    var frame := TopFrame(tracks);
    if frame.Err? {
      return Err(frame.error);
    }
    if frame.value.None? {
      return Ok(EmptyTable());
    }
    var (df, ids) := frame.value.value;
    r := AttachFeatures(df, ids, hasClient, records, score);
  }

  /** `process_top_tracks` over the repaired audio-feature step: one row per track with an id. */
  method ProcessTopTracksFixed(tracks: seq<TrackObject>, hasClient: bool, records: seq<Row>, score: (string, Row) -> Value)
    returns (r: Result<Table>)
    ensures tracks == [] ==> r == Ok(EmptyTable())
    ensures TopRows(tracks).Ok? && TopRows(tracks).value.rows == [] ==> r == Ok(EmptyTable())
    ensures TopRows(tracks).Err? ==> r.Err?
    ensures tracks != [] && TopRows(tracks).Ok? && TopRows(tracks).value.rows != [] ==>
      r == AttachFeaturesFixed(Table(TopColumns, TopRows(tracks).value.rows), TopRows(tracks).value.ids, hasClient, records, score)
    ensures r.Ok? && r.value != EmptyTable() ==> |r.value.rows| == |Seqs.Filter(tracks, HasId)|
  {
    var frame := TopFrame(tracks);
    if frame.Err? {
      return Err(frame.error);
    }
    if frame.value.None? {
      return Ok(EmptyTable());
    }
    var (df, ids) := frame.value.value;
    r := AttachFeaturesFixed(df, ids, hasClient, records, score);
  }

  lemma {:induction false} TopErrSticks(tracks: seq<TrackObject>, k: nat)
    requires k <= |tracks|
    requires TopRows(tracks[..k]).Err?
    ensures TopRows(tracks) == TopRows(tracks[..k])
    decreases |tracks| - k
  {
    if k < |tracks| {
      assert tracks[..k + 1][..k] == tracks[..k];
      TopErrSticks(tracks, k + 1);
    } else {
      assert tracks[..k] == tracks;
    }
  }

  // ---------------------------------------------------------------------------------------
  // calculate_diversity_score

  /** The score: 0, or the normalised Shannon entropy of `distinct` values over `rows` rows. */
  datatype Diversity = NoDiversity | Entropy(distinct: nat, rows: nat)

  /**
   * `calculate_diversity_score`: 0 for an empty frame, a missing column, or a column with a
   * single distinct value (its maximal entropy is 0); otherwise the normalised entropy.
   * A column with no value at all divides 0 by minus infinity: -0.0, reported here as 0.
   */
  function DiversityScore(t: Table, column: string): (d: Diversity)
    ensures d.NoDiversity? <==> IsEmpty(t) || column !in t.columns || NUnique(t, column) <= 1
    ensures d.Entropy? ==> 2 <= d.distinct <= d.rows && d.rows == |t.rows|
  {
    if IsEmpty(t) || column !in t.columns then NoDiversity
    else
      var n := NUnique(t, column);
      if n <= 1 then NoDiversity else Entropy(n, |t.rows|)
  }
}

=== FILE: wrappers.dfy ===
/** Optional values and results that carry an error message instead of raising. */
module Wrappers {

  /** A value that may be missing: Python's None, or a pandas NaN in a numeric cell. */
  datatype Option<T> = None | Some(value: T) {
    function GetOr(default: T): T {
      match this
      case Some(v) => v
      case None => default
    }
  }

  /** The outcome of a call that may raise: the value, or the message of the exception. */
  datatype Result<T> = Ok(value: T) | Err(error: string)
}
